=== FILE: README.md ===
# Contact Form 7 → Action Network, modelled in Dafny

This project models the core of the WordPress plugin "Form Integration for
Action Network and Contact Form 7". When a Contact Form 7 form is submitted,
the plugin does the following:

- reads the form's Action Network settings: hook URLs, special mail tags,
  custom headers, country auto-detection, source name, autoresponse and tags;
- checks that the form can submit, and then suppresses Contact Form 7's own mail;
- substitutes `[field]` placeholders in each hook URL;
- formats the submitted fields into an Action Network `person` record, using a
  fixed table of field-name synonyms;
- optionally detects the visitor's country;
- sends one POST per hook URL. Each POST has endpoint rewriting (`/signatures`,
  `/attendances`, …), custom headers, and up to three attempts with
  exponential back-off;
- collects the errors, and lets a filter decide whether an error is shown or
  ignored.

The model also covers saving the settings panel and showing it again, and the
admin page's live URL check.

The modules follow the program's structure:

| module | file | models |
|---|---|---|
| `Php` | php.dfy | PHP values, `empty()`, `(array)` and string casts |
| `Assoc` | assoc.dfy | PHP string-keyed arrays: lookup, assignment, `array_merge` |
| `Strings` | strings.dfy | `trim`, `explode`/`implode`, `strpos`, `str_replace`, `strtok`, `strtoupper`, `strlen` in UTF-8 bytes |
| `Platform` | platform.dfy | the WordPress and PHP library calls the core makes, as parameters |
| `Synonyms` | synonyms.dfy | the field-name mapping table of the formatter |
| `Placeholders` | placeholders.dfy | hook-URL placeholders and special mail tags |
| `Payload` | payload.dfy | `format_data_for_actionnetwork()` |
| `Country` | country.dfy | the visitor's IP and country detection |
| `Dispatcher` | dispatcher.dfy | `CFAN_ActionNetwork_Module`: validation, rewriting, headers, retry |
| `Settings` | settings.dfy | defaults, saving the panel, showing the panel |
| `Submission` | submission.dfy | `wpcf7_mail_sent()`, `wpcf7_skip_mail()`, `can_submit_to_actionnetwork()` |
| `Admin` | admin.dfy | the admin page's URL check (`admin.js`) |

Everything the core takes from outside is a parameter:

- the sanitizers, `esc_url_raw`, `urlencode`, `filter_var` and `wp_parse_url`
  are fields of `Platform.Library`;
- `$_SERVER`, GeoIP and the ipapi.co answer are fields of `Country.Request`;
- the network answers the n-th attempt of a request;
- the error-message filter maps an exception message to the message shown.

Sleeping is not performed: the retry loop returns the sleeps it would make.

Two facts about the code are easy to get wrong:

- **Field names are not lower-cased.** The synonym lookup uses the field
  name exactly as submitted (modules/cf7/class-module-cf7.php:845), so
  `Email` is a custom field while `email` fills the address.
  `Synonyms.ResolveCaseSensitive` records this.
- **A wrong host is fatal.** `validate_actionnetwork_url()` returns false
  for a URL on any host other than `actionnetwork.org`, and
  `pull_the_trigger()` then throws
  (modules/actionnetwork/class-module-actionnetwork.php:180-191, 72-75).
  Only the admin page treats an unknown path as a mere warning.

## Model

| member | source | states |
|---|---|---|
| Php.AsArray | modules/cf7/class-module-cf7.php:329 | the `(array)` cast gives a list's items, a keyed array's values in order, and wraps anything else as a one-element array |
| Php.Values | modules/cf7/class-module-cf7.php:340 | the values of an array, in order, as `implode` reads them |
| Assoc.Get | modules/cf7/class-module-cf7.php:338 | a lookup finds a value exactly when the key is present, and the value is the one stored under that key |
| Assoc.GetAt | modules/cf7/class-module-cf7.php:338 | in an array with distinct keys, looking up the i-th key gives the i-th value |
| Assoc.Put | modules/cf7/class-module-cf7.php:167-228 | assignment sets the key, changes no other key, appends a new key at the end and keeps the position of an existing one |
| Assoc.SetAll | modules/cf7/class-module-cf7.php:891-914 | overwriting a key changes only that key and keeps the key order |
| Assoc.Merge | modules/cf7/class-module-cf7.php:232 | `array_merge`: the second array wins on shared keys, and the first array's keys keep their order at the front |
| Assoc.GetSnoc | modules/cf7/class-module-cf7.php:838-888 | with distinct keys, the last entry answers for its own key, which no earlier entry holds, and the earlier entries answer for every other key |
| Assoc.MergeOntoEmpty | modules/cf7/class-module-cf7.php:619-643 | merging entries onto an empty array finds every entry's key, and every value found is one of the entries |
| Assoc.GetAppend | modules/cf7/class-module-cf7.php:619-643 | a lookup in `a + b` finds `b`'s value for a key `b` holds, and `a`'s otherwise: a later assignment wins |
| Assoc.MergeTwo | modules/cf7/class-module-cf7.php:657-660 | assigning two entries to an empty array keeps both in order, or one with the later value when the keys are the same |
| Assoc.MergeOne | modules/cf7/class-module-cf7.php:657-660 | assigning one entry to an empty array gives that entry |
| Assoc.PutAfterOne | modules/cf7/class-module-cf7.php:657-660 | assigning to a one-entry array overwrites the entry with the same key and appends a new key |
| Strings.TrimLeftWith | modules/cf7/class-module-cf7.php:205 | removes exactly the longest prefix of whitespace |
| Strings.TrimRightWith | modules/cf7/class-module-cf7.php:205 | removes exactly the longest suffix of whitespace |
| Strings.TrimWith | modules/cf7/class-module-cf7.php:205 | the trimmed string is a contiguous middle part of the input with only whitespace before and after it, and neither starts nor ends with whitespace |
| Strings.TrimWithFixed | modules/cf7/class-module-cf7.php:205 | trimming a string without outer whitespace returns it unchanged |
| Strings.TrimWithEmpty | modules/cf7/admin/assets/admin.js:36-44 | a string trims to empty exactly when every character is whitespace |
| Strings.TrimWithDropsLeading | modules/cf7/class-module-cf7.php:205 | a leading whitespace character makes no difference to the trim |
| Strings.Split | modules/cf7/class-module-cf7.php:203 | `explode` yields at least one piece and no piece holds the delimiter |
| Strings.JoinSplit | modules/cf7/class-module-cf7.php:203 | joining the pieces of `explode` with the delimiter gives back the string |
| Strings.SplitWithout | modules/cf7/class-module-cf7.php:203 | a string without the delimiter explodes to itself |
| Strings.SplitAfter | modules/cf7/class-module-cf7.php:203 | `explode` cuts at the first delimiter and goes on with the rest |
| Strings.SplitJoin | modules/cf7/class-module-cf7.php:166 | exploding the join of delimiter-free pieces gives back the pieces |
| Strings.IndexOfFrom | modules/actionnetwork/class-module-actionnetwork.php:206 | finds the first occurrence at or after the start, and reports none when there is none |
| Strings.ContainsIff | modules/actionnetwork/class-module-actionnetwork.php:206 | containment holds exactly when the pattern occurs somewhere |
| Strings.Lower | modules/actionnetwork/class-module-actionnetwork.php:79-87 | lower-cases each character and keeps the length |
| Strings.Upper | modules/cf7/class-module-cf7.php:1007 | upper-cases each character and keeps the length |
| Strings.ReplaceAbsent | modules/cf7/class-module-cf7.php:357 | `str_replace` of an absent pattern changes nothing |
| Strings.ReplaceFirst | modules/cf7/class-module-cf7.php:357 | `str_replace` replaces the first occurrence and goes on after it |
| Strings.RTrimChar | modules/actionnetwork/class-module-actionnetwork.php:80-88 | `rtrim(url, '/')` removes exactly the trailing slashes |
| Strings.BeforeFirst | modules/cf7/class-module-cf7.php:1059 | the prefix up to the first delimiter, which it does not contain |
| Strings.BeforeFirstChar | modules/cf7/class-module-cf7.php:1059 | a delimiter-free prefix followed by the delimiter is that prefix |
| Strings.Strtok | modules/cf7/class-module-cf7.php:313 | `strtok` returns false exactly when the string is all delimiters; otherwise it returns the text before the first delimiter that follows the leading delimiters, which is non-empty and delimiter-free |
| Strings.Utf8Length | modules/cf7/class-module-cf7.php:1020 | `strlen` counts bytes: never fewer than characters, and exactly as many for ASCII; the exact count is stated by Strings.Utf8LengthAppend and Strings.Utf8LengthOne |
| Strings.Utf8LengthAppend | modules/cf7/class-module-cf7.php:1020 | the byte length of a concatenation is the sum of the parts' byte lengths |
| Strings.Utf8LengthOne | modules/cf7/class-module-cf7.php:1020 | one character takes its UTF-8 width: 1 byte below U+0080, 2 below U+0800, 3 below U+10000, else 4 |
| Strings.Utf8LengthTwo | modules/cf7/class-module-cf7.php:1020 | `strlen` is 2 exactly for two ASCII characters or for one character of U+0080 to U+07FF |
| Strings.FilterNonEmpty | modules/cf7/class-module-cf7.php:151-165 | `array_filter` keeps exactly the strings that are not PHP-empty; the order is stated by Strings.FilterNonEmptyAppend and Strings.FilterNonEmptyOne |
| Strings.FilterNonEmptyAppend | modules/cf7/class-module-cf7.php:151-165 | filtering a concatenation filters each part: the kept strings keep their order |
| Strings.FilterNonEmptyOne | modules/cf7/class-module-cf7.php:151-165 | a single string is kept exactly when it is not PHP-empty |
| Strings.SplitAppend | modules/cf7/class-module-cf7.php:203 | splitting `a`, a delimiter, `b` gives the pieces of `a` followed by the pieces of `b` |
| Strings.Replace | modules/cf7/class-module-cf7.php:357 | definition of `str_replace()`; stated by Strings.ReplaceAbsent, Strings.ReplaceFirst and Placeholders.ReplaceRepeated |
| Synonyms.SlotOf | modules/cf7/class-module-cf7.php:721-732 | the core-field lookup finds a slot exactly when the key is that slot's name |
| Synonyms.Synonym | modules/cf7/class-module-cf7.php:735-789 | definition of the mapping table; stated by Synonyms.MappingTargetsSlots, Synonyms.GivenNameSynonyms, Synonyms.EmailSynonyms and Synonyms.AddressIsStreet |
| Synonyms.Resolve | modules/cf7/class-module-cf7.php:735-848 | a listed name fills its synonym's slot; any other name fills a slot only when it is literally that slot's name |
| Synonyms.MappingTargetsSlots | modules/cf7/class-module-cf7.php:735-789 | every synonym names a core slot, and only the three email names map to the email address |
| Synonyms.GivenNameSynonyms | modules/cf7/class-module-cf7.php:740-746 | the documented first-name fields fill the given name |
| Synonyms.EmailSynonyms | modules/cf7/class-module-cf7.php:736-739 | the documented email fields fill the email address |
| Synonyms.ResolveCaseSensitive | modules/cf7/class-module-cf7.php:845 | lookup is exact: differently cased names are custom fields |
| Synonyms.ResolvePassThrough | modules/cf7/class-module-cf7.php:845 | unlisted names that equal a slot name ('status', 'number') fill that slot |
| Synonyms.ResolveAddressLines | modules/cf7/class-module-cf7.php:845 | 'address_lines' has no synonym, yet fills the street address |
| Synonyms.AddressIsStreet | modules/cf7/class-module-cf7.php:735-789 | a field named 'address' fills the street address, not the email |
| Synonyms.EnvelopeKeysAreCustom | modules/cf7/class-module-cf7.php:845 | 'person' and 'triggers' resolve to no slot |
| Synonyms.TagKeysAreCustom | modules/cf7/class-module-cf7.php:845 | 'add_tags' and 'remove_tags' resolve to no slot |
| Placeholders.RunLength | modules/cf7/class-module-cf7.php:655 | the length of the longest bracket-free prefix |
| Placeholders.Tokens | modules/cf7/class-module-cf7.php:652-663 | every name the placeholder scan finds is non-empty and bracket-free |
| Placeholders.TokensSound | modules/cf7/class-module-cf7.php:652-663 | every name found occurs as `[name]` in the URL |
| Placeholders.TokensComplete | modules/cf7/class-module-cf7.php:652-663 | every `[name]` that occurs is found |
| Placeholders.TokensIff | modules/cf7/class-module-cf7.php:652-663 | a name is found exactly when `[name]` occurs in the URL |
| Placeholders.PlaceholdersOf | modules/cf7/class-module-cf7.php:652-663 | maps each occurring name, once, to its `[name]` placeholder and nothing else |
| Placeholders.ToStrings | modules/cf7/class-module-cf7.php:340 | the values of an array as strings, in order |
| Placeholders.SubstituteNoBracket | modules/cf7/class-module-cf7.php:336-358 | a URL without '[' goes out unchanged |
| Placeholders.PlaceholdersOfOne | modules/cf7/class-module-cf7.php:652-663 | a URL with one placeholder yields exactly that placeholder |
| Placeholders.ReplaceOne | modules/cf7/class-module-cf7.php:357 | replacing the only placeholder puts the value in its place |
| Placeholders.SubstituteOne | modules/cf7/class-module-cf7.php:336-358 | a placeholder becomes the URL-encoded field value: '' when the field is missing, the `|`-joined items for an array |
| Placeholders.FillValue | modules/cf7/class-module-cf7.php:338-341 | definition of the placeholder value (`$data[$key] ?? ''`, an array joined by '|'); stated by Placeholders.SubstituteOne and Submission.LaterPlaceholdersEmpty |
| Placeholders.SubstituteAll | modules/cf7/class-module-cf7.php:336-358 | definition of the replacement loop; stated by Placeholders.SubstituteOne, Placeholders.SubstituteRepeated and Placeholders.SubstituteDistinct |
| Placeholders.Substitute | modules/cf7/class-module-cf7.php:336-358 | definition of the placeholder substitution of a hook URL; stated by Placeholders.SubstituteNoBracket, Placeholders.SubstituteOne, Placeholders.SubstituteRepeated and Placeholders.SubstituteDistinct |
| Placeholders.ReplaceAfterFree | modules/cf7/class-module-cf7.php:357 | `str_replace()` replaces the placeholder that follows a text without '[' and goes on after it |
| Placeholders.TokensPlaceholder | modules/cf7/class-module-cf7.php:655 | a text that starts with `[name]` has `name` as its first placeholder, followed by the rest's |
| Placeholders.TokensTwo | modules/cf7/class-module-cf7.php:655 | a URL with `[k1]` then `[k2]` and no other '[' has the placeholders k1, k2, in order, repeats included |
| Placeholders.TokensOnly | modules/cf7/class-module-cf7.php:655 | a text whose only '[' opens `[key]` has `key` as its only placeholder |
| Placeholders.PlaceholdersOfTwo | modules/cf7/class-module-cf7.php:652-663 | such a URL maps k1 and k2 to their bracketed texts in order, with one entry when they are the same |
| Placeholders.ReplaceRepeated | modules/cf7/class-module-cf7.php:357 | `str_replace()` fills both places of a repeated placeholder |
| Placeholders.SubstituteRepeated | modules/cf7/class-module-cf7.php:336-358 | a placeholder repeated in a hook URL is filled with the same URL-encoded value at both places |
| Placeholders.OtherPlaceholderAbsent | modules/cf7/class-module-cf7.php:652-663 | a text whose only placeholder is `[k2]` does not contain a different `[k1]` |
| Placeholders.ReplaceFirstOfTwo | modules/cf7/class-module-cf7.php:357 | replacing the first of two different placeholders leaves the second in place |
| Placeholders.SubstituteDistinct | modules/cf7/class-module-cf7.php:336-358 | two different placeholders are each filled with their own URL-encoded value, when the first value holds no '[' |
| Placeholders.TagTexts | modules/cf7/class-module-cf7.php:623-624 | the bracketed texts of the special-tags setting hold no ']'; the texts are characterised by Placeholders.TagTextsNone, Placeholders.TagTextsSkip, Placeholders.TagTextsClosed and Placeholders.TagTextsUnclosed |
| Placeholders.TagTextsNone | modules/cf7/class-module-cf7.php:623-624 | a text without '[' has no bracketed texts |
| Placeholders.TagTextsSkip | modules/cf7/class-module-cf7.php:623-624 | text without '[' in front of the rest adds no bracketed texts |
| Placeholders.TagTextsClosed | modules/cf7/class-module-cf7.php:623-624 | a text that starts with `[t]` has `t` as its first bracketed text, followed by the rest's |
| Placeholders.TagTextsUnclosed | modules/cf7/class-module-cf7.php:623-624 | a '[' with no ']' after it gives no bracketed text, and the scan moves on |
| Placeholders.TagEntry | modules/cf7/class-module-cf7.php:625-640 | a tag text yields an entry only with a non-empty key and a non-empty, space-free tag |
| Placeholders.TagEntryNoAlias | modules/cf7/class-module-cf7.php:629-637 | a tag text without a space gives the entry tag → tag, or none when the tag is PHP-empty |
| Placeholders.TagEntryAlias | modules/cf7/class-module-cf7.php:629-637 | a tag text `tag alias…` gives the entry alias → tag, with the tag as its own key when the second piece is PHP-empty, and none when the tag is PHP-empty |
| Placeholders.TagEntries | modules/cf7/class-module-cf7.php:619-643 | the entries are exactly those of the well-formed tag texts |
| Placeholders.TagEntriesAppend | modules/cf7/class-module-cf7.php:626-640 | the entries of a concatenation of tag lists are the entries of each list, in order |
| Placeholders.TagEntriesAround | modules/cf7/class-module-cf7.php:626-640 | the entries of a list are those before a text, the text's own and those after it |
| Placeholders.EntriesWithoutKey | modules/cf7/class-module-cf7.php:626-640 | entries of texts none of which has key `k` do not hold `k` |
| Placeholders.EntriesLastWins | modules/cf7/class-module-cf7.php:626-640 | for a key, the value kept is the tag of the last text with that key |
| Placeholders.SpecialMailTagsLastWins | modules/cf7/class-module-cf7.php:639 | a key that several bracketed texts name gets the tag of the last of them |
| Placeholders.TwoTagsSameKey | modules/cf7/class-module-cf7.php:639 | `[t1 k] [t2 k]` maps `k` to `t2` |
| Placeholders.SpecialMailTags | modules/cf7/class-module-cf7.php:619-643 | the result has distinct keys and answers every key as the tag entries of the bracketed texts, taken in order, do; each key comes from a well-formed tag text, and each well-formed text's key is present |
| Placeholders.SpecialMailTagsWellFormed | modules/cf7/class-module-cf7.php:619-643 | every key and tag in the result is non-empty, and the tag holds no space |
| Payload.CustomValue | modules/cf7/class-module-cf7.php:886 | a custom field keeps an array as it is and turns a scalar into its `sanitize_text_field()` text |
| Payload.AddressLinesOf | modules/cf7/class-module-cf7.php:867-870 | one sanitized address line per item of the value |
| Payload.AbsorbSlot | modules/cf7/class-module-cf7.php:848-883 | reading a field changes a slot only when the field fills it, and then to what it writes |
| Payload.UnfilledSlotKept | modules/cf7/class-module-cf7.php:838-888 | a slot no field fills keeps its initial value |
| Payload.LastFillWins | modules/cf7/class-module-cf7.php:838-888 | a slot holds what its last filling field wrote |
| Payload.Absorb | modules/cf7/class-module-cf7.php:838-888 | definition of reading one submitted field into the person record; stated by Payload.AbsorbSlot, Payload.AbsorbOnePhone and Payload.AbsorbOneCustom |
| Payload.AbsorbAll | modules/cf7/class-module-cf7.php:838-888 | definition of the `foreach` over the submitted fields; stated by Payload.LastFillWins, Payload.UnfilledSlotKept, Payload.AbsorbPhones and Payload.AbsorbCustom |
| Payload.PhonesOf | modules/cf7/class-module-cf7.php:858-865 | every phone entry is 'subscribed' and comes from a non-empty phone field |
| Payload.PhonesOfAppend | modules/cf7/class-module-cf7.php:838-888 | the phones of concatenated fields are the concatenation of their phones |
| Payload.AbsorbOnePhone | modules/cf7/class-module-cf7.php:858-865 | one field adds at most its own phone entry |
| Payload.AbsorbOneCustom | modules/cf7/class-module-cf7.php:886 | one field stores at most itself as a custom field |
| Payload.AbsorbPhones | modules/cf7/class-module-cf7.php:838-888 | the phone list gains exactly the phone entries of the fields, in order |
| Payload.AbsorbCustom | modules/cf7/class-module-cf7.php:838-888 | custom fields are exactly the non-skipped fields that resolve to no slot, stored under their own names |
| Payload.SlotFieldsNotCustom | modules/cf7/class-module-cf7.php:845-886 | a field that resolves to a slot never becomes a custom field |
| Payload.WithCountry | modules/cf7/class-module-cf7.php:896-901 | a detected country fills only an empty postal country and changes nothing else |
| Payload.Truthy | modules/cf7/class-module-cf7.php:829-835 | `array_filter` keeps exactly the truthy tags; the order is stated by Payload.TruthyAppend and Payload.TruthyOne |
| Payload.TruthyAppend | modules/cf7/class-module-cf7.php:829-835 | filtering a concatenation filters each part: the kept tags keep their order |
| Payload.TruthyOne | modules/cf7/class-module-cf7.php:829-835 | a single tag is kept exactly when it is truthy |
| Payload.TagsOf | modules/cf7/class-module-cf7.php:829-835 | tags are sent exactly when the setting is a non-empty array, and they are its truthy entries in their order |
| Payload.Format | modules/cf7/class-module-cf7.php:718-949 | autoresponse follows the setting; source, website and tags are passed through |
| Payload.FormatName | modules/cf7/class-module-cf7.php:879-882 | a name is the sanitized value of its last field |
| Payload.FormatNameMissing | modules/cf7/class-module-cf7.php:795-826 | a name no field fills is sent as '' |
| Payload.FormatEmail | modules/cf7/class-module-cf7.php:850-914 | the email section exists exactly when the last address sanitizes to a non-empty string, and then holds it |
| Payload.FormatEmailMissing | modules/cf7/class-module-cf7.php:912-914 | with no email field there is no email section |
| Payload.FormatEmailStatus | modules/cf7/class-module-cf7.php:854-856 | the email status is the last status field |
| Payload.FormatEmailStatusDefault | modules/cf7/class-module-cf7.php:795-826 | without a status field the status is 'subscribed' |
| Payload.FormatPhones | modules/cf7/class-module-cf7.php:858-893 | one phone entry per non-empty phone field, in order, and no phone section when there are none |
| Payload.FormatCustomFields | modules/cf7/class-module-cf7.php:884-887 | the custom fields are exactly the non-skipped unmapped fields, under their own names |
| Payload.FormatCountry | modules/cf7/class-module-cf7.php:896-901 | a non-empty submitted country is kept, and detection never overrides it |
| Payload.FormatNoDetection | modules/cf7/class-module-cf7.php:904-909 | without detection the postal section is what the fields gave, dropped exactly when all parts are empty |
| Payload.FormatDetectedCountry | modules/cf7/class-module-cf7.php:896-909 | a detected country keeps the postal section even when the form gave no address |
| Payload.AsFields | modules/cf7/class-module-cf7.php:795-835 | the formatted array has `person` first, then only envelope keys |
| Payload.AsFieldsUniqueKeys | modules/cf7/class-module-cf7.php:795-835 | the formatted array has distinct keys |
| Payload.DraftWithoutSlots | modules/cf7/class-module-cf7.php:795-888 | fields that resolve to no slot leave names, email and phones empty |
| Payload.AsFieldsAreCustom | modules/cf7/class-module-cf7.php:845 | no key of a formatted array resolves to a slot |
| Payload.ReformatLosesContact | modules/cf7/class-module-cf7.php:361 | formatting an already formatted array yields no name, email or phone |
| Payload.ReformatBuriesPerson | modules/cf7/class-module-cf7.php:361 | formatting it again stores the first `person` array as a custom field |
| Payload.PersonValue | modules/cf7/class-module-cf7.php:795-815 | definition of the `person` array; stated by Payload.PersonValueSections |
| Payload.EmailValue | modules/cf7/class-module-cf7.php:808-813 | definition of the email entry; stated by Payload.EmailValueGet |
| Payload.PhoneValue | modules/cf7/class-module-cf7.php:860-863 | definition of a phone entry; stated by Payload.PhoneValueGet |
| Payload.PostalValue | modules/cf7/class-module-cf7.php:799-807 | definition of the postal entry; stated by Payload.PostalValueGet |
| Payload.PersonValueSections | modules/cf7/class-module-cf7.php:795-815 | the `person` array holds the names and custom fields under their own keys, and the postal, email and phone sections exactly when they are kept, built from the kept parts |
| Payload.PersonGet | modules/cf7/class-module-cf7.php:795-815 | a section key finds its section, or nothing once unset; any other key finds the opening names and custom fields |
| Payload.EmailValueGet | modules/cf7/class-module-cf7.php:808-813 | the email array reads back the address and status it was built from |
| Payload.PhoneValueGet | modules/cf7/class-module-cf7.php:860-863 | a phone array reads back the number and status it was built from |
| Payload.PostalValueGet | modules/cf7/class-module-cf7.php:799-807 | the postal array reads back the postal code, locality, region and country, and the address lines as a list of texts in their order |
| Country.ServerText | modules/cf7/class-module-cf7.php:1054-1055 | a server variable is read exactly when it is set and not PHP-empty, and is then its sanitized text |
| Country.FirstAddress | modules/cf7/class-module-cf7.php:1058-1060 | the first, trimmed address of a comma-separated list |
| Strings.SplitFirstIsBeforeFirst | modules/cf7/class-module-cf7.php:1059 | the first piece of `explode` is the text before the first delimiter |
| Country.UserIpFrom | modules/cf7/class-module-cf7.php:1053-1069 | the first header in order whose address is a public IP, and none when no header gives one |
| Country.UserIp | modules/cf7/class-module-cf7.php:1040-1070 | definition of `get_user_ip()`; stated by Country.UserIpFrom, Country.CloudflareAddressFirst and Country.RemoteAddrLast |
| Country.FirstOffer | modules/cf7/class-module-cf7.php:1053-1069 | the first present offer in order; none exactly when no offer is present |
| Country.CandidateIsPublic | modules/cf7/class-module-cf7.php:1059-1064 | an address a header offers is a public IP and holds no comma |
| Country.Candidate | modules/cf7/class-module-cf7.php:1053-1066 | definition of the address one server variable offers; stated by Country.CandidateIsPublic |
| Country.CloudflareAddressFirst | modules/cf7/class-module-cf7.php:1042-1043 | a usable Cloudflare address wins over every other header |
| Country.RemoteAddrLast | modules/cf7/class-module-cf7.php:1050 | `REMOTE_ADDR` is used only when no proxy header gives an address |
| Country.ViaIpapi | modules/cf7/class-module-cf7.php:1087-1097 | an answer is taken exactly when the body trims to two ASCII letters, and it is then the trimmed body upper-cased |
| Country.CloudflareCountry | modules/cf7/class-module-cf7.php:1018-1022 | the Cloudflare country is used exactly when its sanitized header is set, is not 'XX' and is two bytes long, and is then that header upper-cased |
| Country.CloudflareCountryShape | modules/cf7/class-module-cf7.php:1020 | a Cloudflare country that is used is two ASCII characters or one character of U+0080 to U+07FF |
| Country.UpperKeepsNonEmpty | modules/cf7/class-module-cf7.php:1021 | upper-casing a two-byte or non-empty string keeps it non-empty |
| Country.UpperOnlyZero | modules/cf7/class-module-cf7.php:1021 | only "0" upper-cases to "0" |
| Country.TagIndex | modules/cf7/class-module-cf7.php:1114 | the position of the leftmost `xx-YY` language tag, and none when there is none |
| Country.FromLanguageFirstTag | modules/cf7/class-module-cf7.php:1114-1116 | the browser-language country is the region of the leftmost `xx-YY` tag |
| Country.FromLanguage | modules/cf7/class-module-cf7.php:1106-1120 | the browser-language country is two upper-case ASCII letters, comes from a set header, and is missing exactly when the header holds no `xx-YY` tag |
| Country.ViaGeoip | modules/cf7/class-module-cf7.php:1004-1009 | a GeoIP answer is used exactly when GeoIP is available and its answer is not PHP-empty, and is then that answer upper-cased |
| Country.Detect | modules/cf7/class-module-cf7.php:992-1032 | nothing is detected for a missing or loopback address, and a detected country is never empty |
| Country.FirstAnswer | modules/cf7/class-module-cf7.php:1000-1031 | the first source that answers decides, and none when none answers |
| Country.DetectIsFirstAnswer | modules/cf7/class-module-cf7.php:1000-1031 | detection tries GeoIP, ipapi.co, Cloudflare and the browser language, in that order |
| Country.FirstOfFour | modules/cf7/class-module-cf7.php:1000-1031 | the first answer among four sources, spelled out |
| Country.DetectIfEnabled | modules/cf7/class-module-cf7.php:959-984 | detection runs only when the form's setting is '1' |
| Dispatcher.ValidateUrl | modules/actionnetwork/class-module-actionnetwork.php:180-214 | a URL is valid exactly when it is well-formed and its host is actionnetwork.org |
| Dispatcher.RewriteWith | modules/actionnetwork/class-module-actionnetwork.php:78-89 | the first rule whose marker the URL contains, ignoring case, decides the suffix; with no match the URL is unchanged |
| Dispatcher.RewriteChanges | modules/actionnetwork/class-module-actionnetwork.php:78-89 | a matching URL is always changed: its trailing slashes are dropped and the sub-endpoint is appended |
| Dispatcher.RewriteWithChanges | modules/actionnetwork/class-module-actionnetwork.php:78-89 | for any rule list whose suffixes are non-empty and do not end in '/', the first matching rule turns the URL into its slash-trimmed self plus that rule's suffix, which differs from the original |
| Dispatcher.RewriteEvents | modules/actionnetwork/class-module-actionnetwork.php:79-80 | an events URL becomes its `/attendances` endpoint |
| Dispatcher.RewriteEndpoint | modules/actionnetwork/class-module-actionnetwork.php:78-89 | definition of the endpoint rewriting with the source's rule table; stated by Dispatcher.RewriteWith, Dispatcher.RewriteWithChanges and Dispatcher.RewriteEvents |
| Dispatcher.ParseHeaderLine | modules/actionnetwork/class-module-actionnetwork.php:161-166 | a header is read only from a line that holds ':' |
| Dispatcher.HeaderLineWithoutColon | modules/actionnetwork/class-module-actionnetwork.php:161-166 | a line without ':' gives no header |
| Dispatcher.HeaderLineSplit | modules/actionnetwork/class-module-actionnetwork.php:161-166 | a line `name:value` with a colon-free name gives the header trimmed name → trimmed value, each sanitized, exactly when neither trims to a PHP-empty text |
| Dispatcher.HeaderLineRoundTrip | modules/actionnetwork/class-module-actionnetwork.php:161-166 | a line `name: value` parses back to its name and value |
| Dispatcher.ParsedHeaders | modules/actionnetwork/class-module-actionnetwork.php:158-168 | at most one header per line, and none when no line parses |
| Dispatcher.ParsedHeadersAppend | modules/actionnetwork/class-module-actionnetwork.php:158-168 | the headers of the lines of two texts joined by a line break are those of the first followed by those of the second |
| Dispatcher.ParsedHeadersSkip | modules/actionnetwork/class-module-actionnetwork.php:158-168 | a line that gives no header adds nothing |
| Dispatcher.ParsedHeadersOne | modules/actionnetwork/class-module-actionnetwork.php:158-168 | a line that gives a header adds exactly that header |
| Dispatcher.CreateHeaders | modules/actionnetwork/class-module-actionnetwork.php:151-171 | distinct header names, with `Content-Type` first |
| Dispatcher.CreateHeadersGet | modules/actionnetwork/class-module-actionnetwork.php:151-171 | each header holds its last custom line's value, `Content-Type` is JSON unless overridden, and no other header is sent |
| Dispatcher.OneCustomHeader | modules/actionnetwork/class-module-actionnetwork.php:151-171 | one custom line adds exactly that header |
| Dispatcher.ContentType | modules/actionnetwork/class-module-actionnetwork.php:152-156 | `Content-Type` starts with `application/json`, is exactly that when the blog charset is PHP-empty, and otherwise ends with the charset |
| Dispatcher.CustomHeaders | modules/actionnetwork/class-module-actionnetwork.php:99 | definition of the custom header text read from the form; used by Dispatcher.PullTheTrigger |
| Dispatcher.Pow2 | modules/actionnetwork/class-module-actionnetwork.php:244-247 | back-off delays are at least one second; `pow(2, a + b)` is stated by Dispatcher.Pow2Add |
| Dispatcher.Backoff | modules/actionnetwork/class-module-actionnetwork.php:244-247 | the k-th sleep is 2^(from+k) seconds |
| Dispatcher.RetryFrom | modules/actionnetwork/class-module-actionnetwork.php:225-252 | delivers exactly when some attempt within the limit succeeds, and then at the first one; otherwise it gives up with the last error after all attempts |
| Dispatcher.Succeeds | modules/actionnetwork/class-module-actionnetwork.php:233-237 | definition of a successful response (no transport error, code below 400); stated by Dispatcher.RetryContract |
| Dispatcher.FailureMessage | modules/actionnetwork/class-module-actionnetwork.php:238-240 | definition of the recorded exception message; stated by Dispatcher.RetryFrom and Dispatcher.PullTheTrigger |
| Dispatcher.Retry | modules/actionnetwork/class-module-actionnetwork.php:225-252 | definition of `send_to_actionnetwork_with_retry()`; stated by Dispatcher.RetryContract |
| Dispatcher.RetryContract | modules/actionnetwork/class-module-actionnetwork.php:225-252 | at most `retries` attempts; delivered exactly when one of them succeeds; one sleep fewer than attempts; giving up reports the last attempt's error |
| Dispatcher.BackoffTotal | modules/actionnetwork/class-module-actionnetwork.php:244-247 | the sleeps add up to 2^from·(2^n − 1) |
| Dispatcher.Pow2Add | modules/actionnetwork/class-module-actionnetwork.php:244-247 | `pow(2, a + b)` is `pow(2, a) * pow(2, b)` |
| Dispatcher.BackoffSpan | modules/actionnetwork/class-module-actionnetwork.php:244-247 | the n sleeps from 2^from on add up to 2^(from+n) − 2^from |
| Dispatcher.ThreeAttemptsSleepAtMostThree | modules/actionnetwork/class-module-actionnetwork.php:225-252 | with three attempts the sleeps are [], [1] or [1, 2], and total at most three seconds |
| Dispatcher.RetryExample | modules/actionnetwork/class-module-actionnetwork.php:225-252 | two server errors and then a success give three attempts and sleeps of 1 and 2 |
| Dispatcher.PullTheTrigger | modules/actionnetwork/class-module-actionnetwork.php:58-135 | throws the invalid-URL error exactly when validation fails; for a valid URL the request is sent exactly when one of the three attempts succeeds, a thrown error carries the third attempt's failure, and a sent request goes to the rewritten endpoint with the given data and headers and got a code below 400 |
| Dispatcher.RequestFor | modules/actionnetwork/class-module-actionnetwork.php:58-135 | definition of the request a valid URL gets; stated by Dispatcher.PullTheTrigger |
| Settings.Strs | modules/cf7/class-module-cf7.php:207 | the tags as PHP strings, in order |
| Settings.DefaultsUnique | modules/cf7/class-module-cf7.php:245-254 | the default settings have distinct keys |
| Settings.WithDefaults | modules/cf7/class-module-cf7.php:243-258 | stored settings are kept as they are; a form without settings gets exactly the defaults |
| Settings.Flag | modules/cf7/class-module-cf7.php:179-196 | a checkbox setting is '1' exactly when the posted value sanitizes to '1', and '0' otherwise |
| Settings.SourceName | modules/cf7/class-module-cf7.php:185-190 | the sanitized posted source name when it is not PHP-empty, otherwise 'contact-form-7' |
| Settings.TrimAll | modules/cf7/class-module-cf7.php:205 | trims each piece, in order |
| Settings.ParseTags | modules/cf7/class-module-cf7.php:198-212 | the tags are exactly the non-empty trimmed comma-separated pieces; their order is stated by Settings.ParseTagsAppend and Settings.ParseTagsOne |
| Settings.ParseTagsAppend | modules/cf7/class-module-cf7.php:198-212 | the tags of `a,b` are the tags of `a` followed by those of `b` |
| Settings.ParseTagsOne | modules/cf7/class-module-cf7.php:198-212 | a text without a comma gives its trimmed self as the only tag, or none when that is PHP-empty |
| Settings.ParseTagsPieces | modules/cf7/class-module-cf7.php:198-212 | the tags are the trimmed pieces that are not PHP-empty, in order |
| Settings.TagsField | modules/cf7/class-module-cf7.php:198-212 | definition of reading a tag list field; stated by Settings.NewProperties and Settings.TagsRoundTrip |
| Settings.PiecesHaveNoComma | modules/cf7/class-module-cf7.php:198-212 | no trimmed piece of a split at ',' holds a comma |
| Settings.TrimKeepsAbsent | modules/cf7/class-module-cf7.php:205 | trimming adds no character |
| Settings.HookUrls | modules/cf7/class-module-cf7.php:150-168 | every saved hook URL is non-empty |
| Settings.TextSettings | modules/cf7/class-module-cf7.php:150-177 | each text setting is saved exactly when its field was posted, with the posted value: the sanitized hook URLs as a list, the special tags and custom headers as sanitized text |
| Settings.PutWhen | modules/cf7/class-module-cf7.php:150-177 | a setting is assigned exactly when its field was sent; every other key keeps its value and keys stay distinct |
| Settings.TextEntries | modules/cf7/class-module-cf7.php:150-177 | the three text settings are stored exactly as given, under distinct keys, and nothing else is stored |
| Settings.FixedSettings | modules/cf7/class-module-cf7.php:179-228 | the flags, source name and tags are always saved, with the posted values |
| Settings.NewProperties | modules/cf7/class-module-cf7.php:147-228 | the saved settings hold only the panel's keys, with distinct keys; the text settings are saved as the text fields give them, and the two flags, the source name and the two tag lists get the values the fixed fields give them |
| Settings.SaveWritesFixed | modules/cf7/class-module-cf7.php:180-233 | saving stores the two flags, the source name and the two tag lists the fixed fields give |
| Settings.SaveWritesAssigned | modules/cf7/class-module-cf7.php:147-233 | saving stores every text setting the panel posted |
| Settings.SaveSettings | modules/cf7/class-module-cf7.php:230-233 | the posted settings replace their keys and every other stored setting is kept |
| Settings.SaveKeepsUnassigned | modules/cf7/class-module-cf7.php:147-233 | a setting the panel does not assign keeps its stored value after a save |
| Settings.Shown | modules/cf7/admin/actionnetwork-panel-html.php:20-53 | the panel shows a stored setting, or its default |
| Settings.ShownTags | modules/cf7/admin/actionnetwork-panel-html.php:55-61 | the panel shows stored tags only when they are an array |
| Settings.PanelOfDefaults | modules/cf7/admin/actionnetwork-panel-html.php:10-18 | the panel shows the same for the plugin's default settings as for no settings |
| Settings.PanelOf | modules/cf7/admin/actionnetwork-panel-html.php:10-18 | definition of the values the panel shows; stated by Settings.PanelOfDefaults, Settings.NoticeNeedsActivate and Settings.NoUrlNoticeAfterSave |
| Settings.ShownAt | modules/cf7/admin/actionnetwork-panel-html.php:20-53 | the panel shows the stored value of a key that is present |
| Settings.ShownDefaults | modules/cf7/admin/actionnetwork-panel-html.php:10-53 | each default setting is shown as its default |
| Settings.ShownDefaultTags | modules/cf7/admin/actionnetwork-panel-html.php:55-61 | the default tags are shown as empty lists |
| Settings.NoticeNeedsActivate | modules/cf7/admin/actionnetwork-panel-html.php:81-85 | the missing-URL notice needs an `activate` setting |
| Settings.SaveNeverActivates | modules/cf7/class-module-cf7.php:147-233 | saving never writes `activate` |
| Settings.NoUrlNoticeAfterSave | modules/cf7/admin/actionnetwork-panel-html.php:81-85 | once saved, a form without `activate` never shows the notice |
| Settings.CheckboxRoundTrip | modules/cf7/admin/actionnetwork-panel-html.php:104-120 | a checkbox posted as shown saves the same checked state |
| Settings.CheckboxPost | modules/cf7/admin/actionnetwork-panel-html.php:104-120 | definition of what a checkbox posts; stated by Settings.CheckboxRoundTrip |
| Settings.Padded | modules/cf7/admin/actionnetwork-panel-html.php:159 | each tag after the first is preceded by the space of ', ' |
| Settings.JoinPadded | modules/cf7/admin/actionnetwork-panel-html.php:159 | joining with ', ' is joining the padded tags with ',' |
| Settings.SplitJoinedTags | modules/cf7/class-module-cf7.php:203 | exploding the joined tags gives the padded tags |
| Settings.TrimPlainTag | modules/cf7/class-module-cf7.php:205 | a plain tag survives trimming, with or without the padding |
| Settings.TrimPadded | modules/cf7/class-module-cf7.php:205 | trimming the padded tags gives back the tags |
| Settings.JoinedTagsNotEmpty | modules/cf7/class-module-cf7.php:202 | a non-empty list of plain tags joins to a non-empty string |
| Settings.TagsRoundTrip | modules/cf7/admin/actionnetwork-panel-html.php:159-169 | tags shown as a ', '-joined list save back to the same tags |
| Settings.HookUrlKeepsPlaceholder | modules/cf7/class-module-cf7.php:151-165 | the placeholder survives URL sanitizing through its marker |
| Settings.HookUrlPlain | modules/cf7/class-module-cf7.php:151-165 | a URL without placeholders is `esc_url_raw(sanitize_url(trim(line)))` |
| Settings.CleanHookUrl | modules/cf7/class-module-cf7.php:151-165 | definition of cleaning one hook URL line; stated by Settings.HookUrlPlain and Settings.HookUrlKeepsPlaceholder |
| Settings.HookUrlsRoundTrip | modules/cf7/class-module-cf7.php:151-165 | clean hook URLs written one per line and posted back by a multi-line field save back to the same list |
| Settings.StripNewlines | modules/cf7/admin/actionnetwork-panel-html.php:80 | the text without line feeds and carriage returns, keeping every other character |
| Settings.UrlInputValue | modules/cf7/admin/actionnetwork-panel-html.php:80 | what a url input posts holds no line feed |
| Settings.SingleLineOneHookUrl | modules/cf7/class-module-cf7.php:151-165 | a hook URL text without line breaks saves at most one URL |
| Settings.UrlInputLosesHookUrls | modules/cf7/admin/actionnetwork-panel-html.php:80 | as written, two or more stored hook URLs shown in the single-line url input do not save back unchanged |
| Settings.SubstituteNoBracketPhs | modules/cf7/class-module-cf7.php:652-663 | a URL without '[' has no placeholders |
| Submission.CanSubmitIff | modules/cf7/class-module-cf7.php:593-610 | a form can submit exactly when some hook URL is usable |
| Submission.HookUrlsOf | modules/cf7/class-module-cf7.php:328 | definition of the hook URLs the loop walks (`(array)` cast); stated by Submission.CanSubmitAttempts and Submission.MailSent |
| Submission.UsableUrl | modules/cf7/class-module-cf7.php:602-606 | definition of a hook URL that trims to a non-PHP-empty text; stated by Submission.CanSubmitIff and Submission.UsableNotEmpty |
| Submission.EmptyValueHasNoUrl | modules/cf7/class-module-cf7.php:593-610 | an empty hook-URL setting has no usable URL |
| Submission.CanSubmit | modules/cf7/class-module-cf7.php:593-610 | definition of `can_submit_to_actionnetwork()`; stated by Submission.CanSubmitIff and Submission.CanSubmitAttempts |
| Submission.SkipMail | modules/cf7/class-module-cf7.php:267-274 | Contact Form 7's mail is skipped exactly when it was skipped already or the form can submit |
| Submission.Website | modules/cf7/class-module-cf7.php:313 | the website is false exactly when the referrer is all '?'; otherwise it is the text before the first '?' that follows the leading '?'s, which is non-empty and query-free |
| Submission.NoSourceParam | modules/cf7/class-module-cf7.php:316-325 | definition of a referrer without a `source` parameter; used by Submission.Source |
| Submission.Source | modules/cf7/class-module-cf7.php:316-325 | a `source` query parameter wins; when the referrer has no query or a query without `source`, the form's non-empty source name, otherwise 'contact-form-7' |
| Submission.Errors | modules/cf7/class-module-cf7.php:373-377 | the errors are exactly the attempts that threw |
| Submission.UsableCount | modules/cf7/class-module-cf7.php:329-332 | at most one endpoint per hook URL |
| Submission.Run | modules/cf7/class-module-cf7.php:329-401 | one attempt per non-empty hook URL unless an error stops the loop early; each attempt's result is the dispatcher's answer for that attempt's body and URL; the errors are the attempts that threw |
| Submission.RunFailure | modules/cf7/class-module-cf7.php:390-399 | a failure comes from the last attempt, which threw, and its message is the filtered, non-empty error message |
| Submission.RunIgnoredErrors | modules/cf7/class-module-cf7.php:390-393 | an error that did not stop the loop had an empty filtered message |
| Submission.FirstAttempt | modules/cf7/class-module-cf7.php:329-372 | the first attempt goes to the first hook URL that is not PHP-empty, filled from and carrying the submitted data |
| Submission.NonEmptyUrls | modules/cf7/class-module-cf7.php:329-332 | the hook URLs the loop does not skip: their number is the count of URLs that are not PHP-empty, and they are exactly those URLs |
| Submission.AttemptZero | modules/cf7/class-module-cf7.php:329-372 | the first attempt goes to the first hook URL that is not PHP-empty, filled from and carrying the submitted data |
| Submission.KeptAttemptAt | modules/cf7/class-module-cf7.php:329-372 | with the data kept, the k-th attempt goes to the k-th hook URL that is not PHP-empty, filled from the submitted data |
| Submission.ReformattedAttemptAt | modules/cf7/class-module-cf7.php:329-372 | as written, each attempt after the first goes to the next hook URL that is not PHP-empty, filled from the previous attempt's payload, and sends that payload formatted again |
| Submission.RunShift | modules/cf7/class-module-cf7.php:329-372 | at a hook URL that is not PHP-empty, the first attempt sends the formatted data and the later attempts are the loop's over the remaining URLs |
| Submission.UsableNotEmpty | modules/cf7/class-module-cf7.php:593-610 | a hook URL that is not an array and trims to a non-empty text is not skipped by the loop |
| Submission.UsableCountPositive | modules/cf7/class-module-cf7.php:329-332 | a list with a URL that is not PHP-empty has a positive count |
| Submission.SomeAttempt | modules/cf7/class-module-cf7.php:329-372 | a loop over URLs one of which is not PHP-empty makes an attempt |
| Submission.KeptDataSentEverywhere | modules/cf7/class-module-cf7.php:361 | when the submission is kept, every endpoint gets it formatted once |
| Submission.SecondAttemptReformats | modules/cf7/class-module-cf7.php:361 | as written, the second endpoint gets the first payload formatted again |
| Submission.SecondEndpointLosesContact | modules/cf7/class-module-cf7.php:361 | as written, the second endpoint gets no name, email or phone, and the first person only as a custom field |
| Submission.LaterPlaceholdersEmpty | modules/cf7/class-module-cf7.php:336-361 | as written, later hook URLs' placeholders find no form field |
| Submission.CorrectedSecondAttempt | modules/cf7/class-module-cf7.php:361 | with the submission kept, the second endpoint gets the same payload as the first |
| Submission.MailSentAsWritten | modules/cf7/class-module-cf7.php:291-415 | nothing is sent unless the form can submit; otherwise the endpoint loop runs, reformatting as the code does |
| Submission.MailSent | modules/cf7/class-module-cf7.php:291-415 | the same, with the submission formatted once for every endpoint |
| Submission.CanSubmitAttempts | modules/cf7/class-module-cf7.php:291-372 | a form that can submit, with string hook URLs, sends at least one request, as written and corrected alike |
| Submission.EnvFor | modules/cf7/class-module-cf7.php:390 | the error message of the loop is the error filter |
| Submission.EnvForFormat | modules/cf7/class-module-cf7.php:316-361 | the loop formats with the form's source, the referrer's website and the country the form's setting allows |
| Submission.EnvForSend | modules/cf7/class-module-cf7.php:372 | the loop sends through `pull_the_trigger()` |
| Submission.EnvForFill | modules/cf7/class-module-cf7.php:336-358 | the loop substitutes the hook URL's placeholders from the current data |
| Submission.MailSentSamePayload | modules/cf7/class-module-cf7.php:361 | with the submission kept, every endpoint gets the same body |
| Admin.ReplaceOnce | modules/cf7/admin/assets/admin.js:107 | `String.replace` with a string pattern replaces the first occurrence only, and changes nothing without one |
| Admin.DetectedMessage | modules/cf7/admin/assets/admin.js:107 | the message names the detected type in place of '%s' |
| Admin.IndexOfAfterPlain | modules/cf7/admin/assets/admin.js:107 | the first occurrence of a pattern whose first character the prefix lacks is right after the prefix |
| Admin.ReplaceAfterPlain | modules/cf7/admin/assets/admin.js:107 | replacing a pattern whose first character is not in the text before it replaces the one right after that text |
| Admin.FirstMatch | modules/cf7/admin/assets/admin.js:89-95 | the first known pattern the path contains, and none when there is none |
| Admin.KnownPatternTypes | modules/cf7/admin/assets/admin.js:97-103 | each known pattern has its own type name, and none is 'Unknown' |
| Admin.TypeName | modules/cf7/admin/assets/admin.js:99-104 | definition of the type a matched pattern names; stated by Admin.KnownPatternTypes |
| Admin.FirstPatternDecides | modules/cf7/admin/assets/admin.js:89-109 | the first pattern in the path decides the success message |
| Admin.ValidateActionNetworkUrl | modules/cf7/admin/assets/admin.js:66-117 | error exactly for another host; success exactly when a known pattern matches; a warning otherwise |
| Admin.ValidateUrlField | modules/cf7/admin/assets/admin.js:34-55 | no message exactly for a blank field; the invalid-URL error exactly when the trimmed text does not parse; otherwise the host and pattern check |
| Admin.AdminAgreesWithDispatcher | modules/cf7/admin/assets/admin.js:70-75 | the admin page accepts a URL exactly when the dispatcher would |

## Left out

- Reading the submission: `get_data_from_contact_form()` and `get_data_from_special_mail_tags()` need Contact Form 7 objects, `$_POST` and uploads. The submitted data is a parameter.
- Nonce and capability checks, panel registration, asset loading, the notice that Contact Form 7 is missing, and the admin page's DOM handling and debounce are left out. They are WordPress UI glue.
- Logging (`CFAN_Logger`) and the debug helpers are left out, because they do not affect the outcome.
- JSON encoding of the request body is left out. The body is the PHP array itself.
- Translation is left out. Messages are the source's English strings.
- Filters and actions are left out:
  - `apply_filters` is the identity for `cfan_hook_url_placeholder`, `cfan_formatted_data`, `cfan_detected_country`, `cfan_enable_country_detection`, `cfan_hook_url` and `cfan_post_request_args`;
  - `cfan_ignore_default_actionnetwork` is false, so the request is always sent;
  - the `cfan_post_request_result` action does nothing;
  - `cfan_trigger_actionnetwork_error_message` is the parameter `errorMessage`;
  - the `cfan_trigger_actionnetwork` action is `pull_the_trigger()`.
- The `cfan_trigger_actionnetwork_errors` action at the end of `wpcf7_mail_sent()` is left out. The model returns the collected errors instead.
- The network, `sleep()`, GeoIP, ipapi.co, `wp_parse_url`, `parse_str`, `filter_var` and the sanitizers are parameters; their behaviour is not modelled.
- `array_filter` keeps the original numeric keys. Saved hook URLs (modules/cf7/class-module-cf7.php:151) and the sent `add_tags` and `remove_tags` (modules/cf7/class-module-cf7.php:830, 834) can therefore have gaps in their indices. The model keeps only the order.
- `PHP_EOL` is taken to be "\n".
- A stored `custom_headers` that is an array counts as no custom headers.
- A hook URL that is itself an array. In PHP 8, `trim()` (modules/cf7/class-module-cf7.php:604) and `preg_match_all()` (modules/cf7/class-module-cf7.php:655) throw a `TypeError` on an array. The `catch (Exception …)` at modules/cf7/class-module-cf7.php:372 does not catch a `TypeError`, so the request ends in an error. In PHP 7 both warn and return null, so `can_submit_to_actionnetwork()` skips such a URL as empty. The model does neither: `Php.ToString` turns an array into the text "Array".
- Settings.HookUrls: states only that no saved URL is empty. What each line becomes is stated by Settings.HookUrlPlain, Settings.HookUrlKeepsPlaceholder and Settings.HookUrlsRoundTrip.
- Submission.Run: its own contract gives the attempt count, the error list and each attempt's result as the dispatcher's answer for its body and URL. Which URL and body each attempt uses is stated by Submission.FirstAttempt, Submission.KeptAttemptAt, Submission.ReformattedAttemptAt, Submission.KeptDataSentEverywhere and Submission.SecondAttemptReformats.
- Payload.Format: its own contract covers only the envelope. The person record is stated by the `Payload.Format…` lemmas.
- Country.Detect: its own contract gives only when nothing is found and that an answer is non-empty. The order of the sources is Country.DetectIsFirstAnswer.
- Submission.CanSubmitAttempts: holds only when no hook URL is itself an array. The model reads any array as the text "Array", so an empty array counts as usable in `CanSubmit` while the send loop skips it as PHP-empty. PHP itself never reads an array as "Array" here (see the line on array hook URLs above).
- Placeholders.SubstituteDistinct: assumes the first URL-encoded value holds no '['. PHP's `urlencode()` encodes '[' as `%5B`, but `urlencode` is a parameter here.
- Settings.UrlInputLosesHookUrls: assumes `sanitize_textarea_field()` adds no line break. The sanitizer is a parameter here.
- Submission.EnvFor: states only the error filter. The other three parts are stated by Submission.EnvForFormat, Submission.EnvForSend and Submission.EnvForFill.

## Findings

| source | as written | input that shows it | evidently intended | confidence | as-written member | corrected member |
|---|---|---|---|---|---|---|
| modules/cf7/class-module-cf7.php:361 | the endpoint loop overwrites `$data` with the formatted payload, so every endpoint after the first formats the previous payload again | a form with two non-empty hook URLs whose first endpoint accepts the submission | every endpoint gets the submission formatted once, with the person's name, email and phone | not executed | Submission.SecondEndpointLosesContact | Submission.CorrectedSecondAttempt |
| modules/cf7/admin/actionnetwork-panel-html.php:80 | the stored hook URLs are shown joined by line breaks in a single-line `<input type="url">`, which posts its value without line breaks, while saving splits the posted text at line breaks (modules/cf7/class-module-cf7.php:166) | a form with two stored hook URLs whose panel is saved again unchanged | a multi-line field, so that each URL stays on its own line and the list saves back unchanged | not executed | Settings.UrlInputLosesHookUrls | Settings.HookUrlsRoundTrip |

=== FILE: admin.dfy ===
/** The settings panel's live check of the hook URL field (`validateUrl()`
    and `validateActionNetworkUrl()` of the admin script): which message,
    if any, the panel shows under the field.

    The browser's `URL` constructor is a parameter. The messages are the
    English texts the plugin hands to the script; translation is not part
    of this model. */
module Admin {
  import opened Php
  import opened Strings
  import opened Platform
  import Dispatcher

  /** What the browser's `URL` constructor reports about a URL. */
  datatype BrowserUrl = BrowserUrl(hostname: string, pathname: string)

  /** The `URL` constructor: `None` when it throws. */
  type UrlParser = string -> Option<BrowserUrl>

  /** The CSS class of the message: how the panel colours it. */
  datatype Kind = Success | Warning | Error

  datatype Validation = Validation(kind: Kind, message: string)

  const InvalidUrlMessage: string := "Please enter a valid URL."
  const NotActionNetworkMessage: string := "This URL is not from ActionNetwork. Please use an ActionNetwork URL."
  /** "ActionNetwork %s detected. This looks correct!" */
  const DetectedTypeTemplate: string := "ActionNetwork " + "%s" + " detected. This looks correct!"
  const UnknownPatternMessage: string := "This ActionNetwork URL pattern is not recognized, but it may still work."

  /** JavaScript `String.prototype.replace()` with a string pattern: only
      the first occurrence is replaced. */
  function ReplaceOnce(s: string, p: string, r: string): (t: string)
    ensures !Contains(s, p) ==> t == s
    ensures Contains(s, p) ==>
      exists i :: OccursAt(s, p, i) && (forall j :: 0 <= j < i ==> !OccursAt(s, p, j)) && t == s[..i] + r + s[i + |p|..]
  {
    match IndexOf(s, p)
    case Some(i) => s[..i] + r + s[i + |p|..]
    case None => s
  }

  /** The success message naming the detected type. */
  function DetectedMessage(typeName: string): (m: string)
    ensures m == "ActionNetwork " + typeName + " detected. This looks correct!"
  {
    ReplaceAfterPlain("ActionNetwork ", "%s", " detected. This looks correct!", typeName);
    ReplaceOnce(DetectedTypeTemplate, "%s", typeName)
  }

  /** Replacing a pattern whose first character does not occur in `a`
      replaces the one right after `a`. */
  lemma ReplaceAfterPlain(a: string, p: string, b: string, r: string)
    requires |p| > 0 && p[0] !in a
    ensures ReplaceOnce(a + p + b, p, r) == a + r + b
  {
    var s := a + p + b;
    IndexOfAfterPlain(a, p, b);
    assert s[..|a|] == a;
    assert s[|a| + |p|..] == b;
  }

  /** A pattern whose first character does not occur in `a` is first
      found right after `a`. */
  lemma IndexOfAfterPlain(a: string, p: string, b: string)
    requires |p| > 0 && p[0] !in a
    ensures IndexOf(a + p + b, p) == Some(|a|)
  {
    var s := a + p + b;
    assert s[|a|..|a| + |p|] == p;
    assert OccursAt(s, p, |a|);
    forall j | 0 <= j < |a|
      ensures !OccursAt(s, p, j)
    {
      assert s[j] == a[j];
      if j + |p| <= |s| {
        assert s[j..j + |p|][0] == s[j];
      }
    }
  }

  /** The index of the first pattern the path contains. */
  function FirstMatch(path: string, patterns: seq<string>): (r: Option<nat>)
    ensures r.Some? ==> r.value < |patterns| && Contains(path, patterns[r.value])
    ensures r.Some? ==> forall j :: 0 <= j < r.value ==> !Contains(path, patterns[j])
    ensures r.None? ==> forall j :: 0 <= j < |patterns| ==> !Contains(path, patterns[j])
  {
    if |patterns| == 0 then None
    else if Contains(path, patterns[0]) then Some(0)
    else match FirstMatch(path, patterns[1..])
      case Some(i) => Some(i + 1)
      case None => None
  }

  /** The type a matched pattern names: the first of 'forms', 'petitions',
      'events', 'fundraising', 'advocacy' it contains. */
  function TypeName(pattern: string): string
  {
    if Contains(pattern, "forms") then "Form"
    else if Contains(pattern, "petitions") then "Petition"
    else if Contains(pattern, "events") then "Event"
    else if Contains(pattern, "fundraising") then "Fundraising Page"
    else if Contains(pattern, "advocacy") then "Advocacy Campaign"
    else "Unknown"
  }

  /** `validateActionNetworkUrl()` on a URL the browser accepted. */
  function ValidateActionNetworkUrl(u: BrowserUrl): (v: Validation)
    ensures u.hostname != Dispatcher.Host <==> v == Validation(Error, NotActionNetworkMessage)
    ensures v.kind == Success <==>
      u.hostname == Dispatcher.Host && exists i :: 0 <= i < |Dispatcher.KnownPatterns| && Contains(u.pathname, Dispatcher.KnownPatterns[i])
    ensures v.kind == Warning <==>
      u.hostname == Dispatcher.Host && forall i :: 0 <= i < |Dispatcher.KnownPatterns| ==> !Contains(u.pathname, Dispatcher.KnownPatterns[i])
  {
    if u.hostname != Dispatcher.Host then Validation(Error, NotActionNetworkMessage)
    else match FirstMatch(u.pathname, Dispatcher.KnownPatterns)
      case Some(i) => Validation(Success, DetectedMessage(TypeName(Dispatcher.KnownPatterns[i])))
      case None => Validation(Warning, UnknownPatternMessage)
  }

  /** `validateUrl()`: the message shown for the field's raw value, or
      `None` when the field is blank. */
  function ValidateUrlField(raw: string, parse: UrlParser): (r: Option<Validation>)
    ensures r.None? <==> forall i :: 0 <= i < |raw| ==> IsJsSpace(raw[i])
    ensures r == Some(Validation(Error, InvalidUrlMessage)) <==>
      |TrimWith(raw, IsJsSpace)| > 0 && parse(TrimWith(raw, IsJsSpace)).None?
    ensures r.Some? && parse(TrimWith(raw, IsJsSpace)).Some? ==> r.value == ValidateActionNetworkUrl(parse(TrimWith(raw, IsJsSpace)).value)
  {
    TrimWithEmpty(raw, IsJsSpace);
    var url := TrimWith(raw, IsJsSpace);
    if |url| == 0 then None
    else match parse(url)
      case None => Some(Validation(Error, InvalidUrlMessage))
      case Some(u) => Some(ValidateActionNetworkUrl(u))
  }

  /** A string lacking one of the pattern's characters does not contain it. */
  lemma MissingCharNotContained(s: string, p: string, c: char)
    requires c in p && c !in s
    ensures !Contains(s, p)
  {
    ContainsIff(s, p);
  }

  /** An occurrence makes the string contain the pattern. */
  lemma OccurrenceContained(s: string, p: string, i: nat)
    requires OccursAt(s, p, i)
    ensures Contains(s, p)
  {
    ContainsIff(s, p);
  }

  /** What the admin script calls each known pattern, in list order. */
  const PatternTypes: seq<string> :=
    ["Form", "Petition", "Event", "Fundraising Page", "Advocacy Campaign", "Form", "Petition", "Event"]

  lemma FormPatternFacts(pat: string, at: nat)
    requires (pat == "/api/v2/forms/" && at == 8) || (pat == "/forms/" && at == 1)
    ensures Contains(pat, "forms")
  {
    if at == 8 {
      assert pat[8..13] == "forms";
    } else {
      assert pat[1..6] == "forms";
    }
    OccurrenceContained(pat, "forms", at);
  }

  lemma PetitionPatternFacts(pat: string, at: nat)
    requires (pat == "/api/v2/petitions/" && at == 8) || (pat == "/petitions/" && at == 1)
    ensures !Contains(pat, "forms") && Contains(pat, "petitions")
  {
    MissingCharNotContained(pat, "forms", 'f');
    if at == 8 {
      assert pat[8..17] == "petitions";
    } else {
      assert pat[1..10] == "petitions";
    }
    OccurrenceContained(pat, "petitions", at);
  }

  lemma EventPatternFacts(pat: string, at: nat)
    requires (pat == "/api/v2/events/" && at == 8) || (pat == "/events/" && at == 1)
    ensures !Contains(pat, "forms") && !Contains(pat, "petitions") && Contains(pat, "events")
  {
    MissingCharNotContained(pat, "forms", 'f');
    MissingCharNotContained(pat, "petitions", 'o');
    if at == 8 {
      assert pat[8..14] == "events";
    } else {
      assert pat[1..7] == "events";
    }
    OccurrenceContained(pat, "events", at);
  }

  lemma FundraisingPatternFacts(pat: string)
    requires pat == "/api/v2/fundraising_pages/"
    ensures !Contains(pat, "forms") && !Contains(pat, "petitions") && !Contains(pat, "events")
    ensures Contains(pat, "fundraising")
  {
    NoLetter(pat, 'o');
    MissingCharNotContained(pat, "forms", 'o');
    MissingCharNotContained(pat, "petitions", 'o');
    NoLetter(pat, 't');
    MissingCharNotContained(pat, "events", 't');
    assert pat[8..19] == "fundraising";
    OccurrenceContained(pat, "fundraising", 8);
  }

  lemma AdvocacyPatternFacts(pat: string)
    requires pat == "/api/v2/advocacy_campaigns/"
    ensures !Contains(pat, "forms") && !Contains(pat, "petitions") && !Contains(pat, "events")
    ensures !Contains(pat, "fundraising") && Contains(pat, "advocacy")
  {
    NoLetter(pat, 'f');
    MissingCharNotContained(pat, "forms", 'f');
    MissingCharNotContained(pat, "fundraising", 'f');
    NoLetter(pat, 't');
    MissingCharNotContained(pat, "petitions", 't');
    NoLetter(pat, 'e');
    MissingCharNotContained(pat, "events", 'e');
    assert pat[8..16] == "advocacy";
    OccurrenceContained(pat, "advocacy", 8);
  }

  /** Which letters the two long patterns lack. */
  lemma NoLetter(pat: string, c: char)
    requires (pat == "/api/v2/fundraising_pages/" && (c == 'o' || c == 't'))
      || (pat == "/api/v2/advocacy_campaigns/" && (c == 'f' || c == 't' || c == 'e'))
    ensures c !in pat
  {
  }

  /** Every known pattern names a type, so 'Unknown' is never shown: the
      two form patterns give Form, and so on down the list. */
  lemma KnownPatternTypes(i: nat)
    requires i < |Dispatcher.KnownPatterns|
    ensures TypeName(Dispatcher.KnownPatterns[i]) == PatternTypes[i] != "Unknown"
  {
    var pat := Dispatcher.KnownPatterns[i];
    if i == 0 {
      FormPatternFacts(pat, 8);
    } else if i == 5 {
      FormPatternFacts(pat, 1);
    } else if i == 1 {
      PetitionPatternFacts(pat, 8);
    } else if i == 6 {
      PetitionPatternFacts(pat, 1);
    } else if i == 2 {
      EventPatternFacts(pat, 8);
    } else if i == 7 {
      EventPatternFacts(pat, 1);
    } else if i == 3 {
      FundraisingPatternFacts(pat);
    } else {
      AdvocacyPatternFacts(pat);
    }
  }

  /** On the Action Network host, the first known pattern the path contains
      decides the message: success, naming that pattern's type. */
  lemma FirstPatternDecides(u: BrowserUrl, i: nat)
    requires u.hostname == Dispatcher.Host && i < |Dispatcher.KnownPatterns|
    requires Contains(u.pathname, Dispatcher.KnownPatterns[i])
    requires forall j :: 0 <= j < i ==> !Contains(u.pathname, Dispatcher.KnownPatterns[j])
    ensures ValidateActionNetworkUrl(u) == Validation(Success, "ActionNetwork " + PatternTypes[i] + " detected. This looks correct!")
  {
    var m := FirstMatch(u.pathname, Dispatcher.KnownPatterns);
    assert m == Some(i);
    KnownPatternTypes(i);
  }

  /** The admin check and the dispatcher agree on which URLs are accepted:
      where the browser and WordPress see the same host, the panel shows an
      error exactly when the dispatcher would refuse the URL. A URL with no
      known pattern gets a warning, and the dispatcher still sends to it. */
  lemma AdminAgreesWithDispatcher(url: string, u: BrowserUrl, lib: Library)
    requires lib.isUrl(url) && lib.parseUrl(url).host == Some(u.hostname)
    ensures ValidateActionNetworkUrl(u).kind != Error <==> Dispatcher.ValidateUrl(url, lib)
  {
  }
}

=== FILE: assoc.dfy ===
/** PHP arrays with string keys: ordered `key => value` entries. Assigning
    `$a[$k] = $v` keeps the position of an existing key and appends a new
    one; `array_merge` on string keys lets the second array win. */
module Assoc {
  import opened Php

  type PhpArray<V> = seq<Entry<V>>

  function Keys<V>(m: PhpArray<V>): (ks: seq<string>)
    ensures |ks| == |m| && forall i :: 0 <= i < |m| ==> ks[i] == m[i].key
  {
    seq(|m|, i requires 0 <= i < |m| => m[i].key)
  }

  /** No key appears twice, as in every array PHP itself builds. */
  predicate UniqueKeys<V>(m: PhpArray<V>)
  {
    forall i, j :: 0 <= i < j < |m| ==> m[i].key != m[j].key
  }

  /** `$m[$k] ?? null`. Should a key repeat, the last entry wins, as it does in
      a PHP array literal. */
  function Get<V>(m: PhpArray<V>, k: string): (r: Option<V>)
    ensures r.None? <==> k !in Keys(m)
    ensures r.Some? ==> Entry(k, r.value) in m
    decreases |m|
  {
    if |m| == 0 then None
    else if m[|m| - 1].key == k then Some(m[|m| - 1].val)
    else
      assert Keys(m) == Keys(m[..|m| - 1]) + [m[|m| - 1].key];
      Get(m[..|m| - 1], k)
  }

  /** With unique keys, the entry at any position is the one found. */
  lemma GetAt<V>(m: PhpArray<V>, i: nat)
    requires UniqueKeys(m) && i < |m|
    ensures Get(m, m[i].key) == Some(m[i].val)
  {
    var k := m[i].key;
    assert k in Keys(m) by {
      assert Keys(m)[i] == k;
    }
    var v := Get(m, k).value;
    assert Entry(k, v) in m;
    var j :| 0 <= j < |m| && m[j] == Entry(k, v);
    assert j == i;
  }

  /** Looking a key up in an array of unique keys, split at its last entry:
      the last entry answers for its own key, which no earlier entry holds,
      and the earlier entries answer for every other key. */
  lemma GetSnoc<V>(m: PhpArray<V>, k: string)
    requires UniqueKeys(m) && |m| > 0
    ensures UniqueKeys(m[..|m| - 1])
    ensures m[|m| - 1].key == k ==> Get(m, k) == Some(m[|m| - 1].val) && Get(m[..|m| - 1], k).None?
    ensures m[|m| - 1].key != k ==> Get(m, k) == Get(m[..|m| - 1], k)
  {
    var init := m[..|m| - 1];
    if m[|m| - 1].key == k {
      assert forall j :: 0 <= j < |init| ==> Keys(init)[j] == m[j].key != k;
    }
  }

  /** In a concatenation the later part answers for its keys: looking a key
      up in `a + b` finds `b`'s value when `b` holds the key, else `a`'s. */
  lemma {:induction false} GetAppend<V>(a: PhpArray<V>, b: PhpArray<V>, k: string)
    ensures Get(a + b, k) == if k in Keys(b) then Get(b, k) else Get(a, k)
    decreases |b|
  {
    if |b| == 0 {
      assert a + b == a;
    } else {
      var b' := b[..|b| - 1];
      assert (a + b)[..|a + b| - 1] == a + b';
      assert Keys(b) == Keys(b') + [b[|b| - 1].key];
      GetAppend(a, b', k);
    }
  }

  /** Overwrites the value of every entry with key `k`, in place. */
  function SetAll<V>(m: PhpArray<V>, k: string, v: V): (r: PhpArray<V>)
    ensures Keys(r) == Keys(m)
    ensures k in Keys(m) ==> Get(r, k) == Some(v)
    ensures forall k' :: k' != k ==> Get(r, k') == Get(m, k')
    decreases |m|
  {
    if |m| == 0 then []
    else
      var init := SetAll(m[..|m| - 1], k, v);
      var last := if m[|m| - 1].key == k then Entry(k, v) else m[|m| - 1];
      var r := init + [last];
      assert r[..|r| - 1] == init;
      assert Keys(m) == Keys(m[..|m| - 1]) + [m[|m| - 1].key];
      assert Keys(r) == Keys(init) + [last.key];
      r
  }

  /** `$m[$k] = $v`. */
  function Put<V>(m: PhpArray<V>, k: string, v: V): (r: PhpArray<V>)
    ensures Get(r, k) == Some(v)
    ensures forall k' :: k' != k ==> Get(r, k') == Get(m, k')
    ensures k in Keys(m) ==> Keys(r) == Keys(m)
    ensures k !in Keys(m) ==> Keys(r) == Keys(m) + [k]
    ensures UniqueKeys(m) ==> UniqueKeys(r)
  {
    if k in Keys(m) then SetAll(m, k, v)
    else
      var r := m + [Entry(k, v)];
      assert r[..|r| - 1] == m;
      assert Keys(r) == Keys(m) + [k];
      r
  }

  /** Merging entries onto an empty array keeps one entry per key: every
      value found is one of the entries, and every entry's key is found. */
  lemma MergeOntoEmpty<V>(es: PhpArray<V>)
    ensures forall k :: Get(Merge([], es), k).Some? ==> Entry(k, Get(Merge([], es), k).value) in es
    ensures forall e :: e in es ==> Get(Merge([], es), e.key).Some?
  {
    forall e | e in es
      ensures Get(Merge([], es), e.key).Some?
    {
      var i :| 0 <= i < |es| && es[i] == e;
      assert Keys(es)[i] == e.key;
    }
  }

  /** `array_merge($a, $b)` for string keys: entries of `$b` override those of
      `$a`; keys of `$a` keep their positions and new keys follow in order. */
  function Merge<V>(a: PhpArray<V>, b: PhpArray<V>): (r: PhpArray<V>)
    ensures forall k :: Get(r, k) == (if k in Keys(b) then Get(b, k) else Get(a, k))
    ensures |a| <= |r| && Keys(r)[..|a|] == Keys(a)
    ensures UniqueKeys(a) ==> UniqueKeys(r)
    decreases |b|
  {
    if |b| == 0 then a
    else
      var b' := b[..|b| - 1];
      var last := b[|b| - 1];
      assert Keys(b) == Keys(b') + [last.key];
      Put(Merge(a, b'), last.key, last.val)
  }

  /** Merging two entries into an empty array: a repeated key keeps one
      entry, with the later value. */
  lemma MergeTwo<V>(k1: string, v1: V, k2: string, v2: V)
    ensures Merge([], [Entry(k1, v1), Entry(k2, v2)])
      == if k1 == k2 then [Entry(k2, v2)] else [Entry(k1, v1), Entry(k2, v2)]
  {
    var e1, e2 := Entry(k1, v1), Entry(k2, v2);
    var es := [e1, e2];
    assert es[..1] == [e1];
    MergeOne(e1);
    assert Merge([], es) == Put([e1], k2, v2);
    PutAfterOne(e1, k2, v2);
  }

  lemma MergeOne<V>(e: Entry<V>)
    ensures Merge([], [e]) == [e]
  {
    assert [e][..0] == [];
  }

  lemma PutAfterOne<V>(e: Entry<V>, k: string, v: V)
    ensures Put([e], k, v) == if e.key == k then [Entry(k, v)] else [e, Entry(k, v)]
  {
    assert Keys([e]) == [e.key];
    if e.key == k {
      assert [e][..0] == [];
    }
  }
}

=== FILE: country.dfy ===
/** Country detection for the postal address (`detect_user_country()` and
    its helpers): a fixed-priority chain of sources, the first of which to
    give an answer wins.

    The outside world is a parameter: the request's server variables, the
    GeoIP extension (when it is loaded) and the body the ipapi.co service
    answers with. */
module Country {
  import opened Php
  import opened Strings
  import opened Assoc
  import opened Platform

  datatype Request = Request(
    /** `$_SERVER`, after `wp_unslash()`. */
    server: map<string, string>,
    /** `geoip_country_code_by_name()` when that function exists; its
        `false` is the empty string here. */
    geoip: Option<string -> string>,
    /** The body of `GET https://ipapi.co/{ip}/country/`, or `None` when the
        request fails. */
    ipapi: string -> Option<string>
  )

  /** The server variables consulted for the client address, in order. */
  const IpHeaders: seq<string> := [
    "HTTP_CF_CONNECTING_IP",
    "HTTP_X_FORWARDED_FOR",
    "HTTP_X_FORWARDED",
    "HTTP_X_CLUSTER_CLIENT_IP",
    "HTTP_FORWARDED_FOR",
    "HTTP_FORWARDED",
    "HTTP_CLIENT_IP",
    "REMOTE_ADDR"
  ]

  /** A server variable that is set and not PHP-empty, sanitized. */
  function ServerText(req: Request, name: string, lib: Library): (r: Option<string>)
    ensures r.Some? <==> name in req.server && !EmptyString(req.server[name])
    ensures r.Some? ==> r.value == lib.text(Str(req.server[name]))
  {
    if name in req.server && !EmptyString(req.server[name]) then Some(lib.text(Str(req.server[name])))
    else None
  }

  /** The address a header value names: a comma-separated list is cut to its
      first element, trimmed. */
  function FirstAddress(ip: string): (r: string)
    ensures ',' !in r
    ensures ',' !in ip ==> r == ip
    ensures ',' in ip ==> r == Trim(BeforeFirst(ip, ','))
  {
    if ',' in ip then
      SplitFirstIsBeforeFirst(ip, ',');
      Trim(Split(ip, ',')[0])
    else ip
  }

  /** The address one server variable offers, if it is a public one. */
  function Candidate(req: Request, name: string, lib: Library): Option<string>
  {
    match ServerText(req, name, lib)
    case None => None
    case Some(text) =>
      var ip := FirstAddress(text);
      if lib.isPublicIp(ip) then Some(ip) else None
  }

  /** An address `Candidate` offers is a public one and holds no comma. */
  lemma CandidateIsPublic(req: Request, name: string, lib: Library)
    ensures Candidate(req, name, lib).Some? ==>
      lib.isPublicIp(Candidate(req, name, lib).value) && ',' !in Candidate(req, name, lib).value
  {
  }

  /** The first offer present in `offers`, in order. */
  function FirstOffer(offers: seq<Option<string>>): (r: Option<string>)
    ensures r.Some? ==> r in offers
    ensures r.None? <==> forall i :: 0 <= i < |offers| ==> offers[i].None?
    ensures forall i :: (0 <= i < |offers| && offers[i].Some? &&
      (forall j :: 0 <= j < i ==> offers[j].None?)) ==> r == offers[i]
    decreases |offers|
  {
    if |offers| == 0 then None
    else if offers[0].Some? then offers[0]
    else
      var r := FirstOffer(offers[1..]);
      assert forall i :: 1 <= i < |offers| ==> offers[1..][i - 1] == offers[i];
      r
  }

  /** What each variable of `names` offers, in order. */
  function Offers(req: Request, names: seq<string>, lib: Library): (cs: seq<Option<string>>)
    ensures |cs| == |names| && forall i :: 0 <= i < |names| ==> cs[i] == Candidate(req, names[i], lib)
  {
    seq(|names|, i requires 0 <= i < |names| => Candidate(req, names[i], lib))
  }

  /** The first public address offered by the variables `names`, in order. */
  function UserIpFrom(req: Request, names: seq<string>, lib: Library): (r: Option<string>)
    ensures r.Some? ==> lib.isPublicIp(r.value) && ',' !in r.value
    ensures r.None? <==> forall i :: 0 <= i < |names| ==> Candidate(req, names[i], lib).None?
    ensures forall i :: (0 <= i < |names| && Candidate(req, names[i], lib).Some? &&
      (forall j :: 0 <= j < i ==> Candidate(req, names[j], lib).None?)) ==> r == Candidate(req, names[i], lib)
  {
    var cs := Offers(req, names, lib);
    var r := FirstOffer(cs);
    if r.Some? then
      var k :| 0 <= k < |cs| && cs[k] == r;
      CandidateIsPublic(req, names[k], lib);
      r
    else r
  }

  /** `get_user_ip()`. */
  function UserIp(req: Request, lib: Library): Option<string>
  {
    UserIpFrom(req, IpHeaders, lib)
  }

  /** A public Cloudflare address wins over every other header. */
  lemma CloudflareAddressFirst(req: Request, lib: Library)
    requires Candidate(req, "HTTP_CF_CONNECTING_IP", lib).Some?
    ensures UserIp(req, lib) == Candidate(req, "HTTP_CF_CONNECTING_IP", lib)
  {
    assert IpHeaders[0] == "HTTP_CF_CONNECTING_IP";
  }

  /** `REMOTE_ADDR` is used only when no forwarding header offers a public
      address. */
  lemma RemoteAddrLast(req: Request, lib: Library)
    requires UserIp(req, lib).Some?
    requires forall i :: 0 <= i < 7 ==> Candidate(req, IpHeaders[i], lib).None?
    ensures UserIp(req, lib) == Candidate(req, "REMOTE_ADDR", lib)
  {
    assert IpHeaders[7] == "REMOTE_ADDR";
  }

  /** `detect_country_via_ipapi()`: the trimmed body, when it is two ASCII
      letters, upper-cased. (Two bytes that are letters are two ASCII
      characters, so counting characters here is counting bytes.) */
  function ViaIpapi(req: Request, ip: string): (r: Option<string>)
    ensures r.Some? ==> |r.value| == 2 && IsAsciiUpper(r.value[0]) && IsAsciiUpper(r.value[1])
    ensures r.Some? <==> (req.ipapi(ip).Some? && |Trim(req.ipapi(ip).value)| == 2 &&
      IsAsciiAlpha(Trim(req.ipapi(ip).value)[0]) && IsAsciiAlpha(Trim(req.ipapi(ip).value)[1]))
    ensures r.Some? ==> r.value == Upper(Trim(req.ipapi(ip).value))
  {
    match req.ipapi(ip)
    case None => None
    case Some(body) =>
      var code := Trim(body);
      if |code| == 2 && IsAsciiAlpha(code[0]) && IsAsciiAlpha(code[1]) then Some(Upper(code)) else None
  }

  /** The `HTTP_CF_IPCOUNTRY` header, when it is set, is not "XX" and is two
      bytes long, upper-cased. The comparison with "XX" is case-sensitive, so
      "xx" passes and comes out as "XX". */
  function CloudflareCountry(req: Request, lib: Library): (r: Option<string>)
    ensures r.Some? ==> "HTTP_CF_IPCOUNTRY" in req.server
    ensures r.Some? ==> 1 <= |r.value| <= 2 && !EmptyString(r.value)
    ensures r.Some? <==>
      "HTTP_CF_IPCOUNTRY" in req.server && lib.text(Str(req.server["HTTP_CF_IPCOUNTRY"])) != "XX"
      && Utf8Length(lib.text(Str(req.server["HTTP_CF_IPCOUNTRY"]))) == 2
    ensures r.Some? ==> r.value == Upper(lib.text(Str(req.server["HTTP_CF_IPCOUNTRY"])))
  {
    if "HTTP_CF_IPCOUNTRY" in req.server then
      var cf := lib.text(Str(req.server["HTTP_CF_IPCOUNTRY"]));
      if cf != "XX" && Utf8Length(cf) == 2 then
        UpperKeepsNonEmpty(cf);
        Some(Upper(cf))
      else None
    else None
  }

  /** The two bytes `strlen()` asks of the Cloudflare header are two ASCII
      characters or one character of U+0080 to U+07FF. */
  lemma CloudflareCountryShape(req: Request, lib: Library)
    requires CloudflareCountry(req, lib).Some?
    ensures var t := lib.text(Str(req.server["HTTP_CF_IPCOUNTRY"]));
      || (|t| == 2 && t[0] as int < 0x80 && t[1] as int < 0x80)
      || (|t| == 1 && 0x80 <= t[0] as int < 0x800)
  {
    Utf8LengthTwo(lib.text(Str(req.server["HTTP_CF_IPCOUNTRY"])));
  }

  /** Upper-casing a string of one or two bytes never yields a PHP-empty
      string. */
  lemma UpperKeepsNonEmpty(s: string)
    requires Utf8Length(s) == 2 || !EmptyString(s)
    ensures !EmptyString(Upper(s))
  {
    UpperOnlyZero(s);
  }

  /** Only "0" upper-cases to "0", and only "" to "". */
  lemma UpperOnlyZero(s: string)
    ensures Upper(s) == "0" ==> s == "0" && Utf8Length(s) == 1
    ensures Upper(s) == "" ==> s == ""
  {
    if |s| == 1 && UpperChar(s[0]) == '0' {
      assert s == [s[0]];
    }
  }

  /** A match of /([a-z]{2})-([A-Z]{2})/ starting at `i`. */
  predicate LanguageTagAt(s: string, i: int)
  {
    0 <= i && i + 5 <= |s| &&
    IsAsciiLower(s[i]) && IsAsciiLower(s[i + 1]) && s[i + 2] == '-' &&
    IsAsciiUpper(s[i + 3]) && IsAsciiUpper(s[i + 4])
  }

  /** The position of the leftmost language tag at or after `k`. */
  function TagIndex(s: string, k: nat): (r: Option<nat>)
    ensures r.Some? ==> k <= r.value && LanguageTagAt(s, r.value)
    ensures r.Some? ==> forall j :: k <= j < r.value ==> !LanguageTagAt(s, j)
    ensures r.None? ==> forall j :: k <= j ==> !LanguageTagAt(s, j)
    decreases |s| - k
  {
    if k + 5 > |s| then None
    else if LanguageTagAt(s, k) then Some(k)
    else TagIndex(s, k + 1)
  }

  /** `detect_country_from_language()`: the region of the first `xx-YY` tag
      in the (non-empty) `Accept-Language` header. */
  function FromLanguage(req: Request, lib: Library): (r: Option<string>)
    ensures r.Some? ==> |r.value| == 2 && IsAsciiUpper(r.value[0]) && IsAsciiUpper(r.value[1])
    ensures r.Some? ==> ServerText(req, "HTTP_ACCEPT_LANGUAGE", lib).Some?
    ensures ServerText(req, "HTTP_ACCEPT_LANGUAGE", lib).Some? ==>
      (r.None? <==> forall i :: 0 <= i ==> !LanguageTagAt(ServerText(req, "HTTP_ACCEPT_LANGUAGE", lib).value, i))
  {
    match ServerText(req, "HTTP_ACCEPT_LANGUAGE", lib)
    case None => None
    case Some(text) =>
      match TagIndex(text, 0)
      case None => None
      case Some(i) => Some(text[i + 3..i + 5])
  }

  /** The country is the region of the leftmost language tag. */
  lemma FromLanguageFirstTag(req: Request, lib: Library, i: nat)
    requires ServerText(req, "HTTP_ACCEPT_LANGUAGE", lib).Some?
    requires LanguageTagAt(ServerText(req, "HTTP_ACCEPT_LANGUAGE", lib).value, i)
    requires forall j :: 0 <= j < i ==> !LanguageTagAt(ServerText(req, "HTTP_ACCEPT_LANGUAGE", lib).value, j)
    ensures FromLanguage(req, lib) == Some(ServerText(req, "HTTP_ACCEPT_LANGUAGE", lib).value[i + 3..i + 5])
  {
    var text := ServerText(req, "HTTP_ACCEPT_LANGUAGE", lib).value;
    var m := TagIndex(text, 0);
    assert m.Some? && m.value == i;
  }

  /** An address detection refuses to look up. */
  predicate Unusable(ip: Option<string>)
  {
    ip.None? || EmptyString(ip.value) || ip.value == "127.0.0.1" || ip.value == "::1"
  }

  /** The GeoIP answer, upper-cased, when the extension is loaded and answers. */
  function ViaGeoip(req: Request, ip: string): (r: Option<string>)
    ensures r.Some? ==> !EmptyString(r.value)
    ensures r.Some? <==> req.geoip.Some? && !EmptyString(req.geoip.value(ip))
    ensures r.Some? ==> r.value == Upper(req.geoip.value(ip))
  {
    if req.geoip.Some? && !EmptyString(req.geoip.value(ip)) then
      UpperKeepsNonEmpty(req.geoip.value(ip));
      Some(Upper(req.geoip.value(ip)))
    else None
  }

  /** `detect_user_country()`. */
  function Detect(req: Request, lib: Library): (r: Option<string>)
    ensures Unusable(UserIp(req, lib)) ==> r.None?
    ensures r.Some? ==> !EmptyString(r.value)
  {
    var ip := UserIp(req, lib);
    if Unusable(ip) then None
    else if ViaGeoip(req, ip.value).Some? then ViaGeoip(req, ip.value)
    else if ViaIpapi(req, ip.value).Some? then ViaIpapi(req, ip.value)
    else if CloudflareCountry(req, lib).Some? then CloudflareCountry(req, lib)
    else FromLanguage(req, lib)
  }

  /** The first answer of a list of sources. */
  function FirstAnswer(answers: seq<Option<string>>): (r: Option<string>)
    ensures r.None? <==> forall i :: 0 <= i < |answers| ==> answers[i].None?
    ensures forall i :: (0 <= i < |answers| && answers[i].Some? &&
      (forall j :: 0 <= j < i ==> answers[j].None?)) ==> r == answers[i]
  {
    if |answers| == 0 then None
    else if answers[0].Some? then answers[0]
    else
      assert forall i :: 1 <= i < |answers| ==> answers[1..][i - 1] == answers[i];
      FirstAnswer(answers[1..])
  }

  /** The sources, in the order detection consults them. */
  function Sources(req: Request, ip: string, lib: Library): seq<Option<string>>
  {
    [ViaGeoip(req, ip), ViaIpapi(req, ip), CloudflareCountry(req, lib), FromLanguage(req, lib)]
  }

  /** For a usable client address, detection answers with the first source
      that answers, in the order GeoIP, ipapi, Cloudflare, Accept-Language. */
  lemma DetectIsFirstAnswer(req: Request, lib: Library)
    requires !Unusable(UserIp(req, lib))
    ensures Detect(req, lib) == FirstAnswer(Sources(req, UserIp(req, lib).value, lib))
  {
    var ip := UserIp(req, lib).value;
    FirstOfFour(ViaGeoip(req, ip), ViaIpapi(req, ip), CloudflareCountry(req, lib), FromLanguage(req, lib));
  }

  /** The first answer of four sources, unfolded. */
  lemma FirstOfFour(a: Option<string>, b: Option<string>, c: Option<string>, d: Option<string>)
    ensures FirstAnswer([a, b, c, d]) == if a.Some? then a else if b.Some? then b else if c.Some? then c else d
  {
    assert [a, b, c, d][1..] == [b, c, d];
    assert [b, c, d][1..] == [c, d];
    assert [c, d][1..] == [d];
    assert [d][1..] == [];
    assert FirstAnswer([d]) == d;
    assert FirstAnswer([c, d]) == if c.Some? then c else d;
    assert FirstAnswer([b, c, d]) == if b.Some? then b else FirstAnswer([c, d]);
  }

  /** `detect_user_country_if_enabled()`: nothing unless the form's
      `auto_detect_country` setting is exactly '1'. */
  function DetectIfEnabled(props: PhpArray<Value>, req: Request, lib: Library): (r: Option<string>)
    ensures Get(props, "auto_detect_country") != Some(Str("1")) ==> r.None?
    ensures Get(props, "auto_detect_country") == Some(Str("1")) ==> r == Detect(req, lib)
  {
    if Get(props, "auto_detect_country") != Some(Str("1")) then None else Detect(req, lib)
  }
}

=== FILE: dispatcher.dfy ===
/** The Action Network dispatcher (`CFAN_ActionNetwork_Module`): URL
    validation, endpoint rewriting, request headers and the bounded retry
    with exponential back-off.

    The network is a parameter: for each request, the outcome of its n-th
    attempt. Sleeping is not performed; the retry returns the schedule of
    sleeps it would make. */
module Dispatcher {
  import opened Php
  import opened Strings
  import opened Assoc
  import opened Platform

  /** The only host a hook URL may have. */
  const Host: string := "actionnetwork.org"

  /** The path fragments of the known Action Network endpoints; the admin
      page lists the same ones. */
  const KnownPatterns: seq<string> := [
    "/api/v2/forms/",
    "/api/v2/petitions/",
    "/api/v2/events/",
    "/api/v2/fundraising_pages/",
    "/api/v2/advocacy_campaigns/",
    "/forms/",
    "/petitions/",
    "/events/"
  ]

  /** Whether the path contains one of the known patterns. */
  predicate MatchesKnownPattern(path: Option<string>)
  {
    path.Some? && exists i :: 0 <= i < |KnownPatterns| && Contains(path.value, KnownPatterns[i])
  }

  /** `validate_actionnetwork_url()`: a well-formed URL whose host is exactly
      'actionnetwork.org'. The known-pattern check that follows answers true
      either way, so the path never decides. */
  function ValidateUrl(url: string, lib: Library): (ok: bool)
    ensures ok <==> lib.isUrl(url) && lib.parseUrl(url).host == Some(Host)
  {
    if !lib.isUrl(url) then false
    else
      var parsed := lib.parseUrl(url);
      if parsed.host != Some(Host) then false
      else if MatchesKnownPattern(parsed.path) then true
      else true
  }

  /** The endpoint rewrites, in the order they are tried: a URL containing
      the marker (ignoring case) gets the suffix. */
  const Rewrites: seq<(string, string)> := [
    ("actionnetwork.org/api/v2/events/", "/attendances"),
    ("actionnetwork.org/api/v2/fundraising_pages/", "/donations"),
    ("actionnetwork.org/api/v2/advocacy_campaigns/", "/outreaches"),
    ("actionnetwork.org/api/v2/petitions/", "/signatures"),
    ("actionnetwork.org/api/v2/forms/", "/submissions")
  ]

  /** Applies the first rule of `rules` whose marker the URL contains. */
  function RewriteWith(url: string, rules: seq<(string, string)>): (r: string)
    ensures (forall i :: 0 <= i < |rules| ==> !ContainsIgnoreCase(url, rules[i].0)) ==> r == url
    ensures forall i :: (0 <= i < |rules| && ContainsIgnoreCase(url, rules[i].0) &&
      (forall j :: 0 <= j < i ==> !ContainsIgnoreCase(url, rules[j].0))) ==> r == RTrimChar(url, '/') + rules[i].1
    decreases |rules|
  {
    if |rules| == 0 then url
    else if ContainsIgnoreCase(url, rules[0].0) then RTrimChar(url, '/') + rules[0].1
    else
      assert rules == [rules[0]] + rules[1..];
      RewriteWith(url, rules[1..])
  }

  /** The sub-endpoint rewrite of `pull_the_trigger()`. */
  function RewriteEndpoint(url: string): string
  {
    RewriteWith(url, Rewrites)
  }

  /** A rewritten URL differs from the original: it ends with a suffix the
      original, cut of its trailing slashes, is extended by. */
  lemma RewriteChanges(url: string, i: nat)
    requires i < |Rewrites| && ContainsIgnoreCase(url, Rewrites[i].0)
    requires forall j :: 0 <= j < i ==> !ContainsIgnoreCase(url, Rewrites[j].0)
    ensures RewriteEndpoint(url) != url
    ensures RewriteEndpoint(url) == RTrimChar(url, '/') + Rewrites[i].1
  {
    RewriteSuffixes();
    RewriteWithChanges(url, Rewrites, i);
  }

  /** Every sub-endpoint suffix ends in 's'. */
  lemma RewriteSuffixes()
    ensures forall j :: 0 <= j < |Rewrites| ==> |Rewrites[j].1| > 0 && Rewrites[j].1[|Rewrites[j].1| - 1] == 's'
  {
  }

  /** The first matching rule decides, and its suffix changes the URL. */
  lemma RewriteWithChanges(url: string, rules: seq<(string, string)>, i: nat)
    requires i < |rules| && ContainsIgnoreCase(url, rules[i].0)
    requires forall j :: 0 <= j < i ==> !ContainsIgnoreCase(url, rules[j].0)
    requires forall j :: 0 <= j < |rules| ==> |rules[j].1| > 0 && rules[j].1[|rules[j].1| - 1] != '/'
    ensures RewriteWith(url, rules) == RTrimChar(url, '/') + rules[i].1
    ensures RewriteWith(url, rules) != url
  {
    SuffixChanges(url, rules[i].1);
  }

  /** Appending a suffix that does not end in '/' to the URL cut of its
      trailing slashes never gives back the URL. */
  lemma SuffixChanges(url: string, suffix: string)
    requires |suffix| > 0 && suffix[|suffix| - 1] != '/'
    ensures RTrimChar(url, '/') + suffix != url
  {
    var t := RTrimChar(url, '/');
    var r := t + suffix;
    assert r[|r| - 1] == suffix[|suffix| - 1];
    if |r| == |url| {
      assert url[|url| - 1] == '/';
    }
  }

  /** An events URL, whatever its case and trailing slashes, becomes its
      attendances endpoint. */
  lemma RewriteEvents(url: string)
    requires ContainsIgnoreCase(url, "actionnetwork.org/api/v2/events/")
    ensures RewriteEndpoint(url) == RTrimChar(url, '/') + "/attendances"
  {
  }

  /** One custom header line, split at its first ':' and trimmed on both
      sides; kept only when name and value are both non-empty. */
  function ParseHeaderLine(line: string, lib: Library): (h: Option<Entry<string>>)
    ensures h.Some? ==> ':' in line
  {
    var name := BeforeFirst(line, ':');
    if |name| == |line| then None
    else
      var n := Trim(name);
      var v := Trim(line[|name| + 1..]);
      if EmptyString(n) || EmptyString(v) then None
      else Some(Entry(lib.text(Str(n)), lib.text(Str(v))))
  }

  /** A line written as `name: value` parses back to its (sanitized) name
      and value; the value may itself hold ':'. */
  lemma HeaderLineRoundTrip(name: string, value: string, lib: Library)
    requires ':' !in name
    requires !EmptyString(name) && !IsPhpSpace(name[0]) && !IsPhpSpace(name[|name| - 1])
    requires !EmptyString(value) && !IsPhpSpace(value[0]) && !IsPhpSpace(value[|value| - 1])
    ensures ParseHeaderLine(name + ": " + value, lib) == Some(Entry(lib.text(Str(name)), lib.text(Str(value))))
  {
    var line := name + ": " + value;
    BeforeFirstChar(line, ':', name);
    assert line[|name| + 1..] == " " + value;
    TrimWithDropsLeading(' ', value, IsPhpSpace);
    TrimWithFixed(value, IsPhpSpace);
    TrimWithFixed(name, IsPhpSpace);
  }

  /** The header entries the custom lines yield, in order. */
  function ParsedHeaders(lines: seq<string>, lib: Library): (hs: PhpArray<string>)
    ensures |hs| <= |lines|
    ensures (forall i :: 0 <= i < |lines| ==> ParseHeaderLine(lines[i], lib).None?) ==> hs == []
    decreases |lines|
  {
    if |lines| == 0 then []
    else
      var rest := ParsedHeaders(lines[1..], lib);
      match ParseHeaderLine(lines[0], lib)
      case Some(h) => [h] + rest
      case None => rest
  }

  /** A line without ':' sets no header. */
  lemma HeaderLineWithoutColon(line: string, lib: Library)
    requires ':' !in line
    ensures ParseHeaderLine(line, lib).None?
  {
  }

  /** A line `name:value` with no ':' in `name` is split there, both sides
      trimmed, and kept exactly when neither trimmed side is PHP-empty, as
      the sanitized pair. */
  lemma HeaderLineSplit(name: string, value: string, lib: Library)
    requires ':' !in name
    ensures ParseHeaderLine(name + ":" + value, lib) ==
      if EmptyString(Trim(name)) || EmptyString(Trim(value)) then None
      else Some(Entry(lib.text(Str(Trim(name))), lib.text(Str(Trim(value)))))
  {
    var line := name + ":" + value;
    BeforeFirstChar(line, ':', name);
    assert line[|name| + 1..] == value;
  }

  /** The headers of consecutive lines follow one another in line order. */
  lemma {:induction false} ParsedHeadersAppend(a: seq<string>, b: seq<string>, lib: Library)
    ensures ParsedHeaders(a + b, lib) == ParsedHeaders(a, lib) + ParsedHeaders(b, lib)
    decreases |a|
  {
    if |a| == 0 {
      assert a + b == b;
    } else {
      assert (a + b)[0] == a[0] && (a + b)[1..] == a[1..] + b;
      ParsedHeadersAppend(a[1..], b, lib);
    }
  }

  /** A single line that does not parse yields nothing. */
  lemma ParsedHeadersSkip(line: string, lib: Library)
    requires ParseHeaderLine(line, lib).None?
    ensures ParsedHeaders([line], lib) == []
  {
    assert [line][1..] == [];
  }

  /** The `Content-Type` header: JSON, with the blog's charset when it has one. */
  function ContentType(charset: string): (r: string)
    ensures |r| >= |"application/json"| && r[..|"application/json"|] == "application/json"
    ensures r == "application/json" <==> EmptyString(charset)
    ensures !EmptyString(charset) ==> |r| >= |charset| && r[|r| - |charset|..] == charset
  {
    if EmptyString(charset) then "application/json" else "application/json; charset=" + charset
  }

  /** `create_headers()`: `Content-Type` first, then the custom lines of the
      form, a later line overriding an earlier one with the same name
      (`Content-Type` included). */
  function CreateHeaders(custom: string, charset: string, lib: Library): (hs: PhpArray<string>)
    ensures UniqueKeys(hs) && |hs| >= 1 && hs[0].key == "Content-Type"
  {
    var base := [Entry("Content-Type", ContentType(charset))];
    if EmptyString(custom) then base
    else
      var hs := Merge(base, ParsedHeaders(Split(custom, '\n'), lib));
      assert Keys(hs)[0] == Keys(base)[0];
      hs
  }

  /** Each header has the value of the last custom line naming it, and
      `Content-Type` is JSON unless a custom line says otherwise; no other
      header is sent. */
  lemma CreateHeadersGet(custom: string, charset: string, lib: Library, k: string)
    ensures var parsed := if EmptyString(custom) then [] else ParsedHeaders(Split(custom, '\n'), lib);
      Get(CreateHeaders(custom, charset, lib), k) ==
        if k in Keys(parsed) then Get(parsed, k)
        else if k == "Content-Type" then Some(ContentType(charset))
        else None
  {
  }

  /** A single custom line `name: value` sets that one header. */
  lemma OneCustomHeader(name: string, value: string, charset: string, lib: Library)
    requires ':' !in name
    requires !EmptyString(name) && !IsPhpSpace(name[0]) && !IsPhpSpace(name[|name| - 1])
    requires !EmptyString(value) && !IsPhpSpace(value[0]) && !IsPhpSpace(value[|value| - 1])
    requires '\n' !in name + ": " + value
    ensures var hs := CreateHeaders(name + ": " + value, charset, lib);
      Get(hs, lib.text(Str(name))) == Some(lib.text(Str(value)))
  {
    var line := name + ": " + value;
    var e := Entry(lib.text(Str(name)), lib.text(Str(value)));
    HeaderLineRoundTrip(name, value, lib);
    SplitWithout(line, '\n');
    ParsedHeadersOne(line, e, lib);
    assert |line| >= 3;
    CreateHeadersGet(line, charset, lib, e.key);
  }

  /** A single line that parses yields exactly its header. */
  lemma ParsedHeadersOne(line: string, e: Entry<string>, lib: Library)
    requires ParseHeaderLine(line, lib) == Some(e)
    ensures ParsedHeaders([line], lib) == [e]
  {
    assert [line][1..] == [];
  }

  /** What one attempt of `wp_remote_post()` gives: a `WP_Error` or a response. */
  datatype Attempt = TransportError(message: string) | Response(code: int, body: string)

  /** A response that ends the retry loop. */
  predicate Succeeds(a: Attempt)
  {
    a.Response? && a.code < 400
  }

  /** The message of the exception a failed attempt records. */
  function FailureMessage(a: Attempt): string
  {
    match a
    case TransportError(m) => m
    case Response(code, body) => "HTTP " + IntToString(code) + ": " + body
  }

  function Pow2(n: nat): (r: nat)
    ensures r >= 1
  {
    if n == 0 then 1 else 2 * Pow2(n - 1)
  }

  /** The back-off sleeps 2^from, ..., 2^(from+n-1), in seconds. */
  function Backoff(from: nat, n: nat): (s: seq<nat>)
    decreases n
    ensures |s| == n && forall k :: 0 <= k < n ==> s[k] == Pow2(from + k)
  {
    if n == 0 then [] else [Pow2(from)] + Backoff(from + 1, n - 1)
  }

  datatype Delivery = Delivered(code: int, body: string) | GaveUp(error: Option<string>)

  /** The outcome of the retry loop: what it returns or throws, the sleeps it
      makes and the number of attempts. */
  datatype RetryResult = RetryResult(delivery: Delivery, sleeps: seq<nat>, tries: nat)

  /** The retry loop from attempt `i` on, `last` being the error recorded so far. */
  function RetryFrom(attempt: nat -> Attempt, retries: nat, i: nat, last: Option<string>): (r: RetryResult)
    ensures i <= r.tries && (i < retries ==> r.tries <= retries) && (i >= retries ==> r.tries == i)
    ensures r.delivery.Delivered? <==> exists j :: i <= j < retries && Succeeds(attempt(j))
    ensures r.delivery.Delivered? ==>
      && i < r.tries
      && Succeeds(attempt(r.tries - 1))
      && r.delivery == Delivered(attempt(r.tries - 1).code, attempt(r.tries - 1).body)
      && (forall j :: i <= j < r.tries - 1 ==> !Succeeds(attempt(j)))
      && r.sleeps == Backoff(i, r.tries - 1 - i)
    ensures r.delivery.GaveUp? ==>
      && r.tries == (if i < retries then retries else i)
      && r.delivery.error == (if i < retries then Some(FailureMessage(attempt(retries - 1))) else last)
      && r.sleeps == Backoff(i, if i < retries then retries - 1 - i else 0)
    decreases retries - i
  {
    if i >= retries then RetryResult(GaveUp(last), [], i)
    else
      var a := attempt(i);
      if Succeeds(a) then RetryResult(Delivered(a.code, a.body), [], i + 1)
      else
        var rest := RetryFrom(attempt, retries, i + 1, Some(FailureMessage(a)));
        var nap := if i < retries - 1 then [Pow2(i)] else [];
        var r := RetryResult(rest.delivery, nap + rest.sleeps, rest.tries);
        assert i < retries - 1 ==> Backoff(i, |rest.sleeps| + 1) == [Pow2(i)] + Backoff(i + 1, |rest.sleeps|);
        r
  }

  /** `send_to_actionnetwork_with_retry()`. */
  function Retry(attempt: nat -> Attempt, retries: nat): RetryResult
  {
    RetryFrom(attempt, retries, 0, None)
  }

  /** The retry loop makes at most `retries` attempts and stops at the first
      success, which it returns; if every attempt fails it throws the last
      failure, and it never sleeps after the last attempt. */
  lemma RetryContract(attempt: nat -> Attempt, retries: nat)
    ensures var r := Retry(attempt, retries);
      && r.tries <= retries
      && (r.delivery.Delivered? <==> exists j :: 0 <= j < retries && Succeeds(attempt(j)))
      && (r.delivery.Delivered? ==> |r.sleeps| == r.tries - 1)
      && (r.delivery.GaveUp? && retries > 0 ==>
            r.delivery.error == Some(FailureMessage(attempt(retries - 1))) && |r.sleeps| == retries - 1)
  {
  }

  function Sum(s: seq<nat>): nat
  {
    if |s| == 0 then 0 else s[0] + Sum(s[1..])
  }

  /** The back-off sleeps 1, 2, ..., 2^(n-1) add up to 2^n - 1. */
  lemma {:induction false} BackoffTotal(from: nat, n: nat)
    ensures Sum(Backoff(from, n)) == Pow2(from) * (Pow2(n) - 1)
    decreases n
  {
    if n > 0 {
      BackoffTotal(from + 1, n - 1);
      assert Backoff(from, n) == [Pow2(from)] + Backoff(from + 1, n - 1);
      assert Sum(Backoff(from, n)) == Pow2(from) + Sum(Backoff(from + 1, n - 1));
      DoublingStep(Pow2(from), Pow2(n - 1));
    }
  }

  /** `pow(2, a + b)` is `pow(2, a) * pow(2, b)`. */
  lemma {:induction false} Pow2Add(a: nat, b: nat)
    ensures Pow2(a + b) == Pow2(a) * Pow2(b)
    decreases a
  {
    if a > 0 {
      Pow2Add(a - 1, b);
      assert Pow2(a + b) == 2 * Pow2(a - 1 + b);
    }
  }

  /** The sleeps from 2^from on, n of them, add up to 2^(from+n) - 2^from. */
  lemma BackoffSpan(from: nat, n: nat)
    ensures Sum(Backoff(from, n)) == Pow2(from + n) - Pow2(from)
  {
    BackoffTotal(from, n);
    Pow2Add(from, n);
  }

  /** One doubling step of the geometric sum: p + 2p(q - 1) == p(2q - 1). */
  lemma DoublingStep(p: nat, q: nat)
    requires q >= 1
    ensures p + (2 * p) * (q - 1) == p * (2 * q - 1)
  {
    assert (2 * p) * (q - 1) == 2 * (p * q) - 2 * p;
    assert p * (2 * q - 1) == 2 * (p * q) - p;
  }

  /** With the three attempts the dispatcher makes, it sleeps 1 and then 2
      seconds at most: never more than 3 seconds in all. */
  lemma ThreeAttemptsSleepAtMostThree(attempt: nat -> Attempt)
    ensures Retry(attempt, 3).sleeps == [1, 2] || Retry(attempt, 3).sleeps == [1] || Retry(attempt, 3).sleeps == []
    ensures Sum(Retry(attempt, 3).sleeps) <= 3
  {
    var r := Retry(attempt, 3);
    assert Pow2(0) == 1 && Pow2(1) == 2;
    BackoffTotal(0, |r.sleeps|);
    assert Pow2(2) == 4;
  }

  /** Two server errors and then a success: three attempts, sleeps of 1 and
      2 seconds, and the success is returned. */
  lemma RetryExample()
    ensures var attempt := (n: nat) => if n < 2 then Response(500, "busy") else Response(200, "ok");
      Retry(attempt, 3) == RetryResult(Delivered(200, "ok"), [1, 2], 3)
  {
    var attempt := (n: nat) => if n < 2 then Response(500, "busy") else Response(200, "ok");
    var r := Retry(attempt, 3);
    assert Succeeds(attempt(2));
    assert !Succeeds(attempt(0)) && !Succeeds(attempt(1));
    assert r.tries == 3;
    assert Backoff(0, 2) == [1, 2] by {
      assert Pow2(0) == 1 && Pow2(1) == 2;
    }
  }

  /** One POST request: the endpoint, the headers and the data it encodes
      as JSON. */
  datatype PostRequest = PostRequest(url: string, headers: PhpArray<string>, body: PhpArray<Value>)

  /** The answers of the network: the outcome of the n-th attempt of a request. */
  type Network = PostRequest -> nat -> Attempt

  /** What `pull_the_trigger()` does with one hook URL: sends the request, or
      throws an exception with a message. */
  datatype Dispatch =
    | Sent(request: PostRequest, code: int, body: string, sleeps: seq<nat>)
    | Thrown(message: string, sleeps: seq<nat>)

  const InvalidUrlMessage: string := "Invalid ActionNetwork URL provided"

  /** The custom header text stored with the form (`?? ''`); a stored
      scalar is read as a string. */
  function CustomHeaders(props: PhpArray<Value>): string
  {
    match Get(props, "custom_headers")
    case Some(v) => if IsArray(v) then "" else ToString(v)
    case None => ""
  }

  /** The request `pull_the_trigger()` posts: the rewritten URL, the
      headers of the form and the data. */
  function RequestFor(data: PhpArray<Value>, url: string, props: PhpArray<Value>, charset: string, lib: Library): PostRequest
  {
    PostRequest(RewriteEndpoint(url), CreateHeaders(CustomHeaders(props), charset, lib), data)
  }

  /** `pull_the_trigger()`, with its filters the identity: validates the
      hook URL, rewrites it to the sub-endpoint, builds the headers and posts
      the data with three attempts. */
  function PullTheTrigger(data: PhpArray<Value>, url: string, props: PhpArray<Value>, charset: string,
                          network: Network, lib: Library): (d: Dispatch)
    ensures !ValidateUrl(url, lib) <==> d == Thrown(InvalidUrlMessage, [])
    ensures d.Sent? ==> d.request.url == RewriteEndpoint(url) && d.request.body == data && d.code < 400
    ensures d.Sent? ==> d.request.headers == CreateHeaders(CustomHeaders(props), charset, lib)
    ensures ValidateUrl(url, lib) ==>
      (d.Sent? <==> exists j :: 0 <= j < 3 && Succeeds(network(RequestFor(data, url, props, charset, lib))(j)))
    ensures ValidateUrl(url, lib) && d.Thrown? ==>
      d.message == FailureMessage(network(RequestFor(data, url, props, charset, lib))(2))
  {
    if !ValidateUrl(url, lib) then Thrown(InvalidUrlMessage, [])
    else
      var request := RequestFor(data, url, props, charset, lib);
      var r := Retry(network(request), 3);
      RetryContract(network(request), 3);
      match r.delivery
      case Delivered(code, body) => Sent(request, code, body, r.sleeps)
      case GaveUp(error) =>
        if error.Some? then
          assert |r.sleeps| == 2;
          Thrown(error.value, r.sleeps)
        else assert false; Thrown("", r.sleeps)
  }
}

=== FILE: payload.dfy ===
/** `format_data_for_actionnetwork()`: the submitted fields, in order, are
    absorbed into a draft person record (every section present), then empty
    sections are dropped, the country is detected when missing, and the
    trigger, tag and referrer envelope is attached. */
module Payload {
  import opened Php
  import opened Strings
  import opened Assoc
  import opened Platform
  import opened Synonyms

  datatype Phone = Phone(number: string, status: string)

  datatype Email = Email(address: string, status: string)

  datatype Postal = Postal(
    postalCode: string,
    addressLines: seq<string>,
    locality: string,
    region: string,
    country: string
  )

  /** The person record while the fields are absorbed. */
  datatype Draft = Draft(
    familyName: string,
    givenName: string,
    customFields: PhpArray<Value>,
    postal: Postal,
    email: Email,
    phones: seq<Phone>
  )

  /** The record before any field is read: empty names and address, an email
      entry with status 'subscribed', no phone. */
  const InitialDraft: Draft :=
    Draft("", "", [], Postal("", [], "", "", ""), Email("", "subscribed"), [])

  /** The finished person: a `None` section has been removed. */
  datatype Person = Person(
    familyName: string,
    givenName: string,
    customFields: PhpArray<Value>,
    postal: Option<Postal>,
    email: Option<Email>,
    phones: Option<seq<Phone>>
  )

  datatype Payload = Payload(
    person: Person,
    /** `triggers.autoresponse.enabled` */
    autoresponse: bool,
    /** `action_network:referrer_data.source` */
    source: Value,
    /** `action_network:referrer_data.website` */
    website: Value,
    addTags: Option<seq<Value>>,
    removeTags: Option<seq<Value>>
  )

  /** A submitted value the formatter ignores: PHP-empty, except the string "0". */
  predicate Skipped(v: Value)
  {
    IsEmpty(v) && v != Str("0")
  }

  /** How field names are resolved to slots; the formatter uses
      `Synonyms.Resolve`, and the lemmas below hold for any resolver. */
  type Resolver = string -> Option<Slot>

  /** A field the formatter reads that fills `slot`. */
  predicate Fills(e: Entry<Value>, slot: Slot, res: Resolver)
  {
    !Skipped(e.val) && res(e.key) == Some(slot)
  }

  /** What a custom field stores: an array as it is, anything else sanitized. */
  function CustomValue(v: Value, lib: Library): (r: Value)
    ensures IsArray(v) ==> r == v
    ensures !IsArray(v) ==> r == Str(lib.text(v))
  {
    if IsArray(v) then v else Str(lib.text(v))
  }

  /** The sanitized address lines of a value: an array line by line, a
      scalar as a single line. */
  function AddressLinesOf(v: Value, lib: Library): (r: seq<string>)
    ensures |r| == |AsArray(v)|
    ensures forall i :: 0 <= i < |r| ==> r[i] == lib.text(AsArray(v)[i])
  {
    var xs := AsArray(v);
    seq(|xs|, i requires 0 <= i < |xs| => lib.text(xs[i]))
  }

  /** Reads one field into the draft. */
  function Absorb(d: Draft, e: Entry<Value>, res: Resolver, lib: Library): Draft
  {
    var v := e.val;
    if Skipped(v) then d
    else match res(e.key)
      case None => d.(customFields := Put(d.customFields, e.key, CustomValue(v, lib)))
      case Some(slot) =>
        match slot
        case EmailAddress => d.(email := d.email.(address := lib.email(v)))
        case EmailStatus => d.(email := d.email.(status := lib.text(v)))
        case PhoneNumber => if IsEmpty(v) then d else d.(phones := d.phones + [Phone(lib.text(v), "subscribed")])
        case AddressLines => d.(postal := d.postal.(addressLines := AddressLinesOf(v, lib)))
        case PostalCode => d.(postal := d.postal.(postalCode := lib.text(v)))
        case Locality => d.(postal := d.postal.(locality := lib.text(v)))
        case Region => d.(postal := d.postal.(region := lib.text(v)))
        case Country => d.(postal := d.postal.(country := lib.text(v)))
        case FamilyName => d.(familyName := lib.text(v))
        case GivenName => d.(givenName := lib.text(v))
  }

  /** Reads the fields in order (the `foreach` over the submitted data). */
  function AbsorbAll(d: Draft, fields: PhpArray<Value>, res: Resolver, lib: Library): Draft
    decreases |fields|
  {
    if |fields| == 0 then d
    else Absorb(AbsorbAll(d, fields[..|fields| - 1], res, lib), fields[|fields| - 1], res, lib)
  }

  /** The contents of one slot other than the phone list, as a value. */
  function SlotContent(d: Draft, slot: Slot): Value
  {
    match slot
    case FamilyName => Str(d.familyName)
    case GivenName => Str(d.givenName)
    case PostalCode => Str(d.postal.postalCode)
    case AddressLines => List(seq(|d.postal.addressLines|, i requires 0 <= i < |d.postal.addressLines| => Str(d.postal.addressLines[i])))
    case Locality => Str(d.postal.locality)
    case Region => Str(d.postal.region)
    case Country => Str(d.postal.country)
    case EmailAddress => Str(d.email.address)
    case EmailStatus => Str(d.email.status)
    case PhoneNumber => List([])
  }

  /** What a field writes into `slot`: `sanitize_email()` for the address,
      the sanitized lines for the street address, `sanitize_text_field()`
      otherwise. */
  function Written(slot: Slot, v: Value, lib: Library): Value
  {
    match slot
    case EmailAddress => Str(lib.email(v))
    case AddressLines =>
      var lines := AddressLinesOf(v, lib);
      List(seq(|lines|, i requires 0 <= i < |lines| => Str(lines[i])))
    case _ => Str(lib.text(v))
  }

  /** Field `i` is the last one that fills `slot`. */
  predicate IsLastFill(fields: PhpArray<Value>, slot: Slot, res: Resolver, i: int)
  {
    0 <= i < |fields| && Fills(fields[i], slot, res) &&
    forall j :: i < j < |fields| ==> !Fills(fields[j], slot, res)
  }

  /** Reading one field changes a slot only when the field fills that slot,
      and then to what the field writes. */
  lemma AbsorbSlot(d: Draft, e: Entry<Value>, slot: Slot, res: Resolver, lib: Library)
    requires slot != PhoneNumber
    ensures Fills(e, slot, res) ==> SlotContent(Absorb(d, e, res, lib), slot) == Written(slot, e.val, lib)
    ensures !Fills(e, slot, res) ==> SlotContent(Absorb(d, e, res, lib), slot) == SlotContent(d, slot)
  {
  }

  /** A slot no field fills keeps its initial content. */
  lemma {:induction false} UnfilledSlotKept(d: Draft, fields: PhpArray<Value>, slot: Slot, res: Resolver, lib: Library)
    requires slot != PhoneNumber
    requires forall i :: 0 <= i < |fields| ==> !Fills(fields[i], slot, res)
    ensures SlotContent(AbsorbAll(d, fields, res, lib), slot) == SlotContent(d, slot)
    decreases |fields|
  {
    if |fields| > 0 {
      var init := fields[..|fields| - 1];
      UnfilledSlotKept(d, init, slot, res, lib);
      AbsorbSlot(AbsorbAll(d, init, res, lib), fields[|fields| - 1], slot, res, lib);
    }
  }

  /** Every slot but the phone list holds what its last filling field wrote:
      later fields override earlier ones. */
  lemma {:induction false} LastFillWins(d: Draft, fields: PhpArray<Value>, slot: Slot, res: Resolver, lib: Library, i: int)
    requires slot != PhoneNumber
    requires IsLastFill(fields, slot, res, i)
    ensures SlotContent(AbsorbAll(d, fields, res, lib), slot) == Written(slot, fields[i].val, lib)
    decreases |fields|
  {
    var init := fields[..|fields| - 1];
    var last := fields[|fields| - 1];
    AbsorbSlot(AbsorbAll(d, init, res, lib), last, slot, res, lib);
    if i < |fields| - 1 {
      assert !Fills(last, slot, res);
      assert IsLastFill(init, slot, res, i);
      LastFillWins(d, init, slot, res, lib, i);
    }
  }

  /** The phone entries the fields produce: one per field that fills the
      phone slot with a value that is not PHP-empty ("0" included), in order. */
  function PhonesOf(fields: PhpArray<Value>, res: Resolver, lib: Library): (ps: seq<Phone>)
    ensures |ps| <= |fields|
    ensures forall p :: p in ps ==> (p.status == "subscribed" &&
      exists i :: 0 <= i < |fields| && Fills(fields[i], PhoneNumber, res) && !IsEmpty(fields[i].val) && p.number == lib.text(fields[i].val))
    decreases |fields|
  {
    if |fields| == 0 then []
    else
      var rest := PhonesOf(fields[1..], res, lib);
      assert forall i :: 1 <= i < |fields| ==> fields[1..][i - 1] == fields[i];
      if Fills(fields[0], PhoneNumber, res) && !IsEmpty(fields[0].val) then [Phone(lib.text(fields[0].val), "subscribed")] + rest
      else rest
  }

  /** The phone entries of a concatenation. */
  lemma {:induction false} PhonesOfAppend(a: PhpArray<Value>, b: PhpArray<Value>, res: Resolver, lib: Library)
    ensures PhonesOf(a + b, res, lib) == PhonesOf(a, res, lib) + PhonesOf(b, res, lib)
    decreases |a|
  {
    if |a| > 0 {
      assert (a + b)[0] == a[0];
      assert (a + b)[1..] == a[1..] + b;
      PhonesOfAppend(a[1..], b, res, lib);
    } else {
      assert a + b == b;
    }
  }

  /** Reading one field appends at most its own phone entry. */
  lemma AbsorbOnePhone(d: Draft, e: Entry<Value>, res: Resolver, lib: Library)
    ensures Absorb(d, e, res, lib).phones == d.phones + PhonesOf([e], res, lib)
  {
    assert [e][1..] == [];
  }

  /** Reading one field stores at most that field as a custom field. */
  lemma AbsorbOneCustom(d: Draft, e: Entry<Value>, k: string, res: Resolver, lib: Library)
    ensures Get(Absorb(d, e, res, lib).customFields, k) ==
      if res(k).None? && e.key == k && !Skipped(e.val) then Some(CustomValue(e.val, lib)) else Get(d.customFields, k)
  {
  }

  /** Absorbing the last field appends exactly its phone entry. */
  lemma AbsorbLastPhone(d: Draft, fields: PhpArray<Value>, res: Resolver, lib: Library)
    requires |fields| > 0
    ensures AbsorbAll(d, fields, res, lib).phones ==
      AbsorbAll(d, fields[..|fields| - 1], res, lib).phones + PhonesOf([fields[|fields| - 1]], res, lib)
  {
    AbsorbOnePhone(AbsorbAll(d, fields[..|fields| - 1], res, lib), fields[|fields| - 1], res, lib);
  }

  /** Absorbing the fields appends exactly their phone entries. */
  lemma {:induction false} AbsorbPhones(d: Draft, fields: PhpArray<Value>, res: Resolver, lib: Library)
    ensures AbsorbAll(d, fields, res, lib).phones == d.phones + PhonesOf(fields, res, lib)
    decreases |fields|
  {
    if |fields| > 0 {
      var init := fields[..|fields| - 1];
      var last := fields[|fields| - 1];
      assert fields == init + [last];
      AbsorbPhones(d, init, res, lib);
      AbsorbLastPhone(d, fields, res, lib);
      PhonesOfAppend(init, [last], res, lib);
    } else {
      assert d.phones + [] == d.phones;
    }
  }

  /** Custom fields: a field whose name resolves to no slot is stored under its
      own name, an array as it is and a scalar sanitized; nothing else is
      stored. */
  lemma {:induction false} AbsorbCustom(d: Draft, fields: PhpArray<Value>, k: string, res: Resolver, lib: Library)
    requires UniqueKeys(fields)
    ensures Get(AbsorbAll(d, fields, res, lib).customFields, k) ==
      if res(k).None? && Get(fields, k).Some? && !Skipped(Get(fields, k).value)
      then Some(CustomValue(Get(fields, k).value, lib))
      else Get(d.customFields, k)
    decreases |fields|
  {
    if |fields| > 0 {
      var init := fields[..|fields| - 1];
      var last := fields[|fields| - 1];
      GetSnoc(fields, k);
      AbsorbCustom(d, init, k, res, lib);
      AbsorbOneCustom(AbsorbAll(d, init, res, lib), last, k, res, lib);
    }
  }

  /** A field whose name resolves to a slot never becomes a custom field. */
  lemma {:induction false} SlotFieldsNotCustom(d: Draft, fields: PhpArray<Value>, k: string, res: Resolver, lib: Library)
    requires res(k).Some? && k !in Keys(d.customFields)
    ensures k !in Keys(AbsorbAll(d, fields, res, lib).customFields)
    decreases |fields|
  {
    if |fields| > 0 {
      SlotFieldsNotCustom(d, fields[..|fields| - 1], k, res, lib);
    }
  }

  /** `empty()` on every part of the postal address. */
  predicate PostalEmpty(p: Postal)
  {
    EmptyString(p.postalCode) && |p.addressLines| == 0 && EmptyString(p.locality) &&
    EmptyString(p.region) && EmptyString(p.country)
  }

  /** The postal country after detection: a detected country replaces a
      PHP-empty one and never a given one. */
  function WithCountry(p: Postal, detected: Option<string>): (r: Postal)
    ensures r.(country := p.country) == p
    ensures !EmptyString(p.country) ==> r == p
    ensures EmptyString(p.country) && detected.Some? && !EmptyString(detected.value) ==> r.country == detected.value
  {
    if EmptyString(p.country) && detected.Some? && !EmptyString(detected.value) then p.(country := detected.value) else p
  }

  /** The truthy entries of a tag list (`array_filter()`). */
  function Truthy(vs: seq<Value>): (r: seq<Value>)
    ensures forall v :: v in r <==> v in vs && !IsEmpty(v)
    ensures |r| <= |vs|
  {
    if |vs| == 0 then []
    else if IsEmpty(vs[0]) then Truthy(vs[1..])
    else [vs[0]] + Truthy(vs[1..])
  }

  /** The truthy entries keep their order: filtering works piece by piece. */
  lemma {:induction false} TruthyAppend(a: seq<Value>, b: seq<Value>)
    ensures Truthy(a + b) == Truthy(a) + Truthy(b)
    decreases |a|
  {
    if |a| == 0 {
      assert a + b == b;
    } else {
      assert (a + b)[0] == a[0] && (a + b)[1..] == a[1..] + b;
      TruthyAppend(a[1..], b);
    }
  }

  /** One entry is kept exactly when it is truthy. */
  lemma TruthyOne(v: Value)
    ensures Truthy([v]) == if IsEmpty(v) then [] else [v]
  {
    assert [v][1..] == [];
  }

  /** `add_tags` / `remove_tags`: present only when the setting is a non-empty
      array, holding its truthy entries. */
  function TagsOf(props: PhpArray<Value>, name: string): (r: Option<seq<Value>>)
    ensures r.Some? <==> Get(props, name).Some? && IsArray(Get(props, name).value) && !IsEmpty(Get(props, name).value)
    ensures r.Some? ==> forall v :: v in r.value <==> v in AsArray(Get(props, name).value) && !IsEmpty(v)
    ensures r.Some? ==> r.value == Truthy(AsArray(Get(props, name).value))
  {
    match Get(props, name)
    case Some(v) => if !IsEmpty(v) && IsArray(v) then Some(Truthy(AsArray(v))) else None
    case None => None
  }

  /** `format_data_for_actionnetwork()`; the `cfan_detected_country` and
      `cfan_formatted_data` filters are the identity. `detected` is what
      `detect_user_country_if_enabled()` answers (see module Country); it is
      consulted only when the submitted country is PHP-empty. */
  function Format(fields: PhpArray<Value>, props: PhpArray<Value>, source: Value, website: Value,
                  detected: Option<string>, lib: Library): (p: Payload)
    ensures p.autoresponse <==> Get(props, "enable_autoresponse") == Some(Str("1"))
    ensures p.source == source && p.website == website
    ensures p.addTags == TagsOf(props, "add_tags") && p.removeTags == TagsOf(props, "remove_tags")
  {
    var d := AbsorbAll(InitialDraft, fields, Resolve, lib);
    var phones := if |d.phones| == 0 then None else Some(d.phones);
    var postal := WithCountry(d.postal, detected);
    var person := Person(
      d.familyName,
      d.givenName,
      d.customFields,
      if PostalEmpty(postal) then None else Some(postal),
      if EmptyString(d.email.address) then None else Some(d.email),
      phones);
    var autoresponse := Get(props, "enable_autoresponse") == Some(Str("1"));
    Payload(person, autoresponse, source, website, TagsOf(props, "add_tags"), TagsOf(props, "remove_tags"))
  }

  /** The draft the formatter builds from the submitted fields. */
  function DraftOf(fields: PhpArray<Value>, lib: Library): Draft
  {
    AbsorbAll(InitialDraft, fields, Resolve, lib)
  }

  /** A name is the sanitized value of the last field that fills it. */
  lemma FormatName(fields: PhpArray<Value>, props: PhpArray<Value>, source: Value, website: Value,
                   detected: Option<string>, lib: Library, slot: Slot, i: int)
    requires slot == GivenName || slot == FamilyName
    requires IsLastFill(fields, slot, Resolve, i)
    ensures var p := Format(fields, props, source, website, detected, lib);
      (if slot == GivenName then p.person.givenName else p.person.familyName) == lib.text(fields[i].val)
  {
    LastFillWins(InitialDraft, fields, slot, Resolve, lib, i);
  }

  /** A name no field fills is sent empty. */
  lemma FormatNameMissing(fields: PhpArray<Value>, props: PhpArray<Value>, source: Value, website: Value,
                          detected: Option<string>, lib: Library, slot: Slot)
    requires slot == GivenName || slot == FamilyName
    requires forall i :: 0 <= i < |fields| ==> !Fills(fields[i], slot, Resolve)
    ensures var p := Format(fields, props, source, website, detected, lib);
      (if slot == GivenName then p.person.givenName else p.person.familyName) == ""
  {
    UnfilledSlotKept(InitialDraft, fields, slot, Resolve, lib);
  }

  /** The email section follows the last address field: it is present
      exactly when that field's sanitized address is not PHP-empty, and then
      holds that address. */
  lemma FormatEmail(fields: PhpArray<Value>, props: PhpArray<Value>, source: Value, website: Value,
                    detected: Option<string>, lib: Library, i: int)
    requires IsLastFill(fields, EmailAddress, Resolve, i)
    ensures var p := Format(fields, props, source, website, detected, lib);
      && (p.person.email.Some? <==> !EmptyString(lib.email(fields[i].val)))
      && (p.person.email.Some? ==> p.person.email.value.address == lib.email(fields[i].val))
  {
    LastFillWins(InitialDraft, fields, EmailAddress, Resolve, lib, i);
  }

  /** Without an address field there is no email section. */
  lemma FormatEmailMissing(fields: PhpArray<Value>, props: PhpArray<Value>, source: Value, website: Value,
                           detected: Option<string>, lib: Library)
    requires forall i :: 0 <= i < |fields| ==> !Fills(fields[i], EmailAddress, Resolve)
    ensures Format(fields, props, source, website, detected, lib).person.email.None?
  {
    UnfilledSlotKept(InitialDraft, fields, EmailAddress, Resolve, lib);
  }

  /** The email status is that of the last status field. */
  lemma FormatEmailStatus(fields: PhpArray<Value>, props: PhpArray<Value>, source: Value, website: Value,
                          detected: Option<string>, lib: Library, i: int)
    requires IsLastFill(fields, EmailStatus, Resolve, i)
    ensures var p := Format(fields, props, source, website, detected, lib);
      p.person.email.Some? ==> p.person.email.value.status == lib.text(fields[i].val)
  {
    LastFillWins(InitialDraft, fields, EmailStatus, Resolve, lib, i);
  }

  /** Without a status field the email status stays 'subscribed'. */
  lemma FormatEmailStatusDefault(fields: PhpArray<Value>, props: PhpArray<Value>, source: Value, website: Value,
                                 detected: Option<string>, lib: Library)
    requires forall i :: 0 <= i < |fields| ==> !Fills(fields[i], EmailStatus, Resolve)
    ensures var p := Format(fields, props, source, website, detected, lib);
      p.person.email.Some? ==> p.person.email.value.status == "subscribed"
  {
    UnfilledSlotKept(InitialDraft, fields, EmailStatus, Resolve, lib);
  }

  /** Phones: one entry per phone field whose value is not PHP-empty, in
      order, and no `phone_numbers` section when there is none. */
  lemma FormatPhones(fields: PhpArray<Value>, props: PhpArray<Value>, source: Value, website: Value,
                     detected: Option<string>, lib: Library)
    ensures var p := Format(fields, props, source, website, detected, lib);
      var ps := PhonesOf(fields, Resolve, lib);
      p.person.phones == if |ps| == 0 then None else Some(ps)
  {
    AbsorbPhones(InitialDraft, fields, Resolve, lib);
    assert [] + PhonesOf(fields, Resolve, lib) == PhonesOf(fields, Resolve, lib);
  }

  /** Custom fields: exactly the read fields whose names resolve to no slot,
      under their own names (the submitted names being distinct, as the keys
      of a PHP array are). */
  lemma FormatCustomFields(fields: PhpArray<Value>, props: PhpArray<Value>, source: Value, website: Value,
                           detected: Option<string>, lib: Library, k: string)
    requires UniqueKeys(fields)
    ensures Get(Format(fields, props, source, website, detected, lib).person.customFields, k) ==
      if Resolve(k).None? && Get(fields, k).Some? && !Skipped(Get(fields, k).value)
      then Some(CustomValue(Get(fields, k).value, lib))
      else None
  {
    AbsorbCustom(InitialDraft, fields, k, Resolve, lib);
  }

  /** The country: a submitted country that sanitizes to something
      non-empty is kept, and detection never overrides it; detection
      contributes nothing unless the form enables it. */
  lemma FormatCountry(fields: PhpArray<Value>, props: PhpArray<Value>, source: Value, website: Value,
                      detected: Option<string>, lib: Library, i: int)
    requires IsLastFill(fields, Country, Resolve, i) && !EmptyString(lib.text(fields[i].val))
    ensures var p := Format(fields, props, source, website, detected, lib);
      p.person.postal.Some? && p.person.postal.value.country == lib.text(fields[i].val)
  {
    LastFillWins(InitialDraft, fields, Country, Resolve, lib, i);
  }

  /** When detection answers nothing (it is disabled, or finds no country),
      the postal address is exactly what the fields gave, and it is dropped
      when all five parts are PHP-empty. */
  lemma FormatNoDetection(fields: PhpArray<Value>, props: PhpArray<Value>, source: Value, website: Value,
                          detected: Option<string>, lib: Library)
    requires detected.None?
    ensures var p := Format(fields, props, source, website, detected, lib);
      var d := DraftOf(fields, lib);
      && (p.person.postal.None? <==> PostalEmpty(d.postal))
      && (p.person.postal.Some? ==> p.person.postal.value == d.postal)
  {
  }

  /** A detected country fills an empty postal country, which keeps the
      postal section even when the form gave no address at all (a detected
      country is never PHP-empty: `Country.Detect`). */
  lemma FormatDetectedCountry(fields: PhpArray<Value>, props: PhpArray<Value>, source: Value, website: Value,
                              detected: Option<string>, lib: Library)
    requires forall i :: 0 <= i < |fields| ==> !Fills(fields[i], Country, Resolve)
    requires detected.Some? && !EmptyString(detected.value)
    ensures var p := Format(fields, props, source, website, detected, lib);
      p.person.postal.Some? && p.person.postal.value.country == detected.value
  {
    UnfilledSlotKept(InitialDraft, fields, Country, Resolve, lib);
  }

  /** The PHP array of the email entry. */
  function EmailValue(e: Email): Value
  {
    Dict([Entry("address", Str(e.address)), Entry("status", Str(e.status))])
  }

  function PhoneValue(ph: Phone): Value
  {
    Dict([Entry("number", Str(ph.number)), Entry("status", Str(ph.status))])
  }

  function PostalValue(a: Postal): Value
  {
    Dict([
      Entry("postal_code", Str(a.postalCode)),
      Entry("address_lines", List(seq(|a.addressLines|, i requires 0 <= i < |a.addressLines| => Str(a.addressLines[i])))),
      Entry("locality", Str(a.locality)),
      Entry("region", Str(a.region)),
      Entry("country", Str(a.country))])
  }

  /** The `person` array, with the removed sections left out. */
  function PersonValue(q: Person): Value
  {
    Dict(NameEntries(q)
      + Section("postal_addresses", if q.postal.Some? then Some(List([PostalValue(q.postal.value)])) else None)
      + Section("email_addresses", if q.email.Some? then Some(List([EmailValue(q.email.value)])) else None)
      + Section("phone_numbers", PhonesValue(q.phones)))
  }

  /** The names and custom fields that open the `person` array. */
  function NameEntries(q: Person): PhpArray<Value>
  {
    [Entry("family_name", Str(q.familyName)), Entry("given_name", Str(q.givenName)),
     Entry("custom_fields", Dict(q.customFields))]
  }

  /** The phone section's value, if the section is kept. */
  function PhonesValue(phones: Option<seq<Phone>>): Option<Value>
  {
    match phones
    case Some(ps) => Some(List(seq(|ps|, i requires 0 <= i < |ps| => PhoneValue(ps[i]))))
    case None => None
  }

  /** A section of the `person` array: the entry when it is kept, nothing
      when it was unset. */
  function Section(key: string, v: Option<Value>): PhpArray<Value>
  {
    if v.Some? then [Entry(key, v.value)] else []
  }

  /** Reading the email array back gives the address and status it was
      built from. */
  lemma EmailValueGet(e: Email)
    ensures Get(EmailValue(e).entries, "address") == Some(Str(e.address))
    ensures Get(EmailValue(e).entries, "status") == Some(Str(e.status))
  {
    PairGet("address", Str(e.address), "status", Str(e.status));
  }

  /** Reading a phone array back gives the number and status it was built
      from. */
  lemma PhoneValueGet(ph: Phone)
    ensures Get(PhoneValue(ph).entries, "number") == Some(Str(ph.number))
    ensures Get(PhoneValue(ph).entries, "status") == Some(Str(ph.status))
  {
    assert "number"[0] != "status"[0];
    PairGet("number", Str(ph.number), "status", Str(ph.status));
  }

  /** A two-entry array with different keys answers each key with its value. */
  lemma PairGet(k1: string, v1: Value, k2: string, v2: Value)
    requires k1 != k2
    ensures Get([Entry(k1, v1), Entry(k2, v2)], k1) == Some(v1)
    ensures Get([Entry(k1, v1), Entry(k2, v2)], k2) == Some(v2)
  {
    var m := [Entry(k1, v1), Entry(k2, v2)];
    assert m[..1] == [Entry(k1, v1)];
  }

  /** Reading the postal array back gives the postal code, locality, region
      and country it was built from, and the address lines as a list of
      texts in their own order. */
  lemma PostalValueGet(a: Postal)
    ensures var es := PostalValue(a).entries;
      Get(es, "postal_code") == Some(Str(a.postalCode)) && Get(es, "locality") == Some(Str(a.locality))
      && Get(es, "region") == Some(Str(a.region)) && Get(es, "country") == Some(Str(a.country))
      && Get(es, "address_lines") == Some(List(seq(|a.addressLines|, i requires 0 <= i < |a.addressLines| => Str(a.addressLines[i]))))
  {
    var es := PostalValue(a).entries;
    assert UniqueKeys(es);
    GetAt(es, 0);
    GetAt(es, 1);
    GetAt(es, 2);
    GetAt(es, 3);
    GetAt(es, 4);
  }

  /** The `person` array holds the names and custom fields under their own
      keys, and a section exactly when the person kept it, built from the
      kept part: the sections the formatter unsets are absent. */
  lemma PersonValueSections(q: Person)
    ensures PersonValue(q).Dict?
    ensures var es := PersonValue(q).entries;
      Get(es, "family_name") == Some(Str(q.familyName)) && Get(es, "given_name") == Some(Str(q.givenName))
      && Get(es, "custom_fields") == Some(Dict(q.customFields))
    ensures var es := PersonValue(q).entries;
      (Get(es, "postal_addresses").Some? <==> q.postal.Some?)
      && (Get(es, "email_addresses").Some? <==> q.email.Some?)
      && (Get(es, "phone_numbers").Some? <==> q.phones.Some?)
    ensures q.email.Some? ==> Get(PersonValue(q).entries, "email_addresses") == Some(List([EmailValue(q.email.value)]))
    ensures q.postal.Some? ==> Get(PersonValue(q).entries, "postal_addresses") == Some(List([PostalValue(q.postal.value)]))
  {
    PersonGet(q, "family_name");
    PersonGet(q, "given_name");
    PersonGet(q, "custom_fields");
    PersonGet(q, "postal_addresses");
    PersonGet(q, "email_addresses");
    PersonGet(q, "phone_numbers");
    NameEntriesGet(q);
  }

  /** A lookup in the `person` array: a section key finds its section, any
      other key the opening entries. */
  lemma PersonGet(q: Person, k: string)
    ensures Get(PersonValue(q).entries, k) ==
      if k == "phone_numbers" then PhonesValue(q.phones)
      else if k == "email_addresses" then (if q.email.Some? then Some(List([EmailValue(q.email.value)])) else None)
      else if k == "postal_addresses" then (if q.postal.Some? then Some(List([PostalValue(q.postal.value)])) else None)
      else Get(NameEntries(q), k)
  {
    var n := NameEntries(q);
    var s1 := Section("postal_addresses", if q.postal.Some? then Some(List([PostalValue(q.postal.value)])) else None);
    var s2 := Section("email_addresses", if q.email.Some? then Some(List([EmailValue(q.email.value)])) else None);
    var s3 := Section("phone_numbers", PhonesValue(q.phones));
    assert PersonValue(q).entries == n + s1 + s2 + s3;
    GetAppend(n + s1 + s2, s3, k);
    if k != "phone_numbers" || q.phones.None? {
      GetAppend(n + s1, s2, k);
      if k != "email_addresses" || q.email.None? {
        GetAppend(n, s1, k);
        if k == "phone_numbers" || k == "email_addresses" || k == "postal_addresses" {
          NameEntriesGet(q);
        }
      }
    }
  }

  /** The opening entries answer for the two names and the custom fields,
      and for no section key. */
  lemma NameEntriesGet(q: Person)
    ensures Get(NameEntries(q), "family_name") == Some(Str(q.familyName))
    ensures Get(NameEntries(q), "given_name") == Some(Str(q.givenName))
    ensures Get(NameEntries(q), "custom_fields") == Some(Dict(q.customFields))
    ensures Get(NameEntries(q), "postal_addresses").None?
    ensures Get(NameEntries(q), "email_addresses").None?
    ensures Get(NameEntries(q), "phone_numbers").None?
  {
    var n := NameEntries(q);
    assert Keys(n) == ["family_name", "given_name", "custom_fields"];
    assert "phone_numbers"[0] != "custom_fields"[0];
    assert UniqueKeys(n);
    GetAt(n, 0);
    GetAt(n, 1);
    GetAt(n, 2);
  }

  /** The keys of the array the formatter returns. */
  predicate EnvelopeKey(k: string)
  {
    k == "person" || k == "triggers" || k == "action_network:referrer_data" || k == "add_tags" || k == "remove_tags"
  }

  /** The payload as the PHP array the formatter returns. */
  function AsFields(p: Payload): (r: PhpArray<Value>)
    ensures forall i :: 0 <= i < |r| ==> EnvelopeKey(r[i].key)
    ensures 3 <= |r| && r[0] == Entry("person", PersonValue(p.person))
    ensures forall i :: 1 <= i < |r| ==> r[i].key != "person"
  {
    var head := [
      Entry("person", PersonValue(p.person)),
      Entry("triggers", Dict([Entry("autoresponse", Dict([Entry("enabled", Bool(p.autoresponse))]))])),
      Entry("action_network:referrer_data", Dict([Entry("source", p.source), Entry("website", p.website)]))];
    var add := if p.addTags.Some? then [Entry("add_tags", List(p.addTags.value))] else [];
    var remove := if p.removeTags.Some? then [Entry("remove_tags", List(p.removeTags.value))] else [];
    head + add + remove
  }

  /** No two entries of the formatted array share a key. */
  lemma AsFieldsUniqueKeys(p: Payload)
    ensures UniqueKeys(AsFields(p))
  {
    var r := AsFields(p);
    forall i, j | 0 <= i < j < |r|
      ensures r[i].key != r[j].key
    {
      var n := if p.addTags.Some? then 4 else 3;
      assert r[0].key == "person" && r[1].key == "triggers" && r[2].key == "action_network:referrer_data";
      assert p.addTags.Some? ==> r[3].key == "add_tags";
      assert p.removeTags.Some? ==> r[n].key == "remove_tags" && |r| == n + 1;
      assert p.removeTags.None? ==> |r| == n;
    }
  }

  /** When no field resolves to a slot, the draft keeps its empty names,
      email address and phone list. */
  lemma DraftWithoutSlots(fields: PhpArray<Value>, res: Resolver, lib: Library)
    requires forall i :: 0 <= i < |fields| ==> res(fields[i].key).None?
    ensures var d := AbsorbAll(InitialDraft, fields, res, lib);
      d.email.address == "" && d.givenName == "" && d.familyName == "" && d.phones == []
  {
    UnfilledSlotKept(InitialDraft, fields, EmailAddress, res, lib);
    UnfilledSlotKept(InitialDraft, fields, GivenName, res, lib);
    UnfilledSlotKept(InitialDraft, fields, FamilyName, res, lib);
    AbsorbPhones(InitialDraft, fields, res, lib);
  }

  /** The keys of a formatted payload resolve to no slot. */
  lemma AsFieldsAreCustom(p: Payload)
    ensures forall i :: 0 <= i < |AsFields(p)| ==> Resolve(AsFields(p)[i].key).None?
  {
    EnvelopeKeysAreCustom();
    ReferrerKeyIsCustom();
    TagKeysAreCustom();
  }

  /** Feeding a formatted payload back into the formatter, as the endpoint
      loop does for every hook URL after the first, yields a person with no
      name, email or phone. */
  lemma ReformatLosesContact(p: Payload, props: PhpArray<Value>, source: Value, website: Value,
                             detected: Option<string>, lib: Library)
    ensures var q := Format(AsFields(p), props, source, website, detected, lib);
      && q.person.email.None? && q.person.phones.None?
      && q.person.givenName == "" && q.person.familyName == ""
  {
    AsFieldsAreCustom(p);
    DraftWithoutSlots(AsFields(p), Resolve, lib);
  }

  /** Instead, the whole first `person` array becomes a custom field. */
  lemma ReformatBuriesPerson(p: Payload, props: PhpArray<Value>, source: Value, website: Value,
                             detected: Option<string>, lib: Library)
    ensures Get(Format(AsFields(p), props, source, website, detected, lib).person.customFields, "person")
      == Some(PersonValue(p.person))
  {
    var f := AsFields(p);
    AsFieldsUniqueKeys(p);
    GetAt(f, 0);
    EnvelopeKeysAreCustom();
    PersonIsArray(p.person);
    FormatCustomFields(f, props, source, website, detected, lib, "person");
  }

  /** The `person` array is a non-empty array, so the formatter stores it as
      it is. */
  lemma PersonIsArray(q: Person)
    ensures IsArray(PersonValue(q)) && !Skipped(PersonValue(q))
  {
  }
}

=== FILE: php.dfy ===
/** PHP runtime values as the plugin handles them: submitted field values,
    stored form settings and the nested arrays of the Action Network payload.

    A PHP array with string keys is an ordered sequence of entries (see module
    Assoc); a PHP list is `List`. Integers and floats never reach the logic
    modelled here, so they have no constructor. */
module Php {

  datatype Option<+T> = None | Some(value: T)

  /** One `key => value` pair of a PHP array with string keys. */
  datatype Entry<+V> = Entry(key: string, val: V)

  datatype Value =
    | Str(s: string)
    | Bool(b: bool)
    | List(items: seq<Value>)
    | Dict(entries: seq<Entry<Value>>)

  /** PHP `empty()` on a string: only "" and "0" are empty. */
  predicate EmptyString(s: string)
  {
    s == "" || s == "0"
  }

  /** PHP `empty()` (and falsiness) on a value. */
  predicate IsEmpty(v: Value)
  {
    match v
    case Str(s) => EmptyString(s)
    case Bool(b) => !b
    case List(xs) => |xs| == 0
    case Dict(es) => |es| == 0
  }

  /** PHP `is_array()`. */
  predicate IsArray(v: Value)
  {
    v.List? || v.Dict?
  }

  /** The values of a PHP array, in order. */
  function Values<V>(es: seq<Entry<V>>): (vs: seq<V>)
    ensures |vs| == |es|
    ensures forall i :: 0 <= i < |es| ==> vs[i] == es[i].val
  {
    seq(|es|, i requires 0 <= i < |es| => es[i].val)
  }

  /** PHP `(string)` conversion: `true` is "1", `false` is "", an array is "Array". */
  function ToString(v: Value): string
  {
    match v
    case Str(s) => s
    case Bool(b) => if b then "1" else ""
    case List(_) => "Array"
    case Dict(_) => "Array"
  }

  /** PHP `(array)` cast: an array keeps its values, a scalar becomes a one-element list. */
  function AsArray(v: Value): (xs: seq<Value>)
    ensures IsArray(v) ==> |xs| == (if v.List? then |v.items| else |v.entries|)
    ensures !IsArray(v) ==> xs == [v]
    ensures v.List? ==> xs == v.items
    ensures v.Dict? ==> xs == Values(v.entries)
  {
    match v
    case List(items) => items
    case Dict(es) => Values(es)
    case _ => [v]
  }

  /** `(array)` applied to a possibly missing array element: `(array) null` is `[]`. */
  function AsArrayOrEmpty(o: Option<Value>): seq<Value>
  {
    match o
    case None => []
    case Some(v) => AsArray(v)
  }
}

=== FILE: placeholders.dfy ===
/** The two small parsers of the Contact Form 7 module: `[name]` placeholders
    in hook URLs and their substitution (class-module-cf7.php,
    `get_hook_url_placeholders` and the start of the endpoint loop of
    `wpcf7_mail_sent`), and the `[tag alias]` list of special mail tags
    (`get_special_mail_tags_from_string`). */
module Placeholders {
  import opened Php
  import opened Strings
  import opened Assoc
  import opened Platform

  predicate IsBracket(c: char)
  {
    c == '[' || c == ']'
  }

  predicate BracketFree(s: string)
  {
    forall i :: 0 <= i < |s| ==> !IsBracket(s[i])
  }

  /** Length of the longest bracket-free prefix of `s`. */
  function RunLength(s: string): (n: nat)
    ensures n <= |s|
    ensures forall i :: 0 <= i < n ==> !IsBracket(s[i])
    ensures n < |s| ==> IsBracket(s[n])
    decreases |s|
  {
    if |s| == 0 || IsBracket(s[0]) then 0 else 1 + RunLength(s[1..])
  }

  /** The inner names of the matches of /\[[^\[\]]+\]/ in `s`, left to right,
      as `preg_match_all` finds them: at a '[' the greedy run of non-brackets
      must be non-empty and be closed by ']'; otherwise the scan moves on by
      one character. */
  function Tokens(s: string): (names: seq<string>)
    ensures forall i :: 0 <= i < |names| ==> |names[i]| > 0 && BracketFree(names[i])
    decreases |s|
  {
    if |s| == 0 then []
    else if s[0] == '[' && 0 < RunLength(s[1..]) < |s| - 1 && s[1 + RunLength(s[1..])] == ']' then
      var n := RunLength(s[1..]);
      assert BracketFree(s[1..1 + n]) by {
        assert forall i :: 0 <= i < n ==> s[1..1 + n][i] == s[1..][i];
      }
      [s[1..1 + n]] + Tokens(s[n + 2..])
    else Tokens(s[1..])
  }

  /** The placeholder text for a name. */
  function Placeholder(name: string): string
  {
    "[" + name + "]"
  }

  /** `[name]` occurs in `s` with a non-empty, bracket-free name. */
  ghost predicate IsPlaceholderIn(s: string, name: string)
  {
    |name| > 0 && BracketFree(name) && exists i :: OccursAt(s, Placeholder(name), i)
  }

  lemma OccursShift(s: string, p: string, i: int, k: int)
    requires 0 <= k <= i && k <= |s|
    ensures OccursAt(s, p, i) <==> OccursAt(s[k..], p, i - k)
  {
    if i + |p| <= |s| {
      assert s[k..][i - k..i - k + |p|] == s[i..i + |p|];
    }
  }

  /** Every token is a placeholder occurring in the string. */
  lemma {:induction false} TokensSound(s: string, name: string)
    requires name in Tokens(s)
    ensures IsPlaceholderIn(s, name)
    decreases |s|
  {
    if s[0] == '[' && 0 < RunLength(s[1..]) < |s| - 1 && s[1 + RunLength(s[1..])] == ']' {
      var n := RunLength(s[1..]);
      if name == s[1..1 + n] {
        assert s[0..n + 2] == Placeholder(name);
        assert OccursAt(s, Placeholder(name), 0);
      } else {
        TokensSound(s[n + 2..], name);
        PlaceholderInSuffix(s, name, n + 2);
      }
    } else {
      TokensSound(s[1..], name);
      PlaceholderInSuffix(s, name, 1);
    }
  }

  /** A placeholder of a suffix is one of the whole string. */
  lemma PlaceholderInSuffix(s: string, name: string, k: nat)
    requires k <= |s| && IsPlaceholderIn(s[k..], name)
    ensures IsPlaceholderIn(s, name)
  {
    var i :| OccursAt(s[k..], Placeholder(name), i);
    OccursShift(s, Placeholder(name), i + k, k);
  }

  /** The run of non-brackets ends exactly at the first bracket. */
  lemma RunLengthExact(t: string, L: nat)
    requires L < |t| && IsBracket(t[L])
    requires forall j :: 0 <= j < L ==> !IsBracket(t[j])
    ensures RunLength(t) == L
  {
  }

  /** A placeholder at the very start of the string is the first token. */
  lemma TokenAtFront(s: string, name: string)
    requires |name| > 0 && BracketFree(name)
    requires OccursAt(s, Placeholder(name), 0)
    ensures Tokens(s) == [name] + Tokens(s[|name| + 2..])
  {
    var L := |name|;
    assert s[..L + 2] == Placeholder(name);
    assert s[0] == '[';
    var t := s[1..];
    assert forall j :: 0 <= j < L ==> t[j] == name[j];
    assert t[L] == ']';
    RunLengthExact(t, L);
    assert s[1..1 + L] == name;
  }

  /** Every placeholder occurring in the string is found as a token: a match
      found earlier can never swallow it, since a match holds no bracket
      inside. */
  lemma {:induction false} TokensComplete(s: string, name: string, i: int)
    requires |name| > 0 && BracketFree(name)
    requires OccursAt(s, Placeholder(name), i)
    ensures name in Tokens(s)
    decreases |s|
  {
    var ph := Placeholder(name);
    if i == 0 {
      TokenAtFront(s, name);
    } else if s[0] == '[' && 0 < RunLength(s[1..]) < |s| - 1 && s[1 + RunLength(s[1..])] == ']' {
      var n := RunLength(s[1..]);
      assert forall j :: 1 <= j <= n ==> s[j] == s[1..][j - 1];
      MatchSkipsPlaceholder(s, n, name, i);
      OccursShift(s, ph, i, n + 2);
      TokensComplete(s[n + 2..], name, i - n - 2);
    } else {
      OccursShift(s, ph, i, 1);
      TokensComplete(s[1..], name, i - 1);
    }
  }

  /** A placeholder cannot start inside a match `[...]` at the front. */
  lemma MatchSkipsPlaceholder(s: string, n: nat, name: string, i: int)
    requires 0 < n && n + 1 < |s| && s[1 + n] == ']'
    requires forall j :: 1 <= j <= n ==> !IsBracket(s[j])
    requires 0 < i && OccursAt(s, Placeholder(name), i)
    ensures i >= n + 2
  {
    assert s[i] == Placeholder(name)[0] == '[';
  }

  /** A name is a token exactly when `[name]` occurs with a proper name. */
  lemma TokensIff(s: string, name: string)
    ensures name in Tokens(s) <==> IsPlaceholderIn(s, name)
  {
    if name in Tokens(s) {
      TokensSound(s, name);
    }
    if IsPlaceholderIn(s, name) {
      var i :| OccursAt(s, Placeholder(name), i);
      TokensComplete(s, name, i);
    }
  }

  /** `get_hook_url_placeholders()`: each placeholder name mapped to its
      bracketed text, in order of first occurrence; repeats collapse. */
  function PlaceholdersOf(url: string): (m: PhpArray<string>)
    ensures UniqueKeys(m)
    ensures forall name :: Get(m, name) == (if IsPlaceholderIn(url, name) then Some(Placeholder(name)) else None)
  {
    var ts := Tokens(url);
    var m := Merge([], Bracketed(ts));
    MergeBracketed(ts);
    forall name
      ensures Get(m, name) == (if IsPlaceholderIn(url, name) then Some(Placeholder(name)) else None)
    {
      TokensIff(url, name);
    }
    m
  }

  /** Each name paired with its bracketed text. */
  function Bracketed(ts: seq<string>): (es: PhpArray<string>)
    ensures |es| == |ts| && forall i :: 0 <= i < |ts| ==> es[i] == Entry(ts[i], Placeholder(ts[i]))
  {
    seq(|ts|, i requires 0 <= i < |ts| => Entry(ts[i], Placeholder(ts[i])))
  }

  /** Assigning the bracketed texts in turn maps exactly the names to their
      bracketed texts. */
  lemma MergeBracketed(ts: seq<string>)
    ensures forall name :: Get(Merge([], Bracketed(ts)), name) == if name in ts then Some(Placeholder(name)) else None
  {
    var es := Bracketed(ts);
    assert forall name :: name in Keys(es) <==> name in ts by {
      forall name ensures name in Keys(es) <==> name in ts {
        if name in ts {
          var i :| 0 <= i < |ts| && ts[i] == name;
          assert Keys(es)[i] == name;
        }
      }
    }
    forall name | name in ts
      ensures Get(es, name) == Some(Placeholder(name))
    {
      var v := Get(es, name).value;
      assert Entry(name, v) in es;
    }
  }

  /** The strings of a list, as `implode()` converts them. */
  function ToStrings(vs: seq<Value>): (ss: seq<string>)
    ensures |ss| == |vs| && forall i :: 0 <= i < |vs| ==> ss[i] == ToString(vs[i])
  {
    seq(|vs|, i requires 0 <= i < |vs| => ToString(vs[i]))
  }

  /** The text a placeholder stands for: `$data[$key] ?? ''`, with an array
      joined by '|'. */
  function FillValue(data: PhpArray<Value>, key: string): string
  {
    match Get(data, key)
    case None => ""
    case Some(v) => if IsArray(v) then Join(ToStrings(AsArray(v)), "|") else ToString(v)
  }

  /** Replaces the placeholders of `phs`, in order, each by its URL-encoded
      value (every occurrence). */
  function SubstituteAll(url: string, phs: PhpArray<string>, data: PhpArray<Value>, lib: Library): string
    decreases |phs|
  {
    if |phs| == 0 then url
    else
      var value := lib.urlencode(FillValue(data, phs[0].key));
      SubstituteAll(Replace(url, phs[0].val, value), phs[1..], data, lib)
  }

  /** The hook URL with its placeholders filled from the submitted data. */
  function Substitute(url: string, data: PhpArray<Value>, lib: Library): string
  {
    SubstituteAll(url, PlaceholdersOf(url), data, lib)
  }

  /** Tokens of a string with no '[' in front of the rest. */
  lemma {:induction false} TokensSkip(a: string, rest: string)
    requires '[' !in a
    ensures Tokens(a + rest) == Tokens(rest)
    decreases |a|
  {
    if |a| > 0 {
      assert (a + rest)[0] == a[0];
      assert (a + rest)[1..] == a[1..] + rest;
      TokensSkip(a[1..], rest);
    } else {
      assert a + rest == rest;
    }
  }

  /** A hook URL without any '[' is left unchanged. */
  lemma SubstituteNoBracket(url: string, data: PhpArray<Value>, lib: Library)
    requires '[' !in url
    ensures Substitute(url, data, lib) == url
  {
    TokensSkip(url, "");
    assert url + "" == url;
    assert Tokens(url) == [];
    assert PlaceholdersOf(url) == [];
  }

  /** The placeholders of a URL with a single `[key]`. */
  lemma PlaceholdersOfOne(a: string, key: string, b: string)
    requires '[' !in a && '[' !in b
    requires |key| > 0 && BracketFree(key)
    ensures PlaceholdersOf(a + Placeholder(key) + b) == [Entry(key, Placeholder(key))]
  {
    var ph := Placeholder(key);
    var url := a + ph + b;
    TokensSkip(a, ph + b);
    assert url == a + (ph + b);
    var t := ph + b;
    var n := RunLength(t[1..]);
    assert t[1..] == key + "]" + b;
    assert forall j :: 0 <= j < |key| ==> t[1..][j] == key[j] && !IsBracket(t[1..][j]);
    assert IsBracket(t[1..][|key|]);
    assert n == |key|;
    assert t[1..1 + n] == key;
    assert t[n + 2..] == b;
    TokensSkip(b, "");
    assert b + "" == b;
    assert Tokens(url) == [key];
    var es := [Entry(key, ph)];
    assert es[..0] == [];
    assert Merge([], es) == Put(Merge([], []), key, ph);
  }

  /** Replacing `[key]` after a text with no '[': the first occurrence is
      right after it. */
  lemma ReplaceAfterFree(a: string, key: string, b: string, value: string)
    requires '[' !in a
    ensures Replace(a + Placeholder(key) + b, Placeholder(key), value) == a + value + Replace(b, Placeholder(key), value)
  {
    var ph := Placeholder(key);
    var url := a + ph + b;
    forall j | 0 <= j < |a|
      ensures !OccursAt(url, ph, j)
    {
      assert url[j] == a[j];
      if j + |ph| <= |url| {
        assert url[j..j + |ph|][0] == url[j];
      }
    }
    ReplaceFirst(a, ph, b, value);
  }

  /** Replacing the single `[key]` of a URL. */
  lemma ReplaceOne(a: string, key: string, b: string, value: string)
    requires '[' !in a && '[' !in b
    ensures Replace(a + Placeholder(key) + b, Placeholder(key), value) == a + value + b
  {
    var ph := Placeholder(key);
    ReplaceAfterFree(a, key, b, value);
    forall j | 0 <= j
      ensures !OccursAt(b, ph, j)
    {
      if j + |ph| <= |b| {
        assert b[j..j + |ph|][0] == b[j];
      }
    }
    ReplaceAbsent(b, ph, value);
  }

  /** A hook URL with a single placeholder `[key]` gets the value of `key`
      in its place: the submitted string, the list joined by '|', or the empty
      string when the form sent no such field. */
  lemma SubstituteOne(a: string, key: string, b: string, data: PhpArray<Value>, lib: Library)
    requires '[' !in a && '[' !in b
    requires |key| > 0 && BracketFree(key)
    ensures Get(data, key).None? ==> Substitute(a + Placeholder(key) + b, data, lib) == a + lib.urlencode("") + b
    ensures forall s :: Get(data, key) == Some(Str(s)) ==>
      Substitute(a + Placeholder(key) + b, data, lib) == a + lib.urlencode(s) + b
    ensures forall xs :: Get(data, key) == Some(List(xs)) ==>
      Substitute(a + Placeholder(key) + b, data, lib) == a + lib.urlencode(Join(ToStrings(xs), "|")) + b
  {
    var url := a + Placeholder(key) + b;
    PlaceholdersOfOne(a, key, b);
    var value := lib.urlencode(FillValue(data, key));
    ReplaceOne(a, key, b, value);
    var phs := [Entry(key, Placeholder(key))];
    assert phs[1..] == [];
    assert SubstituteAll(url, phs, data, lib) == SubstituteAll(a + value + b, [], data, lib);
  }

  /** The tokens of a text that starts with a proper placeholder. */
  lemma TokensPlaceholder(key: string, rest: string)
    requires |key| > 0 && BracketFree(key)
    ensures Tokens(Placeholder(key) + rest) == [key] + Tokens(rest)
  {
    var t := Placeholder(key) + rest;
    assert t[..|key| + 2] == Placeholder(key);
    assert OccursAt(t, Placeholder(key), 0);
    TokenAtFront(t, key);
    assert t[|key| + 2..] == rest;
  }

  /** The tokens of a URL with two placeholders and no other '['. */
  lemma TokensTwo(a: string, k1: string, b: string, k2: string, c: string)
    requires '[' !in a && '[' !in b && '[' !in c
    requires |k1| > 0 && BracketFree(k1) && |k2| > 0 && BracketFree(k2)
    ensures Tokens(a + Placeholder(k1) + b + Placeholder(k2) + c) == [k1, k2]
  {
    var tail := b + Placeholder(k2) + c;
    assert a + Placeholder(k1) + b + Placeholder(k2) + c == a + (Placeholder(k1) + tail);
    TokensSkip(a, Placeholder(k1) + tail);
    TokensPlaceholder(k1, tail);
    TokensOnly(b, k2, c);
  }

  /** The tokens of a text whose only '[' opens the placeholder `[key]`. */
  lemma TokensOnly(b: string, key: string, c: string)
    requires '[' !in b && '[' !in c
    requires |key| > 0 && BracketFree(key)
    ensures Tokens(b + Placeholder(key) + c) == [key]
  {
    assert b + Placeholder(key) + c == b + (Placeholder(key) + c);
    TokensSkip(b, Placeholder(key) + c);
    TokensPlaceholder(key, c);
    TokensSkip(c, "");
    assert c + "" == c;
  }

  /** The placeholders of a URL with two, `[k1]` then `[k2]`, and no other
      '[': both in order, or one when they are the same. */
  lemma PlaceholdersOfTwo(a: string, k1: string, b: string, k2: string, c: string)
    requires '[' !in a && '[' !in b && '[' !in c
    requires |k1| > 0 && BracketFree(k1) && |k2| > 0 && BracketFree(k2)
    ensures PlaceholdersOf(a + Placeholder(k1) + b + Placeholder(k2) + c)
      == if k1 == k2 then [Entry(k1, Placeholder(k1))] else [Entry(k1, Placeholder(k1)), Entry(k2, Placeholder(k2))]
  {
    var url := a + Placeholder(k1) + b + Placeholder(k2) + c;
    TokensTwo(a, k1, b, k2, c);
    var ts := Tokens(url);
    assert Bracketed(ts) == [Entry(k1, Placeholder(k1)), Entry(k2, Placeholder(k2))];
    MergeTwo(k1, Placeholder(k1), k2, Placeholder(k2));
  }

  /** A placeholder repeated in a hook URL is filled at every place. */
  lemma SubstituteRepeated(a: string, key: string, b: string, c: string, data: PhpArray<Value>, lib: Library)
    requires '[' !in a && '[' !in b && '[' !in c
    requires |key| > 0 && BracketFree(key)
    ensures var value := lib.urlencode(FillValue(data, key));
      Substitute(a + Placeholder(key) + b + Placeholder(key) + c, data, lib) == a + value + b + value + c
  {
    var ph := Placeholder(key);
    var value := lib.urlencode(FillValue(data, key));
    var url := a + ph + b + ph + c;
    PlaceholdersOfTwo(a, key, b, key, c);
    ReplaceRepeated(a, key, b, c, value);
    var phs := [Entry(key, ph)];
    assert phs[1..] == [];
    assert SubstituteAll(url, phs, data, lib) == SubstituteAll(a + value + b + value + c, [], data, lib);
  }

  /** `str_replace()` replaces both occurrences of a repeated placeholder. */
  lemma ReplaceRepeated(a: string, key: string, b: string, c: string, value: string)
    requires '[' !in a && '[' !in b && '[' !in c
    ensures Replace(a + Placeholder(key) + b + Placeholder(key) + c, Placeholder(key), value) == a + value + b + value + c
  {
    var ph := Placeholder(key);
    assert a + ph + b + ph + c == a + ph + (b + ph + c);
    ReplaceAfterFree(a, key, b + ph + c, value);
    ReplaceOne(b, key, c, value);
  }

  /** Two different placeholders of a hook URL are each filled with their
      own value, as long as the first value (URL-encoded, so without '[')
      brings in no placeholder of its own. */
  lemma SubstituteDistinct(a: string, k1: string, b: string, k2: string, c: string, data: PhpArray<Value>, lib: Library)
    requires '[' !in a && '[' !in b && '[' !in c
    requires |k1| > 0 && BracketFree(k1) && |k2| > 0 && BracketFree(k2) && k1 != k2
    requires '[' !in lib.urlencode(FillValue(data, k1))
    ensures var v1, v2 := lib.urlencode(FillValue(data, k1)), lib.urlencode(FillValue(data, k2));
      Substitute(a + Placeholder(k1) + b + Placeholder(k2) + c, data, lib) == a + v1 + b + v2 + c
  {
    var p1, p2 := Placeholder(k1), Placeholder(k2);
    var v1, v2 := lib.urlencode(FillValue(data, k1)), lib.urlencode(FillValue(data, k2));
    var url := a + p1 + b + p2 + c;
    PlaceholdersOfTwo(a, k1, b, k2, c);
    ReplaceFirstOfTwo(a, k1, b, k2, c, v1);
    var mid := a + v1 + b;
    ReplaceOne(mid, k2, c, v2);
    var phs := [Entry(k1, p1), Entry(k2, p2)];
    assert phs[1..] == [Entry(k2, p2)] && phs[1..][1..] == [];
    assert SubstituteAll(url, phs, data, lib) == SubstituteAll(mid + p2 + c, phs[1..], data, lib);
  }

  /** Replacing the first of two different placeholders leaves the second. */
  lemma ReplaceFirstOfTwo(a: string, k1: string, b: string, k2: string, c: string, v1: string)
    requires '[' !in a && '[' !in b && '[' !in c
    requires |k1| > 0 && BracketFree(k1) && |k2| > 0 && BracketFree(k2) && k1 != k2
    ensures Replace(a + Placeholder(k1) + b + Placeholder(k2) + c, Placeholder(k1), v1) == a + v1 + b + Placeholder(k2) + c
  {
    var p2 := Placeholder(k2);
    var rest := b + p2 + c;
    OtherPlaceholderAbsent(b, k1, k2, c);
    ReplaceBeforeAbsent(a, k1, rest, v1);
    assert a + Placeholder(k1) + b + p2 + c == a + Placeholder(k1) + rest;
    assert a + v1 + rest == a + v1 + b + p2 + c;
  }

  /** Replacing a `[key]` preceded by no '[' and followed by no other
      occurrence. */
  lemma ReplaceBeforeAbsent(a: string, key: string, rest: string, value: string)
    requires '[' !in a && !Contains(rest, Placeholder(key))
    ensures Replace(a + Placeholder(key) + rest, Placeholder(key), value) == a + value + rest
  {
    ReplaceAfterFree(a, key, rest, value);
    ReplaceAbsent(rest, Placeholder(key), value);
  }

  /** A text with one placeholder `[k2]` and no other '[' does not contain
      a different `[k1]`: its only token is `k2`. */
  lemma OtherPlaceholderAbsent(b: string, k1: string, k2: string, c: string)
    requires '[' !in b && '[' !in c
    requires |k1| > 0 && BracketFree(k1) && |k2| > 0 && BracketFree(k2) && k1 != k2
    ensures !Contains(b + Placeholder(k2) + c, Placeholder(k1))
  {
    var rest := b + Placeholder(k2) + c;
    TokensOnly(b, k2, c);
    ContainsIff(rest, Placeholder(k1));
    TokensIff(rest, k1);
  }


  /** Inner texts of the matches of /\[[^\]]*]/: from a '[' up to the next
      ']' (which the inner text never holds; it may hold '['). */
  function TagTexts(s: string): (ts: seq<string>)
    ensures forall i :: 0 <= i < |ts| ==> ']' !in ts[i]
    decreases |s|
  {
    if |s| == 0 then []
    else if s[0] == '[' then
      match IndexOf(s[1..], "]")
      case Some(j) =>
        assert forall k :: 0 <= k < j ==> !OccursAt(s[1..], "]", k) && s[1..][k..k + 1] == [s[1..][k]];
        assert forall k :: 0 <= k < j ==> s[1..1 + j][k] == s[1..][k];
        [s[1..1 + j]] + TagTexts(s[j + 2..])
      case None => TagTexts(s[1..])
    else TagTexts(s[1..])
  }

  /** One `[tag alias]` text: the first space-separated word is the tag, the
      second, when present and not PHP-empty, is the key it is stored under;
      a text whose first word is PHP-empty yields nothing. */
  function TagEntry(inner: string): (e: Option<Entry<string>>)
    ensures e.Some? ==> !EmptyString(e.value.key) && !EmptyString(e.value.val) && ' ' !in e.value.val
  {
    var words := Split(inner, ' ');
    if EmptyString(words[0]) then None
    else
      var tag := words[0];
      var key := if |words| > 1 && !EmptyString(words[1]) then words[1] else tag;
      Some(Entry(key, tag))
  }

  /** The entries the tag texts yield, in order. */
  function TagEntries(texts: seq<string>): (es: PhpArray<string>)
    ensures forall e :: e in es <==> exists t :: t in texts && TagEntry(t) == Some(e)
    decreases |texts|
  {
    if |texts| == 0 then []
    else
      var rest := TagEntries(texts[1..]);
      assert forall t :: t in texts[1..] ==> t in texts;
      assert forall t :: t in texts ==> t == texts[0] || t in texts[1..];
      match TagEntry(texts[0])
      case Some(e) => [e] + rest
      case None => rest
  }

  /** `get_special_mail_tags_from_string()`: key => tag, where a later text
      with the same key overrides an earlier one. */
  function SpecialMailTags(s: string): (m: PhpArray<string>)
    ensures UniqueKeys(m)
    ensures forall k :: Get(m, k) == Get(TagEntries(TagTexts(s)), k)
    ensures forall k :: Get(m, k).Some? ==> exists t :: t in TagTexts(s) && TagEntry(t) == Some(Entry(k, Get(m, k).value))
    ensures forall t :: t in TagTexts(s) && TagEntry(t).Some? ==> Get(m, TagEntry(t).value.key).Some?
  {
    var es := TagEntries(TagTexts(s));
    var m := Merge([], es);
    MergeOntoEmpty(es);
    m
  }

  /** Every stored key and tag is a proper word: never PHP-empty, and the tag
      holds no space. */
  lemma SpecialMailTagsWellFormed(s: string, k: string)
    requires Get(SpecialMailTags(s), k).Some?
    ensures !EmptyString(k)
    ensures var tag := Get(SpecialMailTags(s), k).value; !EmptyString(tag) && ' ' !in tag
  {
  }

  /** A text that holds no '[' yields no tag text. */
  lemma {:induction false} TagTextsNone(a: string)
    requires '[' !in a
    ensures TagTexts(a) == []
    decreases |a|
  {
    if |a| > 0 {
      TagTextsNone(a[1..]);
    }
  }

  /** Text before the first '[' is passed over. */
  lemma {:induction false} TagTextsSkip(a: string, b: string)
    requires '[' !in a
    ensures TagTexts(a + b) == TagTexts(b)
    decreases |a|
  {
    if |a| == 0 {
      assert a + b == b;
    } else {
      assert (a + b)[0] == a[0] && (a + b)[1..] == a[1..] + b;
      TagTextsSkip(a[1..], b);
    }
  }

  /** A '[' followed later by a ']' opens a tag text that runs to the first
      ']'; the search goes on after it. */
  lemma TagTextsClosed(t: string, b: string)
    requires ']' !in t
    ensures TagTexts(Placeholder(t) + b) == [t] + TagTexts(b)
  {
    var s := Placeholder(t) + b;
    var rest := s[1..];
    assert rest == t + "]" + b;
    assert OccursAt(rest, "]", |t|) by {
      assert rest[|t|..|t| + 1] == "]";
    }
    forall j | 0 <= j < |t|
      ensures !OccursAt(rest, "]", j)
    {
      assert rest[j] == t[j];
      assert rest[j..j + 1] == [rest[j]];
    }
    assert IndexOf(rest, "]") == Some(|t|);
    assert s[1..1 + |t|] == t;
    assert s[|t| + 2..] == b;
  }

  /** A '[' with no ']' after it opens nothing. */
  lemma TagTextsUnclosed(b: string)
    requires ']' !in b
    ensures TagTexts("[" + b) == TagTexts(b)
  {
    var s := "[" + b;
    assert s[1..] == b;
    forall j | 0 <= j
      ensures !OccursAt(b, "]", j)
    {
      if j + 1 <= |b| {
        assert b[j..j + 1] == [b[j]];
      }
    }
  }

  /** A text without a space is a tag stored under its own name (none when
      it is PHP-empty). */
  lemma TagEntryNoAlias(t: string)
    requires ' ' !in t
    ensures TagEntry(t) == if EmptyString(t) then None else Some(Entry(t, t))
  {
    SplitWithout(t, ' ');
  }

  /** `[tag alias ...]`: the tag is the first word and is stored under the
      second word when that is not PHP-empty, else under the tag itself;
      further words are ignored. */
  lemma TagEntryAlias(t: string, rest: string)
    requires ' ' !in t
    ensures var alias := BeforeFirst(rest, ' ');
      TagEntry(t + " " + rest) ==
        if EmptyString(t) then None
        else Some(Entry(if EmptyString(alias) then t else alias, t))
  {
    SplitAfter(t, ' ', rest);
    SplitFirstIsBeforeFirst(rest, ' ');
  }

  /** The entries keep the order of the texts. */
  lemma {:induction false} TagEntriesAppend(x: seq<string>, y: seq<string>)
    ensures TagEntries(x + y) == TagEntries(x) + TagEntries(y)
    decreases |x|
  {
    if |x| == 0 {
      assert x + y == y;
    } else {
      assert (x + y)[0] == x[0] && (x + y)[1..] == x[1..] + y;
      TagEntriesAppend(x[1..], y);
    }
  }

  /** No entry of texts that all yield another key (or nothing) has key `k`. */
  lemma EntriesWithoutKey(y: seq<string>, k: string)
    requires forall j :: 0 <= j < |y| ==> TagEntry(y[j]).None? || TagEntry(y[j]).value.key != k
    ensures k !in Keys(TagEntries(y))
  {
    var ey := TagEntries(y);
    forall j | 0 <= j < |ey|
      ensures ey[j].key != k
    {
      assert ey[j] in ey;
      var t :| t in y && TagEntry(t) == Some(ey[j]);
      var jj :| 0 <= jj < |y| && y[jj] == t;
    }
  }

  /** Among the entries of a list of texts, the last text naming a key
      decides the value found for it. */
  lemma EntriesLastWins(ts: seq<string>, i: nat, e: Entry<string>)
    requires i < |ts| && TagEntry(ts[i]) == Some(e)
    requires forall j :: i < j < |ts| ==> TagEntry(ts[j]).None? || TagEntry(ts[j]).value.key != e.key
    ensures Get(TagEntries(ts), e.key) == Some(e.val)
  {
    var x, y := ts[..i], ts[i + 1..];
    TagEntriesAround(ts, i);
    forall j | 0 <= j < |y|
      ensures TagEntry(y[j]).None? || TagEntry(y[j]).value.key != e.key
    {
      assert y[j] == ts[i + 1 + j];
    }
    EntriesWithoutKey(y, e.key);
    GetAppend(TagEntries(x), [e], e.key);
    GetAppend(TagEntries(x) + [e], TagEntries(y), e.key);
  }

  /** The entries of a list of texts, split around the text at `i`. */
  lemma TagEntriesAround(ts: seq<string>, i: nat)
    requires i < |ts|
    ensures TagEntries(ts) == TagEntries(ts[..i]) + TagEntries([ts[i]]) + TagEntries(ts[i + 1..])
    ensures TagEntries([ts[i]]) == if TagEntry(ts[i]).Some? then [TagEntry(ts[i]).value] else []
  {
    var x, t, y := ts[..i], [ts[i]], ts[i + 1..];
    SeqAround(ts, i);
    TagEntriesAppend(x + t, y);
    TagEntriesAppend(x, t);
    assert t[1..] == [];
  }

  lemma SeqAround<T>(s: seq<T>, i: nat)
    requires i < |s|
    ensures s == s[..i] + [s[i]] + s[i + 1..]
  {
  }

  /** The last text naming a key decides its tag: a later text with the same
      key overrides an earlier one. */
  lemma SpecialMailTagsLastWins(s: string, i: nat, e: Entry<string>)
    requires i < |TagTexts(s)| && TagEntry(TagTexts(s)[i]) == Some(e)
    requires forall j :: i < j < |TagTexts(s)| ==>
      TagEntry(TagTexts(s)[j]).None? || TagEntry(TagTexts(s)[j]).value.key != e.key
    ensures Get(SpecialMailTags(s), e.key) == Some(e.val)
  {
    EntriesLastWins(TagTexts(s), i, e);
  }

  /** `[t1 k] [t2 k]`: both tags name the key `k`, and the later one wins. */
  lemma TwoTagsSameKey(t1: string, t2: string, k: string)
    requires !EmptyString(t1) && !EmptyString(t2) && !EmptyString(k)
    requires ' ' !in t1 && ' ' !in t2 && ' ' !in k
    requires ']' !in t1 && ']' !in t2 && ']' !in k
    ensures Get(SpecialMailTags(Placeholder(t1 + " " + k) + (" " + Placeholder(t2 + " " + k))), k) == Some(t2)
  {
    var in1, in2 := t1 + " " + k, t2 + " " + k;
    var tail := " " + Placeholder(in2);
    TwoTexts(in1, in2);
    BeforeFirstChar(k, ' ', k);
    TagEntryAlias(t1, k);
    TagEntryAlias(t2, k);
    SpecialMailTagsLastWins(Placeholder(in1) + tail, 1, Entry(k, t2));
  }

  lemma TwoTexts(in1: string, in2: string)
    requires ']' !in in1 && ']' !in in2
    ensures TagTexts(Placeholder(in1) + (" " + Placeholder(in2))) == [in1, in2]
  {
    TagTextsClosed(in1, " " + Placeholder(in2));
    TagTextsSkip(" ", Placeholder(in2));
    TagTextsClosed(in2, "");
    assert Placeholder(in2) + "" == Placeholder(in2);
  }
}

=== FILE: platform.dfy ===
/** WordPress and PHP library functions whose code is not part of this model.
    Each is an uninterpreted function: the model only ever applies it, so
    every property proved here holds whatever these functions do. */
module Platform {
  import opened Php

  /** What `wp_parse_url()` reports about a URL; a part it does not find (or a
      URL it rejects outright) is `None`. */
  datatype UrlParts = UrlParts(host: Option<string>, path: Option<string>, query: Option<string>)

  datatype Library = Library(
    /** `sanitize_text_field()` (it also accepts arrays and booleans). */
    text: Value -> string,
    /** `sanitize_textarea_field()`. */
    textarea: string -> string,
    /** `sanitize_email()`. */
    email: Value -> string,
    /** `sanitize_url()`. */
    url: string -> string,
    /** `esc_url_raw()`. */
    escUrlRaw: string -> string,
    /** `sanitize_key()`. */
    key: string -> string,
    /** `urlencode()`. */
    urlencode: string -> string,
    /** `filter_var($u, FILTER_VALIDATE_URL)` succeeds. */
    isUrl: string -> bool,
    /** `filter_var($ip, FILTER_VALIDATE_IP, FILTER_FLAG_NO_PRIV_RANGE | FILTER_FLAG_NO_RES_RANGE)` succeeds. */
    isPublicIp: string -> bool,
    /** `wp_parse_url()`. */
    parseUrl: string -> UrlParts,
    /** `parse_str()` of a query string, read at the key `source`. */
    sourceParam: string -> Option<string>
  )
}

=== FILE: settings.dfy ===
/** The per-form settings: the defaults a form starts with, what saving the
    Action Network panel stores (`wpcf7_save_contact_form()`), and what the
    panel shows when it is drawn again.

    The submitted panel (`$_POST`) is a map from field name to raw text; a
    field the browser did not send (an unchecked checkbox) is absent. */
module Settings {
  import opened Php
  import opened Strings
  import opened Assoc
  import opened Platform
  import opened Placeholders

  type Post = map<string, string>

  /** The source name used when none is configured. */
  const DefaultSource: string := "contact-form-7"

  /** Strings as a PHP list of strings. */
  function Strs(xs: seq<string>): (vs: seq<Value>)
    ensures |vs| == |xs| && forall i :: 0 <= i < |xs| ==> vs[i] == Str(xs[i])
  {
    seq(|xs|, i requires 0 <= i < |xs| => Str(xs[i]))
  }

  /** The settings of a form that has none yet (`wpcf7_contact_form_properties()`). */
  const Defaults: PhpArray<Value> := [
    Entry("hook_url", List([])),
    Entry("special_mail_tags", Str("")),
    Entry("custom_headers", Str("")),
    Entry("auto_detect_country", Str("1")),
    Entry("source_name", Str(DefaultSource)),
    Entry("enable_autoresponse", Str("1")),
    Entry("add_tags", List([])),
    Entry("remove_tags", List([]))
  ]

  /** The keys of the defaults are distinct. */
  lemma DefaultsUnique()
    ensures UniqueKeys(Defaults)
  {
  }

  /** The stored settings of a form: the defaults when it has none (or null). */
  function WithDefaults(stored: Option<PhpArray<Value>>): (props: PhpArray<Value>)
    ensures stored.Some? ==> props == stored.value
    ensures stored.None? ==> props == Defaults
    ensures stored.None? ==> Get(props, "hook_url") == Some(List([])) && Get(props, "auto_detect_country") == Some(Str("1"))
  {
    match stored
    case Some(p) => p
    case None => DefaultsUnique(); GetAt(Defaults, 0); GetAt(Defaults, 3); Defaults
  }

  /** A checkbox setting: "1" exactly when the box was sent with the
      sanitized text "1", and "0" otherwise. */
  function Flag(post: Post, field: string, lib: Library): (r: string)
    ensures r == "1" || r == "0"
    ensures r == "1" <==> field in post && lib.text(Str(post[field])) == "1"
  {
    if field in post && lib.text(Str(post[field])) == "1" then "1" else "0"
  }

  /** The source name: the sanitized field, or the default when it is
      missing or PHP-empty. */
  function SourceName(post: Post, lib: Library): (r: string)
    ensures !EmptyString(r)
    ensures "cfan-source-name" in post && !EmptyString(lib.text(Str(post["cfan-source-name"]))) ==>
      r == lib.text(Str(post["cfan-source-name"]))
    ensures !("cfan-source-name" in post && !EmptyString(lib.text(Str(post["cfan-source-name"])))) ==> r == DefaultSource
  {
    if "cfan-source-name" in post then
      var name := lib.text(Str(post["cfan-source-name"]));
      if !EmptyString(name) then name else DefaultSource
    else DefaultSource
  }

  function TrimAll(xs: seq<string>): (ys: seq<string>)
    ensures |ys| == |xs| && forall i :: 0 <= i < |xs| ==> ys[i] == Trim(xs[i])
  {
    seq(|xs|, i requires 0 <= i < |xs| => Trim(xs[i]))
  }

  /** A comma-separated tag text: the trimmed pieces that are not PHP-empty. */
  function ParseTags(text: string): (tags: seq<string>)
    ensures forall i :: 0 <= i < |tags| ==> !EmptyString(tags[i]) && ',' !in tags[i]
    ensures forall t :: t in tags <==> t in TrimAll(Split(text, ',')) && !EmptyString(t)
  {
    if EmptyString(text) then
      EmptyTextNoTags(text);
      []
    else
      var pieces := TrimAll(Split(text, ','));
      PiecesHaveNoComma(text);
      var tags := FilterNonEmpty(pieces);
      assert forall i :: 0 <= i < |tags| ==> tags[i] in pieces;
      tags
  }

  /** No trimmed piece of a split at ',' holds a comma. */
  lemma PiecesHaveNoComma(text: string)
    ensures forall t :: t in TrimAll(Split(text, ',')) ==> ',' !in t
  {
    var pieces := TrimAll(Split(text, ','));
    assert forall i :: 0 <= i < |pieces| ==> pieces[i] == TrimWith(Split(text, ',')[i], IsPhpSpace);
    TrimKeepsAbsent(Split(text, ','), ',');
  }

  /** The tags are the non-empty trimmed pieces, also for a PHP-empty text. */
  lemma ParseTagsPieces(text: string)
    ensures ParseTags(text) == FilterNonEmpty(TrimAll(Split(text, ',')))
  {
    if EmptyString(text) {
      EmptyTextNoTags(text);
      var pieces := TrimAll(Split(text, ','));
      assert forall i :: 0 <= i < |pieces| ==> pieces[i] in pieces;
      FilterAllEmpty(pieces);
    }
  }

  /** A list of PHP-empty strings filters to nothing. */
  lemma {:induction false} FilterAllEmpty(xs: seq<string>)
    requires forall i :: 0 <= i < |xs| ==> EmptyString(xs[i])
    ensures FilterNonEmpty(xs) == []
    decreases |xs|
  {
    if |xs| > 0 {
      FilterAllEmpty(xs[1..]);
    }
  }

  /** Tags keep the order of the text: the tags of two texts joined by a
      comma are the first text's tags followed by the second's. */
  lemma ParseTagsAppend(a: string, b: string)
    ensures ParseTags(a + "," + b) == ParseTags(a) + ParseTags(b)
  {
    ParseTagsPieces(a + "," + b);
    ParseTagsPieces(a);
    ParseTagsPieces(b);
    SplitAppend(a, ',', b);
    var x, y := Split(a, ','), Split(b, ',');
    TrimAllAppend(x, y);
    FilterNonEmptyAppend(TrimAll(x), TrimAll(y));
  }

  lemma TrimAllAppend(x: seq<string>, y: seq<string>)
    ensures TrimAll(x + y) == TrimAll(x) + TrimAll(y)
  {
  }

  /** A text without a comma is one tag, trimmed, unless it trims to a
      PHP-empty string. */
  lemma ParseTagsOne(a: string)
    requires ',' !in a
    ensures ParseTags(a) == if EmptyString(Trim(a)) then [] else [Trim(a)]
  {
    ParseTagsPieces(a);
    SplitWithout(a, ',');
    assert TrimAll([a]) == [Trim(a)];
    FilterNonEmptyOne(Trim(a));
  }

  /** A PHP-empty tag text ('' or '0') has no piece that is not PHP-empty. */
  lemma EmptyTextNoTags(text: string)
    requires EmptyString(text)
    ensures forall t :: t in TrimAll(Split(text, ',')) ==> EmptyString(t)
  {
    SplitWithout(text, ',');
    TrimWithFixed(text, IsPhpSpace);
  }

  /** Trimming removes characters only from the ends. */
  lemma TrimKeepsAbsent(xs: seq<string>, c: char)
    requires forall i :: 0 <= i < |xs| ==> c !in xs[i]
    ensures forall i :: 0 <= i < |xs| ==> c !in Trim(xs[i])
  {
    forall i | 0 <= i < |xs|
      ensures c !in Trim(xs[i])
    {
      TrimWithSub(xs[i], IsPhpSpace);
    }
  }

  /** The trim of a string is one of its slices. */
  lemma {:induction false} TrimWithSub(s: string, ws: char -> bool)
    ensures forall c :: c in TrimWith(s, ws) ==> c in s
  {
    TrimLeftSub(s, ws);
    TrimRightSub(TrimLeftWith(s, ws), ws);
  }

  lemma {:induction false} TrimLeftSub(s: string, ws: char -> bool)
    ensures forall c :: c in TrimLeftWith(s, ws) ==> c in s
    decreases |s|
  {
    if |s| > 0 && ws(s[0]) {
      TrimLeftSub(s[1..], ws);
    }
  }

  lemma {:induction false} TrimRightSub(s: string, ws: char -> bool)
    ensures forall c :: c in TrimRightWith(s, ws) ==> c in s
    decreases |s|
  {
    if |s| > 0 && ws(s[|s| - 1]) {
      TrimRightSub(s[..|s| - 1], ws);
    }
  }

  /** A tag field: its parsed tags when sent, no tags otherwise. */
  function TagsField(post: Post, field: string, lib: Library): seq<string>
  {
    if field in post then ParseTags(lib.textarea(post[field])) else []
  }

  /** The marker that stands in for a placeholder while the URL is escaped. */
  function Marker(key: string, lib: Library): string
  {
    "_____" + lib.key(key) + "_____"
  }

  /** Replaces each placeholder of `phs` by its marker. */
  function Protect(url: string, phs: PhpArray<string>, lib: Library): string
    decreases |phs|
  {
    if |phs| == 0 then url else Protect(Replace(url, phs[0].val, Marker(phs[0].key, lib)), phs[1..], lib)
  }

  /** Puts the placeholders of `phs` back in place of their markers. */
  function Restore(url: string, phs: PhpArray<string>, lib: Library): string
    decreases |phs|
  {
    if |phs| == 0 then url else Restore(Replace(url, Marker(phs[0].key, lib), phs[0].val), phs[1..], lib)
  }

  /** One line of the hook URL field: trimmed and sanitized, then escaped
      with its `[key]` placeholders protected from the escaping. */
  function CleanHookUrl(line: string, lib: Library): string
  {
    var url := lib.url(Trim(line));
    var phs := PlaceholdersOf(url);
    Restore(lib.escUrlRaw(Protect(url, phs, lib)), phs, lib)
  }

  /** The hook URL field: one URL per line, the cleaned lines that are not
      PHP-empty. */
  function HookUrls(text: string, lib: Library): (urls: seq<string>)
    ensures forall i :: 0 <= i < |urls| ==> !EmptyString(urls[i])
  {
    var lines := Split(lib.textarea(text), '\n');
    FilterNonEmpty(seq(|lines|, i requires 0 <= i < |lines| => CleanHookUrl(lines[i], lib)))
  }

  /** An assignment made only when its field was sent. */
  function PutWhen(m: PhpArray<Value>, sent: bool, k: string, v: Value): (r: PhpArray<Value>)
    ensures Get(r, k) == if sent then Some(v) else Get(m, k)
    ensures forall k' :: k' != k ==> Get(r, k') == Get(m, k')
    ensures UniqueKeys(m) ==> UniqueKeys(r)
  {
    if sent then Put(m, k, v) else m
  }

  /** The text settings the panel submits, each assigned only when sent:
      the hook URLs, the special mail tags and the custom headers. */
  function TextSettings(post: Post, lib: Library): (props: PhpArray<Value>)
    ensures UniqueKeys(props)
    ensures forall k :: TextKey(k) || Get(props, k).None?
    ensures Get(props, "hook_url") == if "cfan-actionnetwork-hook-url" in post
      then Some(List(Strs(HookUrls(post["cfan-actionnetwork-hook-url"], lib)))) else None
    ensures Get(props, "special_mail_tags") == if "cfan-special-mail-tags" in post
      then Some(Str(lib.textarea(post["cfan-special-mail-tags"]))) else None
    ensures Get(props, "custom_headers") == if "cfan-custom-headers" in post
      then Some(Str(lib.textarea(post["cfan-custom-headers"]))) else None
  {
    TextEntries(
      if "cfan-actionnetwork-hook-url" in post
      then Some(List(Strs(HookUrls(post["cfan-actionnetwork-hook-url"], lib)))) else None,
      if "cfan-special-mail-tags" in post then Some(Str(lib.textarea(post["cfan-special-mail-tags"]))) else None,
      if "cfan-custom-headers" in post then Some(Str(lib.textarea(post["cfan-custom-headers"]))) else None)
  }

  /** The text settings from the values sent: each key present exactly when
      its value was sent, in the order hook URLs, special tags, headers. */
  function TextEntries(hook: Option<Value>, tags: Option<Value>, headers: Option<Value>): (props: PhpArray<Value>)
    ensures UniqueKeys(props)
    ensures forall k :: TextKey(k) || Get(props, k).None?
    ensures Get(props, "hook_url") == hook && Get(props, "special_mail_tags") == tags
    ensures Get(props, "custom_headers") == headers
  {
    TextKeysDistinct();
    var p1 := PutWhen([], hook.Some?, "hook_url", if hook.Some? then hook.value else Bool(false));
    var p2 := PutWhen(p1, tags.Some?, "special_mail_tags", if tags.Some? then tags.value else Bool(false));
    PutWhen(p2, headers.Some?, "custom_headers", if headers.Some? then headers.value else Bool(false))
  }

  /** The three text keys differ (by length). */
  lemma TextKeysDistinct()
    ensures "hook_url" != "special_mail_tags" && "hook_url" != "custom_headers"
    ensures "special_mail_tags" != "custom_headers"
  {
    assert |"hook_url"| == 8 && |"special_mail_tags"| == 17 && |"custom_headers"| == 14;
  }

  /** No key is both a text key and a fixed key. */
  lemma TextKeysNotFixed()
    ensures forall k :: TextKey(k) ==> !FixedKey(k)
  {
    forall k | TextKey(k)
      ensures !FixedKey(k)
    {
      if k == "hook_url" {
        assert k[0] == 'h';
      } else if k == "special_mail_tags" {
        assert k[1] == 'p';
      } else {
        assert k[0] == 'c';
      }
    }
  }

  /** The keys a save assigns only when their field was sent. */
  predicate TextKey(k: string)
  {
    k == "hook_url" || k == "special_mail_tags" || k == "custom_headers"
  }

  /** The settings assigned on every save, after those of `base`. */
  function FixedSettings(base: PhpArray<Value>, post: Post, lib: Library): (props: PhpArray<Value>)
    requires UniqueKeys(base)
    ensures UniqueKeys(props)
    ensures Get(props, "auto_detect_country") == Some(Str(Flag(post, "cfan-auto-detect-country", lib)))
    ensures Get(props, "enable_autoresponse") == Some(Str(Flag(post, "cfan-enable-autoresponse", lib)))
    ensures Get(props, "source_name") == Some(Str(SourceName(post, lib)))
    ensures Get(props, "add_tags") == Some(List(Strs(TagsField(post, "cfan-add-tags", lib))))
    ensures Get(props, "remove_tags") == Some(List(Strs(TagsField(post, "cfan-remove-tags", lib))))
    ensures forall k :: FixedKey(k) || Get(props, k) == Get(base, k)
  {
    var p4 := Put(base, "auto_detect_country", Str(Flag(post, "cfan-auto-detect-country", lib)));
    var p5 := Put(p4, "source_name", Str(SourceName(post, lib)));
    assert Get(p5, "auto_detect_country") == Get(p4, "auto_detect_country");
    var p6 := Put(p5, "enable_autoresponse", Str(Flag(post, "cfan-enable-autoresponse", lib)));
    assert Get(p6, "auto_detect_country") == Get(p4, "auto_detect_country");
    assert Get(p6, "source_name") == Get(p5, "source_name");
    var p7 := Put(p6, "add_tags", List(Strs(TagsField(post, "cfan-add-tags", lib))));
    assert Get(p7, "auto_detect_country") == Get(p4, "auto_detect_country");
    assert Get(p7, "source_name") == Get(p5, "source_name");
    assert Get(p7, "enable_autoresponse") == Get(p6, "enable_autoresponse");
    var p8 := Put(p7, "remove_tags", List(Strs(TagsField(post, "cfan-remove-tags", lib))));
    assert Get(p8, "auto_detect_country") == Get(p4, "auto_detect_country");
    assert Get(p8, "source_name") == Get(p5, "source_name");
    assert Get(p8, "enable_autoresponse") == Get(p6, "enable_autoresponse");
    assert Get(p8, "add_tags") == Get(p7, "add_tags");
    p8
  }

  /** The keys every save assigns. */
  predicate FixedKey(k: string)
  {
    k == "auto_detect_country" || k == "source_name" || k == "enable_autoresponse" || k == "add_tags" || k == "remove_tags"
  }

  /** All the settings one save of the panel assigns, in order. */
  function NewProperties(post: Post, lib: Library): (props: PhpArray<Value>)
    ensures UniqueKeys(props)
    ensures forall k :: TextKey(k) || FixedKey(k) || Get(props, k).None?
    ensures forall k :: TextKey(k) ==> Get(props, k) == Get(TextSettings(post, lib), k)
    ensures Get(props, "auto_detect_country") == Some(Str(Flag(post, "cfan-auto-detect-country", lib)))
    ensures Get(props, "enable_autoresponse") == Some(Str(Flag(post, "cfan-enable-autoresponse", lib)))
    ensures Get(props, "source_name") == Some(Str(SourceName(post, lib)))
    ensures Get(props, "add_tags") == Some(List(Strs(TagsField(post, "cfan-add-tags", lib))))
    ensures Get(props, "remove_tags") == Some(List(Strs(TagsField(post, "cfan-remove-tags", lib))))
  {
    var text := TextSettings(post, lib);
    var props := FixedSettings(text, post, lib);
    TextKeysNotFixed();
    assert forall k :: TextKey(k) || FixedKey(k) || Get(props, k) == Get(text, k);
    props
  }

  /** Saving: the new settings are merged over the stored ones. */
  function SaveSettings(stored: PhpArray<Value>, post: Post, lib: Library): (props: PhpArray<Value>)
    ensures forall k :: k !in Keys(NewProperties(post, lib)) ==> Get(props, k) == Get(stored, k)
    ensures forall k :: k in Keys(NewProperties(post, lib)) ==> Get(props, k) == Get(NewProperties(post, lib), k)
    ensures UniqueKeys(stored) ==> UniqueKeys(props)
  {
    Merge(stored, NewProperties(post, lib))
  }

  /** Every save writes the two flags as '1' or '0', the source name with
      its fallback, and both tag lists, whatever was stored before. */
  lemma SaveWritesFixed(stored: PhpArray<Value>, post: Post, lib: Library)
    ensures var props := SaveSettings(stored, post, lib);
      && Get(props, "auto_detect_country") == Some(Str(Flag(post, "cfan-auto-detect-country", lib)))
      && Get(props, "enable_autoresponse") == Some(Str(Flag(post, "cfan-enable-autoresponse", lib)))
      && Get(props, "source_name") == Some(Str(SourceName(post, lib)))
      && Get(props, "add_tags") == Some(List(Strs(TagsField(post, "cfan-add-tags", lib))))
      && Get(props, "remove_tags") == Some(List(Strs(TagsField(post, "cfan-remove-tags", lib))))
  {
    var np := NewProperties(post, lib);
    SaveWritesAssigned(stored, post, lib, "auto_detect_country");
    SaveWritesAssigned(stored, post, lib, "enable_autoresponse");
    SaveWritesAssigned(stored, post, lib, "source_name");
    SaveWritesAssigned(stored, post, lib, "add_tags");
    SaveWritesAssigned(stored, post, lib, "remove_tags");
  }

  /** A setting the panel assigns is saved with the assigned value. */
  lemma SaveWritesAssigned(stored: PhpArray<Value>, post: Post, lib: Library, k: string)
    requires Get(NewProperties(post, lib), k).Some?
    ensures Get(SaveSettings(stored, post, lib), k) == Get(NewProperties(post, lib), k)
  {
  }

  /** What the panel shows. */
  datatype Panel = Panel(
    activate: Value,
    hookUrls: seq<Value>,
    specialMailTags: Value,
    customHeaders: Value,
    autoDetectCountry: Value,
    sourceName: Value,
    enableAutoresponse: Value,
    addTags: seq<Value>,
    removeTags: seq<Value>)

  /** The value shown for a setting: the stored one when set, else `fallback`. */
  function Shown(props: PhpArray<Value>, key: string, fallback: Value): (v: Value)
    ensures Get(props, key).Some? ==> v == Get(props, key).value
    ensures Get(props, key).None? ==> v == fallback
  {
    match Get(props, key)
    case Some(v) => v
    case None => fallback
  }

  /** A tag list shown: the stored one only when it is an array. */
  function ShownTags(props: PhpArray<Value>, key: string): (vs: seq<Value>)
    ensures (Get(props, key).Some? && IsArray(Get(props, key).value)) ==> vs == AsArray(Get(props, key).value)
    ensures !(Get(props, key).Some? && IsArray(Get(props, key).value)) ==> vs == []
  {
    match Get(props, key)
    case Some(v) => if IsArray(v) then AsArray(v) else []
    case None => []
  }

  /** The panel for the stored settings of a form. */
  function PanelOf(props: PhpArray<Value>): Panel
  {
    Panel(
      Shown(props, "activate", Str("0")),
      AsArrayOrEmpty(Some(Shown(props, "hook_url", List([])))),
      Shown(props, "special_mail_tags", Str("")),
      Shown(props, "custom_headers", Str("")),
      Shown(props, "auto_detect_country", Str("1")),
      Shown(props, "source_name", Str(DefaultSource)),
      Shown(props, "enable_autoresponse", Str("1")),
      ShownTags(props, "add_tags"),
      ShownTags(props, "remove_tags"))
  }

  /** WordPress `checked($v, '1')`. */
  predicate Checked(v: Value)
  {
    ToString(v) == "1"
  }

  /** The 'you must enter a URL' notice: the form is activated and has no
      hook URL. */
  predicate ShowsUrlNotice(p: Panel)
  {
    !IsEmpty(p.activate) && |p.hookUrls| == 0
  }

  /** The panel's own fallbacks agree with the defaults of a new form. */
  lemma PanelOfDefaults()
    ensures PanelOf(Defaults) == PanelOf([])
  {
    DefaultsUnique();
    var p := PanelOf(Defaults);
    ShownDefaults(Defaults);
    ShownDefaultTags(Defaults);
    assert p.activate == Str("0") by {
      assert forall i :: 0 <= i < |Defaults| ==> Keys(Defaults)[i] != "activate";
    }
  }

  /** Each stored entry of a form with unique keys is what the panel shows. */
  lemma ShownAt(d: PhpArray<Value>, i: nat, fallback: Value)
    requires UniqueKeys(d) && i < |d|
    ensures Shown(d, d[i].key, fallback) == d[i].val
  {
    GetAt(d, i);
  }

  lemma ShownDefaults(d: PhpArray<Value>)
    requires d == Defaults && UniqueKeys(d)
    ensures Shown(d, "hook_url", List([])) == List([])
    ensures Shown(d, "special_mail_tags", Str("")) == Str("")
    ensures Shown(d, "custom_headers", Str("")) == Str("")
    ensures Shown(d, "auto_detect_country", Str("1")) == Str("1")
    ensures Shown(d, "source_name", Str(DefaultSource)) == Str(DefaultSource)
    ensures Shown(d, "enable_autoresponse", Str("1")) == Str("1")
  {
    ShownAt(d, 0, List([]));
    ShownAt(d, 1, Str(""));
    ShownAt(d, 2, Str(""));
    ShownAt(d, 3, Str("1"));
    ShownAt(d, 4, Str(DefaultSource));
    ShownAt(d, 5, Str("1"));
  }

  lemma ShownDefaultTags(d: PhpArray<Value>)
    requires d == Defaults && UniqueKeys(d)
    ensures ShownTags(d, "add_tags") == [] && ShownTags(d, "remove_tags") == []
  {
    GetAt(d, 6);
    GetAt(d, 7);
  }

  /** The notice needs a stored 'activate' setting. */
  lemma NoticeNeedsActivate(props: PhpArray<Value>)
    requires Get(props, "activate").None?
    ensures !ShowsUrlNotice(PanelOf(props))
  {
    assert PanelOf(props).activate == Str("0");
  }

  /** No save stores 'activate': a form whose settings lack it keeps lacking it. */
  lemma SaveNeverActivates(stored: PhpArray<Value>, post: Post, lib: Library)
    requires Get(stored, "activate").None?
    ensures Get(SaveSettings(stored, post, lib), "activate").None?
  {
    ActivateNotAssigned();
    SaveKeepsUnassigned(stored, post, lib, "activate");
  }

  /** `activate` is neither a text setting nor a fixed one. */
  lemma ActivateNotAssigned()
    ensures !TextKey("activate") && !FixedKey("activate")
  {
    assert "activate"[0] == 'a' && "activate"[1] == 'c';
  }

  /** A setting the panel does not assign keeps its stored value. */
  lemma SaveKeepsUnassigned(stored: PhpArray<Value>, post: Post, lib: Library, k: string)
    requires !TextKey(k) && !FixedKey(k)
    ensures Get(SaveSettings(stored, post, lib), k) == Get(stored, k)
  {
    assert Get(NewProperties(post, lib), k).None?;
  }

  /** So a form that began with the defaults never shows the missing-URL
      notice, however often it is saved. */
  lemma NoUrlNoticeAfterSave(stored: PhpArray<Value>, post: Post, lib: Library)
    requires Get(stored, "activate").None?
    ensures !ShowsUrlNotice(PanelOf(SaveSettings(stored, post, lib)))
  {
    SaveNeverActivates(stored, post, lib);
    NoticeNeedsActivate(SaveSettings(stored, post, lib));
  }

  /** The post a checkbox makes: "1" when checked, nothing otherwise. */
  function CheckboxPost(post: Post, field: string, shown: Value): Post
  {
    if Checked(shown) then post[field := "1"] else post - {field}
  }

  /** Submitting a checkbox unchanged stores a value that draws it the same
      way again. */
  lemma CheckboxRoundTrip(post: Post, field: string, shown: Value, lib: Library)
    requires lib.text(Str("1")) == "1"
    ensures Checked(Str(Flag(CheckboxPost(post, field, shown), field, lib))) <==> Checked(shown)
  {
  }

  /** Strings with a space in front: the pieces of `Join(xs, ", ")` after
      the first, as a split at ',' sees them. */
  function Padded(xs: seq<string>): (ys: seq<string>)
    ensures |ys| == |xs| && forall i :: 0 <= i < |xs| ==> ys[i] == " " + xs[i]
  {
    seq(|xs|, i requires 0 <= i < |xs| => " " + xs[i])
  }

  lemma {:induction false} JoinPadded(a: string, rest: seq<string>)
    ensures Join([a] + rest, ", ") == Join([a] + Padded(rest), ",")
    decreases |rest|
  {
    if |rest| > 0 {
      var t, tail := rest[0], rest[1..];
      var joined := Join([t] + Padded(tail), ",");
      JoinPadded(t, tail);
      PaddedCons(rest);
      JoinPrefixFirst(" ", t, Padded(tail), ",");
      JoinCons(a, rest, ", ");
      JoinCons(a, Padded(rest), ",");
      assert rest == [t] + tail;
      calc {
        Join([a] + rest, ", ");
        a + ", " + Join(rest, ", ");
        a + ", " + joined;
        a + "," + (" " + joined);
        a + "," + Join(Padded(rest), ",");
        Join([a] + Padded(rest), ",");
      }
    }
  }

  /** Joining a non-empty tail after a first piece. */
  lemma JoinCons(x: string, xs: seq<string>, sep: string)
    requires |xs| > 0
    ensures Join([x] + xs, sep) == x + sep + Join(xs, sep)
  {
    assert ([x] + xs)[1..] == xs;
  }

  lemma PaddedCons(xs: seq<string>)
    requires |xs| > 0
    ensures Padded(xs) == [" " + xs[0]] + Padded(xs[1..])
  {
  }

  /** A prefix on the first piece is a prefix of the joined string. */
  lemma JoinPrefixFirst(pre: string, x: string, ys: seq<string>, sep: string)
    ensures Join([pre + x] + ys, sep) == pre + Join([x] + ys, sep)
  {
    if |ys| > 0 {
      JoinCons(pre + x, ys, sep);
      JoinCons(x, ys, sep);
    }
  }

  /** A tag as the panel can carry it: not PHP-empty, no comma, no
      surrounding space. */
  predicate PlainTag(t: string)
  {
    !EmptyString(t) && ',' !in t && !IsPhpSpace(t[0]) && !IsPhpSpace(t[|t| - 1])
  }

  /** The pieces a split at ',' finds in tags joined by ", ". */
  lemma SplitJoinedTags(tags: seq<string>)
    requires |tags| > 0 && forall i :: 0 <= i < |tags| ==> ',' !in tags[i]
    ensures Split(Join(tags, ", "), ',') == [tags[0]] + Padded(tags[1..])
  {
    var pieces := [tags[0]] + Padded(tags[1..]);
    JoinPadded(tags[0], tags[1..]);
    assert [tags[0]] + tags[1..] == tags;
    forall i | 0 <= i < |pieces|
      ensures ',' !in pieces[i]
    {
      if i > 0 {
        assert pieces[i] == " " + tags[i];
      }
    }
    SplitJoin(pieces, ',');
  }

  /** A plain tag trims to itself, with or without a space in front. */
  lemma TrimPlainTag(t: string)
    requires PlainTag(t)
    ensures Trim(t) == t && Trim(" " + t) == t
  {
    TrimWithFixed(t, IsPhpSpace);
    assert " " + t == [' '] + t;
    TrimWithDropsLeading(' ', t, IsPhpSpace);
  }

  /** Trimming the pieces gives the tags back. */
  lemma TrimPadded(tags: seq<string>)
    requires |tags| > 0 && forall i :: 0 <= i < |tags| ==> PlainTag(tags[i])
    ensures TrimAll([tags[0]] + Padded(tags[1..])) == tags
  {
    var pieces := [tags[0]] + Padded(tags[1..]);
    forall i | 0 <= i < |pieces|
      ensures Trim(pieces[i]) == tags[i]
    {
      PaddedPiece(tags, i);
    }
  }

  /** The i-th piece of the padded tags trims to the i-th tag. */
  lemma PaddedPiece(tags: seq<string>, i: nat)
    requires i < |tags| && PlainTag(tags[i])
    ensures Trim(([tags[0]] + Padded(tags[1..]))[i]) == tags[i]
  {
    TrimPlainTag(tags[i]);
    if i > 0 {
      assert ([tags[0]] + Padded(tags[1..]))[i] == Padded(tags[1..])[i - 1];
    }
  }

  /** Joined tags are never a PHP-empty text. */
  lemma JoinedTagsNotEmpty(tags: seq<string>)
    requires |tags| > 0 && forall i :: 0 <= i < |tags| ==> PlainTag(tags[i])
    ensures !EmptyString(Join(tags, ", "))
  {
    if |tags| > 1 {
      assert Join(tags, ", ") == tags[0] + ", " + Join(tags[1..], ", ");
    }
  }

  /** The panel shows stored tags joined by ", "; saving that text unchanged
      gives back the same tags. */
  lemma TagsRoundTrip(tags: seq<string>)
    requires forall i :: 0 <= i < |tags| ==> PlainTag(tags[i])
    ensures ParseTags(Join(tags, ", ")) == tags
  {
    if |tags| > 0 {
      SplitJoinedTags(tags);
      TrimPadded(tags);
      JoinedTagsNotEmpty(tags);
    }
  }

  /** A hook URL line with a single `[key]` placeholder keeps the
      placeholder through the escaping, provided the escaping leaves the
      protected URL alone and the marker occurs nowhere else. */
  lemma HookUrlKeepsPlaceholder(line: string, a: string, key: string, b: string, lib: Library)
    requires lib.url(Trim(line)) == a + Placeholder(key) + b
    requires '[' !in a && '[' !in b && |key| > 0 && BracketFree(key)
    requires IndexOf(a + Marker(key, lib) + b, Marker(key, lib)) == Some(|a|)
    requires !Contains(b, Marker(key, lib))
    requires lib.escUrlRaw(a + Marker(key, lib) + b) == a + Marker(key, lib) + b
    ensures CleanHookUrl(line, lib) == a + Placeholder(key) + b
  {
    var m := Marker(key, lib);
    var ph := Placeholder(key);
    PlaceholdersOfOne(a, key, b);
    var phs := [Entry(key, ph)];
    assert phs[1..] == [];
    ReplaceOne(a, key, b, m);
    assert Protect(a + ph + b, phs, lib) == a + m + b;
    ReplaceFirst(a, m, b, ph);
    ReplaceAbsent(b, m, ph);
    assert Restore(a + m + b, phs, lib) == a + ph + b;
  }

  /** A line without placeholders is only sanitized and escaped. */
  lemma HookUrlPlain(line: string, lib: Library)
    requires '[' !in lib.url(Trim(line))
    ensures CleanHookUrl(line, lib) == lib.escUrlRaw(lib.url(Trim(line)))
  {
    SubstituteNoBracketPhs(lib.url(Trim(line)));
  }

  /** The panel writes the stored hook URLs one per line. Posted back as
      written, by a multi-line field as the save code expects, that text
      gives back the same URLs, provided the sanitizers leave each URL alone
      and none holds a line break or a placeholder. */
  lemma HookUrlsRoundTrip(urls: seq<string>, lib: Library)
    requires |urls| > 0
    requires lib.textarea(Join(urls, "\n")) == Join(urls, "\n")
    requires forall i :: 0 <= i < |urls| ==> '\n' !in urls[i] && !EmptyString(urls[i])
    requires forall i :: 0 <= i < |urls| ==> '[' !in lib.url(Trim(urls[i])) && lib.escUrlRaw(lib.url(Trim(urls[i]))) == urls[i]
    ensures HookUrls(Join(urls, "\n"), lib) == urls
  {
    SplitJoin(urls, '\n');
    var lines := Split(Join(urls, "\n"), '\n');
    var cleaned := seq(|lines|, i requires 0 <= i < |lines| => CleanHookUrl(lines[i], lib));
    forall i | 0 <= i < |urls|
      ensures cleaned[i] == urls[i]
    {
      HookUrlPlain(urls[i], lib);
    }
    assert cleaned == urls;
  }

  lemma SubstituteNoBracketPhs(url: string)
    requires '[' !in url
    ensures PlaceholdersOf(url) == []
  {
    TokensSkip(url, "");
    assert url + "" == url;
  }

  predicate IsAsciiWhitespace(c: char)
  {
    c == ' ' || c == '\t' || c == '\n' || c == '\r' || c == '\U{000C}'
  }

  /** The string without its line feeds and carriage returns. */
  function StripNewlines(s: string): (r: string)
    ensures '\n' !in r && '\r' !in r
    ensures forall c :: c in r <==> c in s && c != '\n' && c != '\r'
  {
    if |s| == 0 then []
    else if s[0] == '\n' || s[0] == '\r' then StripNewlines(s[1..])
    else [s[0]] + StripNewlines(s[1..])
  }

  /** What a browser posts for an `<input type="url">`, the field the panel
      puts the hook URLs in: by the value sanitization of the HTML standard
      for url inputs, the value loses its line breaks and its surrounding
      ASCII whitespace. */
  function UrlInputValue(v: string): (r: string)
    ensures '\n' !in r
  {
    var s := StripNewlines(v);
    TrimWithSub(s, IsAsciiWhitespace);
    TrimWith(s, IsAsciiWhitespace)
  }

  /** A hook URL text without line breaks saves at most one URL, as long as
      `sanitize_textarea_field()` adds none. */
  lemma SingleLineOneHookUrl(text: string, lib: Library)
    requires '\n' !in lib.textarea(text)
    ensures |HookUrls(text, lib)| <= 1
  {
    SplitWithout(lib.textarea(text), '\n');
  }

  /** As the panel is written, saving a form with two or more hook URLs
      unchanged does not give them back: the url input posts them run
      together on one line, which is saved as (at most) one URL. */
  lemma UrlInputLosesHookUrls(urls: seq<string>, lib: Library)
    requires |urls| >= 2
    requires '\n' !in lib.textarea(UrlInputValue(Join(urls, "\n")))
    ensures HookUrls(UrlInputValue(Join(urls, "\n")), lib) != urls
  {
    SingleLineOneHookUrl(UrlInputValue(Join(urls, "\n")), lib);
  }
}

=== FILE: strings.dfy ===
/** The PHP and JavaScript string functions the plugin relies on, on
    `string` = `seq<char>`: trim, explode/implode, strpos, str_replace,
    rtrim with a character, strtok, ASCII case conversion and integer
    formatting. */
module Strings {
  import opened Php

  /** The characters PHP `trim()` strips by default: " \t\n\r\0\x0B". */
  predicate IsPhpSpace(c: char)
  {
    c == ' ' || c == '\t' || c == '\n' || c == '\r' || c == '\0' || c == '\U{000B}'
  }

  /** The characters JavaScript `String.prototype.trim()` strips: white space
      (including the Unicode space separators) and line terminators. */
  predicate IsJsSpace(c: char)
  {
    || c == '\t' || c == '\n' || c == '\U{000B}' || c == '\U{000C}' || c == '\r' || c == ' '
    || c == '\U{00A0}' || c == '\U{1680}' || ('\U{2000}' <= c <= '\U{200A}')
    || c == '\U{2028}' || c == '\U{2029}' || c == '\U{202F}' || c == '\U{205F}'
    || c == '\U{3000}' || c == '\U{FEFF}'
  }

  /** Drops the leading characters satisfying `ws`. */
  function TrimLeftWith(s: string, ws: char -> bool): (r: string)
    ensures |r| <= |s| && r == s[|s| - |r|..]
    ensures forall i :: 0 <= i < |s| - |r| ==> ws(s[i])
    ensures |r| > 0 ==> !ws(r[0])
    decreases |s|
  {
    if |s| > 0 && ws(s[0]) then TrimLeftWith(s[1..], ws) else s
  }

  /** Drops the trailing characters satisfying `ws`. */
  function TrimRightWith(s: string, ws: char -> bool): (r: string)
    ensures |r| <= |s| && r == s[..|r|]
    ensures forall i :: |r| <= i < |s| ==> ws(s[i])
    ensures |r| > 0 ==> !ws(r[|r| - 1])
    decreases |s|
  {
    if |s| > 0 && ws(s[|s| - 1]) then TrimRightWith(s[..|s| - 1], ws) else s
  }

  /** Strips `ws` characters from both ends. */
  function TrimWith(s: string, ws: char -> bool): (r: string)
    ensures |r| <= |s|
    ensures |r| > 0 ==> !ws(r[0]) && !ws(r[|r| - 1])
    ensures exists i :: MiddleAt(s, ws, i, r)
  {
    var l := TrimLeftWith(s, ws);
    var r := TrimRightWith(l, ws);
    MiddleOfSuffix(s, ws, |s| - |l|, l, r);
    r
  }

  /** A prefix `r` of the suffix `l` of `s` starting at `i` is the middle
      of `s` when everything around it satisfies `ws`. */
  lemma MiddleOfSuffix(s: string, ws: char -> bool, i: int, l: string, r: string)
    requires 0 <= i <= |s| && l == s[i..] && |r| <= |l| && r == l[..|r|]
    requires forall j :: 0 <= j < i ==> ws(s[j])
    requires forall j :: |r| <= j < |l| ==> ws(l[j])
    ensures MiddleAt(s, ws, i, r)
  {
    forall j | i + |r| <= j < |s|
      ensures ws(s[j])
    {
      assert s[j] == l[j - i];
    }
  }

  /** `r` is the part of `s` starting at `i`, and everything of `s` before
      and after that part satisfies `ws`. */
  predicate MiddleAt(s: string, ws: char -> bool, i: int, r: string)
  {
    && 0 <= i <= |s| - |r| && r == s[i..i + |r|]
    && (forall j :: 0 <= j < i ==> ws(s[j]))
    && (forall j :: i + |r| <= j < |s| ==> ws(s[j]))
  }

  /** PHP `trim()` with its default character list. */
  function Trim(s: string): string
  {
    TrimWith(s, IsPhpSpace)
  }

  /** A string without surrounding `ws` characters is its own trim. */
  lemma TrimWithFixed(s: string, ws: char -> bool)
    requires |s| == 0 || (!ws(s[0]) && !ws(s[|s| - 1]))
    ensures TrimWith(s, ws) == s
  {
  }

  /** Trimming leaves nothing exactly when every character is a space. */
  lemma TrimWithEmpty(s: string, ws: char -> bool)
    ensures |TrimWith(s, ws)| == 0 <==> forall i :: 0 <= i < |s| ==> ws(s[i])
  {
    var l := TrimLeftWith(s, ws);
    if |l| > 0 {
      assert !ws(s[|s| - |l|]);
    } else {
      assert forall i :: 0 <= i < |s| ==> ws(s[i]);
    }
  }

  /** A leading space character does not survive trimming. */
  lemma TrimWithDropsLeading(c: char, s: string, ws: char -> bool)
    requires ws(c)
    ensures TrimWith([c] + s, ws) == TrimWith(s, ws)
  {
    assert ([c] + s)[1..] == s;
  }

  /** PHP `explode()` with a one-character delimiter: the pieces between the
      delimiters, at least one (explode of "" is [""]). */
  function Split(s: string, d: char): (parts: seq<string>)
    ensures |parts| >= 1
    ensures forall i :: 0 <= i < |parts| ==> d !in parts[i]
    decreases |s|
  {
    if |s| == 0 then [""]
    else if s[0] == d then [""] + Split(s[1..], d)
    else
      var rest := Split(s[1..], d);
      [[s[0]] + rest[0]] + rest[1..]
  }

  /** PHP `implode()`. */
  function Join(xs: seq<string>, sep: string): string
  {
    if |xs| == 0 then ""
    else if |xs| == 1 then xs[0]
    else xs[0] + sep + Join(xs[1..], sep)
  }

  /** Joining the pieces of a split with the delimiter gives back the string. */
  lemma {:induction false} JoinSplit(s: string, d: char)
    ensures Join(Split(s, d), [d]) == s
    decreases |s|
  {
    if |s| > 0 {
      JoinSplit(s[1..], d);
      var rest := Split(s[1..], d);
      if s[0] == d {
        JoinCons("", rest, [d]);
        assert "" + [d] + s[1..] == s;
      } else {
        JoinConsHead(s[0], rest, [d]);
        assert [s[0]] + s[1..] == s;
      }
    }
  }

  /** Joining a first piece and at least one more. */
  lemma JoinCons(x: string, rest: seq<string>, sep: string)
    requires |rest| >= 1
    ensures Join([x] + rest, sep) == x + sep + Join(rest, sep)
  {
    assert ([x] + rest)[1..] == rest;
  }

  /** A character put in front of the first piece is in front of the join. */
  lemma JoinConsHead(c: char, rest: seq<string>, sep: string)
    requires |rest| >= 1
    ensures Join([[c] + rest[0]] + rest[1..], sep) == [c] + Join(rest, sep)
  {
    if |rest| == 1 {
      assert [[c] + rest[0]] + rest[1..] == [[c] + rest[0]];
    } else {
      JoinCons([c] + rest[0], rest[1..], sep);
      JoinCons(rest[0], rest[1..], sep);
      assert rest == [rest[0]] + rest[1..];
    }
  }

  /** A string free of the delimiter splits into itself. */
  lemma {:induction false} SplitWithout(a: string, d: char)
    requires d !in a
    ensures Split(a, d) == [a]
    decreases |a|
  {
    if |a| > 0 {
      SplitWithout(a[1..], d);
      assert [a[0]] + a[1..] == a;
    }
  }

  /** Splitting at the first delimiter. */
  lemma {:induction false} SplitAfter(a: string, d: char, rest: string)
    requires d !in a
    ensures Split(a + [d] + rest, d) == [a] + Split(rest, d)
    decreases |a|
  {
    var s := a + [d] + rest;
    if |a| == 0 {
      assert s[0] == d && s[1..] == rest;
    } else {
      assert s[0] == a[0] && s[1..] == a[1..] + [d] + rest;
      SplitAfter(a[1..], d, rest);
      assert [a[0]] + a[1..] == a;
    }
  }

  /** Splitting undoes joining, provided no piece holds the delimiter. */
  lemma {:induction false} SplitJoin(xs: seq<string>, d: char)
    requires |xs| >= 1
    requires forall i :: 0 <= i < |xs| ==> d !in xs[i]
    ensures Split(Join(xs, [d]), d) == xs
    decreases |xs|
  {
    if |xs| == 1 {
      SplitWithout(xs[0], d);
    } else {
      SplitJoin(xs[1..], d);
      SplitAfter(xs[0], d, Join(xs[1..], [d]));
      assert [xs[0]] + xs[1..] == xs;
    }
  }

  /** `p` occurs in `s` at position `i`. */
  predicate OccursAt(s: string, p: string, i: int)
  {
    0 <= i && i + |p| <= |s| && s[i..i + |p|] == p
  }

  /** The first position at or after `k` where `p` occurs. */
  function IndexOfFrom(s: string, p: string, k: nat): (r: Option<nat>)
    ensures r.Some? ==> k <= r.value && OccursAt(s, p, r.value)
    ensures r.Some? ==> forall j :: k <= j < r.value ==> !OccursAt(s, p, j)
    ensures r.None? ==> forall j :: k <= j ==> !OccursAt(s, p, j)
    decreases |s| - k
  {
    if k + |p| > |s| then None
    else if s[k..k + |p|] == p then Some(k)
    else IndexOfFrom(s, p, k + 1)
  }

  /** PHP `strpos()` / JavaScript `indexOf()`: the first position of `p` in `s`. */
  function IndexOf(s: string, p: string): Option<nat>
  {
    IndexOfFrom(s, p, 0)
  }

  /** PHP `strpos(...) !== false` / JavaScript `includes()`. */
  predicate Contains(s: string, p: string)
  {
    IndexOf(s, p).Some?
  }

  lemma ContainsIff(s: string, p: string)
    ensures Contains(s, p) <==> exists i :: OccursAt(s, p, i)
  {
  }

  function LowerChar(c: char): char
  {
    if 'A' <= c <= 'Z' then (c as int + 32) as char else c
  }

  function UpperChar(c: char): char
  {
    if 'a' <= c <= 'z' then (c as int - 32) as char else c
  }

  /** ASCII `strtolower()`. */
  function Lower(s: string): (r: string)
    ensures |r| == |s| && forall i :: 0 <= i < |s| ==> r[i] == LowerChar(s[i])
  {
    seq(|s|, i requires 0 <= i < |s| => LowerChar(s[i]))
  }

  /** ASCII `strtoupper()`. */
  function Upper(s: string): (r: string)
    ensures |r| == |s| && forall i :: 0 <= i < |s| ==> r[i] == UpperChar(s[i])
  {
    seq(|s|, i requires 0 <= i < |s| => UpperChar(s[i]))
  }

  /** PHP `stripos(...) !== false`: case-insensitive containment. */
  predicate ContainsIgnoreCase(s: string, p: string)
  {
    Contains(Lower(s), Lower(p))
  }

  /** PHP `str_replace()` with one search string: every non-overlapping
      occurrence, scanning left to right, is replaced; an empty search
      string leaves the subject alone. */
  function Replace(s: string, p: string, r: string): string
    decreases |s|
  {
    if |p| == 0 || |s| < |p| then s
    else if s[..|p|] == p then r + Replace(s[|p|..], p, r)
    else [s[0]] + Replace(s[1..], p, r)
  }

  /** Nothing to replace: the subject is returned unchanged. */
  lemma {:induction false} ReplaceAbsent(s: string, p: string, r: string)
    requires !Contains(s, p)
    ensures Replace(s, p, r) == s
    decreases |s|
  {
    if |p| == 0 || |s| < |p| {
    } else {
      assert !OccursAt(s, p, 0);
      assert s[..|p|] != p;
      forall j | 0 <= j
        ensures !OccursAt(s[1..], p, j)
      {
        assert !OccursAt(s, p, j + 1);
        if j + |p| <= |s| - 1 {
          assert s[1..][j..j + |p|] == s[j + 1..j + 1 + |p|];
        }
      }
      ReplaceAbsent(s[1..], p, r);
      assert [s[0]] + s[1..] == s;
    }
  }

  /** The first occurrence of `p` is replaced and the scan resumes after it. */
  lemma {:induction false} ReplaceFirst(a: string, p: string, b: string, r: string)
    requires |p| > 0
    requires forall j :: 0 <= j < |a| ==> !OccursAt(a + p + b, p, j)
    ensures Replace(a + p + b, p, r) == a + r + Replace(b, p, r)
    decreases |a|
  {
    var s := a + p + b;
    if |a| == 0 {
      assert s[..|p|] == p && s[|p|..] == b;
    } else {
      var t := a[1..] + p + b;
      assert s[1..] == t;
      assert !OccursAt(s, p, 0);
      NoOccurrenceInTail(s, p, |a|);
      ReplaceFirst(a[1..], p, b, r);
      calc {
        Replace(s, p, r);
        [s[0]] + Replace(t, p, r);
        [a[0]] + (a[1..] + r + Replace(b, p, r));
        { assert [a[0]] + a[1..] == a; }
        a + r + Replace(b, p, r);
      }
    }
  }

  /** Dropping the first character shifts the positions of `p` down by one. */
  lemma NoOccurrenceInTail(s: string, p: string, n: nat)
    requires 0 < n <= |s|
    requires forall j :: 0 <= j < n ==> !OccursAt(s, p, j)
    ensures forall j :: 0 <= j < n - 1 ==> !OccursAt(s[1..], p, j)
  {
    forall j | 0 <= j < n - 1
      ensures !OccursAt(s[1..], p, j)
    {
      assert !OccursAt(s, p, j + 1);
      if j + |p| <= |s| - 1 {
        assert s[1..][j..j + |p|] == s[j + 1..j + 1 + |p|];
      }
    }
  }

  /** PHP `rtrim($s, $c)` with a single character. */
  function RTrimChar(s: string, c: char): (r: string)
    ensures |r| <= |s| && r == s[..|r|]
    ensures forall i :: |r| <= i < |s| ==> s[i] == c
    ensures |r| > 0 ==> r[|r| - 1] != c
    decreases |s|
  {
    if |s| > 0 && s[|s| - 1] == c then RTrimChar(s[..|s| - 1], c) else s
  }

  /** The part of `s` before the first `d`, or all of `s`. */
  function BeforeFirst(s: string, d: char): (r: string)
    ensures d !in r
    ensures |r| <= |s| && r == s[..|r|]
    ensures |r| < |s| ==> s[|r|] == d
  {
    match IndexOf(s, [d])
    case Some(i) =>
      assert OccursAt(s, [d], i);
      assert forall j :: 0 <= j < i ==> !OccursAt(s, [d], j) && s[j..j + 1] == [s[j]];
      s[..i]
    case None =>
      assert forall j :: 0 <= j < |s| ==> !OccursAt(s, [d], j) && s[j..j + 1] == [s[j]];
      s
  }

  /** `b` is a delimiter-free prefix of `s` ending at a delimiter or at the end. */
  ghost predicate BeforeFirstUnique(s: string, d: char, b: string)
  {
    |b| <= |s| && b == s[..|b|] && d !in b && (|b| < |s| ==> s[|b|] == d)
  }

  /** There is only one such prefix. */
  lemma BeforeFirstChar(s: string, d: char, b: string)
    requires BeforeFirstUnique(s, d, b)
    ensures b == BeforeFirst(s, d)
  {
    var c := BeforeFirst(s, d);
    assert forall i :: 0 <= i < |c| ==> s[i] == c[i] && c[i] != d;
    assert forall i :: 0 <= i < |b| ==> s[i] == b[i] && b[i] != d;
  }

  /** The first piece of a split is the text before the first delimiter. */
  lemma {:induction false} SplitFirstIsBeforeFirst(s: string, d: char)
    ensures Split(s, d)[0] == BeforeFirst(s, d)
    decreases |s|
  {
    if |s| == 0 {
    } else if s[0] == d {
      assert BeforeFirst(s, d) == [];
    } else {
      SplitFirstIsBeforeFirst(s[1..], d);
      var b := BeforeFirst(s, d);
      var b' := BeforeFirst(s[1..], d);
      assert |b| > 0;
      assert b[1..] == s[1..][..|b| - 1];
      assert BeforeFirstUnique(s[1..], d, b[1..]);
      BeforeFirstChar(s[1..], d, b[1..]);
      assert b == [s[0]] + b';
    }
  }

  /** PHP `strtok($s, $d)` on a fresh string: skips leading delimiters and
      returns the first token, or `false` (here `None`) when there is none. */
  function Strtok(s: string, d: char): (r: Option<string>)
    ensures r.None? <==> forall i :: 0 <= i < |s| ==> s[i] == d
    ensures r.Some? ==> |r.value| > 0 && d !in r.value
    ensures |s| > 0 && s[0] != d ==> r == Some(BeforeFirst(s, d))
    ensures forall k :: 0 <= k < |s| && s[k] != d && (forall j :: 0 <= j < k ==> s[j] == d) ==>
      r == Some(BeforeFirst(s[k..], d))
  {
    var t := TrimLeftWith(s, c => c == d);
    if |t| == 0 then None else Some(BeforeFirst(t, d))
  }

  function DigitChar(n: nat): char
    requires n < 10
  {
    "0123456789"[n]
  }

  function NatToString(n: nat): string
    decreases n
  {
    if n < 10 then [DigitChar(n)] else NatToString(n / 10) + [DigitChar(n % 10)]
  }

  /** An integer in decimal, as PHP string interpolation writes it. */
  function IntToString(i: int): string
  {
    if i < 0 then "-" + NatToString(-i) else NatToString(i)
  }

  /** Bytes of one character in UTF-8, the encoding WordPress strings use. */
  function Utf8Width(c: char): nat
  {
    if c as int < 0x80 then 1 else if c as int < 0x800 then 2 else if c as int < 0x10000 then 3 else 4
  }

  /** PHP `strlen()`: the length in bytes of the UTF-8 encoding. */
  function Utf8Length(s: string): (n: nat)
    ensures n >= |s|
    ensures (forall i :: 0 <= i < |s| ==> s[i] as int < 0x80) ==> n == |s|
  {
    if |s| == 0 then 0 else Utf8Width(s[0]) + Utf8Length(s[1..])
  }

  /** The byte length of a concatenation is the sum of the parts'. */
  lemma {:induction false} Utf8LengthAppend(a: string, b: string)
    ensures Utf8Length(a + b) == Utf8Length(a) + Utf8Length(b)
    decreases |a|
  {
    if |a| == 0 {
      assert a + b == b;
    } else {
      assert (a + b)[0] == a[0];
      assert (a + b)[1..] == a[1..] + b;
      Utf8LengthAppend(a[1..], b);
    }
  }

  /** One character takes its UTF-8 width. */
  lemma Utf8LengthOne(c: char)
    ensures Utf8Length([c]) == Utf8Width(c)
  {
    assert [c][1..] == [];
  }

  /** `strlen() == 2` holds exactly for two ASCII characters or for one
      character of two UTF-8 bytes (U+0080 to U+07FF). */
  lemma Utf8LengthTwo(s: string)
    ensures Utf8Length(s) == 2 <==>
      (|s| == 2 && s[0] as int < 0x80 && s[1] as int < 0x80) || (|s| == 1 && 0x80 <= s[0] as int < 0x800)
  {
    if |s| >= 2 {
      assert s == [s[0]] + [s[1]] + s[2..];
      Utf8LengthAppend([s[0]] + [s[1]], s[2..]);
      Utf8LengthAppend([s[0]], [s[1]]);
      Utf8LengthOne(s[0]);
      Utf8LengthOne(s[1]);
    } else if |s| == 1 {
      assert s == [s[0]];
      Utf8LengthOne(s[0]);
    }
  }

  predicate IsAsciiLower(c: char)
  {
    'a' <= c <= 'z'
  }

  predicate IsAsciiUpper(c: char)
  {
    'A' <= c <= 'Z'
  }

  /** `ctype_alpha()` on one character (C locale). */
  predicate IsAsciiAlpha(c: char)
  {
    IsAsciiLower(c) || IsAsciiUpper(c)
  }

  /** PHP `array_filter()` without a callback on a list of strings: drops the
      falsy entries ("" and "0") and keeps the rest in order. */
  function FilterNonEmpty(xs: seq<string>): (r: seq<string>)
    ensures |r| <= |xs|
    ensures forall i :: 0 <= i < |r| ==> !EmptyString(r[i])
    ensures forall x :: x in r <==> x in xs && !EmptyString(x)
    ensures (forall i :: 0 <= i < |xs| ==> !EmptyString(xs[i])) ==> r == xs
  {
    if |xs| == 0 then []
    else if EmptyString(xs[0]) then FilterNonEmpty(xs[1..])
    else [xs[0]] + FilterNonEmpty(xs[1..])
  }

  /** Filtering keeps the order: it works piece by piece. */
  lemma {:induction false} FilterNonEmptyAppend(a: seq<string>, b: seq<string>)
    ensures FilterNonEmpty(a + b) == FilterNonEmpty(a) + FilterNonEmpty(b)
    decreases |a|
  {
    if |a| == 0 {
      assert a + b == b;
    } else {
      assert (a + b)[0] == a[0] && (a + b)[1..] == a[1..] + b;
      FilterNonEmptyAppend(a[1..], b);
    }
  }

  /** One string is kept exactly when it is not PHP-empty. */
  lemma FilterNonEmptyOne(x: string)
    ensures FilterNonEmpty([x]) == if EmptyString(x) then [] else [x]
  {
    assert [x][1..] == [];
  }

  /** Splitting at a delimiter placed between two strings splits each. */
  lemma {:induction false} SplitAppend(a: string, d: char, b: string)
    ensures Split(a + [d] + b, d) == Split(a, d) + Split(b, d)
    decreases |a|
  {
    var s := a + [d] + b;
    if |a| == 0 {
      assert s[0] == d && s[1..] == b;
    } else {
      assert s[0] == a[0] && s[1..] == a[1..] + [d] + b;
      SplitAppend(a[1..], d, b);
    }
  }
}

=== FILE: submission.dfy ===
/** What happens when a Contact Form 7 form is submitted
    (`wpcf7_skip_mail()` and `wpcf7_mail_sent()`): whether the integration
    is configured, where the source and website come from, and the loop that
    sends the formatted submission to every hook URL of the form.

    The submitted fields (`array_merge()` of the special mail tags and the
    posted data) are given; reading them from Contact Form 7 is not part of
    this model. */
module Submission {
  import opened Php
  import opened Strings
  import opened Assoc
  import opened Platform
  import opened Placeholders
  import opened Payload
  import opened Dispatcher
  import Country

  /** The hook URLs of a form, as the loop walks them (`(array)` cast). */
  function HookUrlsOf(props: PhpArray<Value>): seq<Value>
  {
    AsArrayOrEmpty(Get(props, "hook_url"))
  }

  /** A hook URL that trims to a string that is not PHP-empty. */
  predicate UsableUrl(u: Value)
  {
    !EmptyString(Trim(ToString(u)))
  }

  /** `can_submit_to_actionnetwork()`: the form has settings, a hook URL
      setting that is not PHP-empty, and one of its URLs is usable. */
  predicate CanSubmit(props: PhpArray<Value>)
  {
    |props| > 0
    && Get(props, "hook_url").Some? && !IsEmpty(Get(props, "hook_url").value)
    && exists i :: 0 <= i < |HookUrlsOf(props)| && UsableUrl(HookUrlsOf(props)[i])
  }

  /** The PHP-empty checks in front of the search never decide: the form
      can submit exactly when one of its hook URLs is usable. */
  lemma CanSubmitIff(props: PhpArray<Value>)
    ensures CanSubmit(props) <==> exists i :: 0 <= i < |HookUrlsOf(props)| && UsableUrl(HookUrlsOf(props)[i])
  {
    match Get(props, "hook_url")
    case None =>
    case Some(v) =>
      assert "hook_url" in Keys(props);
      if IsEmpty(v) {
        EmptyValueHasNoUrl(v);
      }
  }

  /** A PHP-empty value holds no usable URL. */
  lemma EmptyValueHasNoUrl(v: Value)
    requires IsEmpty(v)
    ensures forall i :: 0 <= i < |AsArray(v)| ==> !UsableUrl(AsArray(v)[i])
  {
    if v.Str? {
      assert AsArray(v) == [v];
      TrimWithFixed(v.s, IsPhpSpace);
    } else if v.Bool? {
      assert AsArray(v) == [v] && ToString(v) == "";
    }
  }

  /** `wpcf7_skip_mail()`: Contact Form 7's own email is skipped whenever
      the form can submit to Action Network. */
  function SkipMail(skip: bool, props: PhpArray<Value>): (r: bool)
    ensures r <==> skip || CanSubmit(props)
  {
    if CanSubmit(props) then true else skip
  }

  /** The referring page without its query (`strtok($url, '?')`), or
      `false` when there is none. */
  function Website(referrer: string): (w: Value)
    ensures w == Bool(false) <==> forall i :: 0 <= i < |referrer| ==> referrer[i] == '?'
    ensures w.Str? ==> '?' !in w.s && |w.s| > 0
    ensures |referrer| > 0 && referrer[0] != '?' ==> w == Str(BeforeFirst(referrer, '?'))
    ensures forall k :: 0 <= k < |referrer| && referrer[k] != '?' && (forall j :: 0 <= j < k ==> referrer[j] == '?') ==>
      w == Str(BeforeFirst(referrer[k..], '?'))
  {
    match Strtok(referrer, '?')
    case Some(s) => Str(s)
    case None => Bool(false)
  }

  /** The referrer has no query, or a query without a `source` parameter. */
  predicate NoSourceParam(referrer: string, lib: Library)
  {
    lib.parseUrl(referrer).query.None? || lib.sourceParam(lib.parseUrl(referrer).query.value).None?
  }

  /** The source: the referrer's `source` query parameter when the
      referrer has a query, else the form's source name, else
      'contact-form-7'. */
  function Source(props: PhpArray<Value>, referrer: string, lib: Library): (v: Value)
    ensures NoSourceParam(referrer, lib) && Get(props, "source_name").Some? && !IsEmpty(Get(props, "source_name").value)
      ==> v == Get(props, "source_name").value
    ensures NoSourceParam(referrer, lib) && (Get(props, "source_name").None? || IsEmpty(Get(props, "source_name").value))
      ==> v == Str("contact-form-7")
    ensures lib.parseUrl(referrer).query.Some? && lib.sourceParam(lib.parseUrl(referrer).query.value).Some?
      ==> v == Str(lib.text(Str(lib.sourceParam(lib.parseUrl(referrer).query.value).value)))
  {
    var fallback := match Get(props, "source_name")
      case Some(s) => if IsEmpty(s) then Str("contact-form-7") else s
      case None => Str("contact-form-7");
    match lib.parseUrl(referrer).query
    case None => fallback
    case Some(q) =>
      match lib.sourceParam(q)
      case Some(s) => Str(lib.text(Str(s)))
      case None => fallback
  }

  /** What the loop needs besides the URLs and the data: how a hook URL's
      placeholders are filled from the data, how the data is formatted, how
      a formatted submission is sent to a URL, and the
      `cfan_trigger_actionnetwork_error_message` filter applied to the
      form's 'mail_sent_ng' message given the exception's message (an empty
      answer ignores the error). */
  datatype Env = Env(
    fill: (string, PhpArray<Value>) -> string,
    format: PhpArray<Value> -> PhpArray<Value>,
    send: (PhpArray<Value>, string) -> Dispatch,
    errorMessage: string -> string)

  /** One hook URL the loop got to: the URL after placeholder substitution,
      the data sent and what the dispatcher did. */
  datatype Call = Call(url: string, body: PhpArray<Value>, result: Dispatch)

  /** The attempts, the ones that threw (`$errors`), and the message the
      submission failed with, if it failed. */
  datatype Outcome = Outcome(attempts: seq<Call>, errors: seq<Call>, failure: Option<string>)

  /** An attempt's result is the dispatcher's answer for its body and URL. */
  predicate Answered(a: Call, env: Env)
  {
    a.result == env.send(a.body, a.url)
  }

  /** The attempts that threw, in order. */
  function Errors(attempts: seq<Call>): (r: seq<Call>)
    ensures forall a :: a in r <==> a in attempts && a.result.Thrown?
  {
    if |attempts| == 0 then []
    else (if attempts[0].result.Thrown? then [attempts[0]] else []) + Errors(attempts[1..])
  }

  /** The number of hook URLs that are not PHP-empty. */
  function UsableCount(urls: seq<Value>): (n: nat)
    ensures n <= |urls|
  {
    if |urls| == 0 then 0 else (if IsEmpty(urls[0]) then 0 else 1) + UsableCount(urls[1..])
  }

  function Cons(a: Call, o: Outcome): Outcome
  {
    Outcome([a] + o.attempts, (if a.result.Thrown? then [a] else []) + o.errors, o.failure)
  }

  /** The endpoint loop. A PHP-empty URL is skipped. Otherwise its
      placeholders are filled from the data, the data is formatted and sent;
      an exception is recorded, and ends the loop unless the error message
      is PHP-empty. With `reformat` the formatted payload replaces the data
      for the URLs that follow, as the source does. */
  function Run(urls: seq<Value>, data: PhpArray<Value>, env: Env, reformat: bool): (o: Outcome)
    ensures o.errors == Errors(o.attempts)
    ensures |o.attempts| <= UsableCount(urls)
    ensures o.failure.None? ==> |o.attempts| == UsableCount(urls)
    ensures forall k :: 0 <= k < |o.attempts| ==> Answered(o.attempts[k], env)
    decreases |urls|
  {
    if |urls| == 0 then Outcome([], [], None)
    else if IsEmpty(urls[0]) then Run(urls[1..], data, env, reformat)
    else
      var url := env.fill(ToString(urls[0]), data);
      var body := env.format(data);
      var result := env.send(body, url);
      var a := Call(url, body, result);
      var next := if reformat then body else data;
      if result.Sent? || EmptyString(env.errorMessage(result.message)) then
        var rest := Run(urls[1..], next, env, reformat);
        var o := Cons(a, rest);
        assert o.attempts[1..] == rest.attempts;
        o
      else
        var o := Outcome([a], [a], Some(env.errorMessage(result.message)));
        assert o.attempts[1..] == [];
        o
  }

  /** A submission fails on an exception whose error message is not
      PHP-empty, and the loop stops right there. */
  lemma {:induction false} RunFailure(urls: seq<Value>, data: PhpArray<Value>, env: Env, reformat: bool)
    requires Run(urls, data, env, reformat).failure.Some?
    ensures var o := Run(urls, data, env, reformat);
      && |o.attempts| > 0
      && o.attempts[|o.attempts| - 1].result.Thrown?
      && o.failure.value == env.errorMessage(o.attempts[|o.attempts| - 1].result.message)
      && !EmptyString(o.failure.value)
  {
    RunFailsLast(urls, data, env, reformat);
  }

  /** A failed outcome ends with the attempt it failed on. */
  predicate FailsLast(o: Outcome, env: Env)
  {
    o.failure.Some? ==>
      |o.attempts| > 0 && o.attempts[|o.attempts| - 1].result.Thrown?
      && o.failure.value == env.errorMessage(o.attempts[|o.attempts| - 1].result.message)
      && !EmptyString(o.failure.value)
  }

  /** Every outcome of the loop that failed ends with the attempt it failed
      on. */
  lemma {:induction false} RunFailsLast(urls: seq<Value>, data: PhpArray<Value>, env: Env, reformat: bool)
    ensures FailsLast(Run(urls, data, env, reformat), env)
    decreases |urls|
  {
    if |urls| == 0 {
    } else if IsEmpty(urls[0]) {
      RunFailsLast(urls[1..], data, env, reformat);
    } else {
      var url := env.fill(ToString(urls[0]), data);
      var body := env.format(data);
      var result := env.send(body, url);
      if result.Sent? || EmptyString(env.errorMessage(result.message)) {
        var rest := Run(urls[1..], if reformat then body else data, env, reformat);
        RunFailsLast(urls[1..], if reformat then body else data, env, reformat);
        ConsFailsLast(Call(url, body, result), rest, env);
      }
    }
  }

  /** An attempt that lets the loop go on keeps the failure at the end. */
  lemma ConsFailsLast(a: Call, rest: Outcome, env: Env)
    requires FailsLast(rest, env)
    ensures FailsLast(Cons(a, rest), env)
  {
    var o := Cons(a, rest);
    if o.failure.Some? {
      assert o.attempts[|o.attempts| - 1] == rest.attempts[|rest.attempts| - 1];
    }
  }

  /** Every exception the loop went past had a PHP-empty error message. */
  lemma {:induction false} RunIgnoredErrors(urls: seq<Value>, data: PhpArray<Value>, env: Env, reformat: bool, i: nat)
    requires var o := Run(urls, data, env, reformat);
      i < |o.attempts| && o.attempts[i].result.Thrown? && (o.failure.None? || i < |o.attempts| - 1)
    ensures EmptyString(env.errorMessage(Run(urls, data, env, reformat).attempts[i].result.message))
    decreases |urls|
  {
    if IsEmpty(urls[0]) {
      RunIgnoredErrors(urls[1..], data, env, reformat, i);
    } else if i > 0 {
      var body := env.format(data);
      RunIgnoredErrors(urls[1..], if reformat then body else data, env, reformat, i - 1);
    }
  }

  /** The first URL that is not PHP-empty gets the data as submitted. */
  lemma {:induction false} FirstAttempt(urls: seq<Value>, data: PhpArray<Value>, env: Env, reformat: bool)
    requires |Run(urls, data, env, reformat).attempts| > 0
    ensures var a := Run(urls, data, env, reformat).attempts[0];
      exists i :: 0 <= i < |urls| && !IsEmpty(urls[i]) && (forall j :: 0 <= j < i ==> IsEmpty(urls[j]))
        && a.url == env.fill(ToString(urls[i]), data) && a.body == env.format(data)
    decreases |urls|
  {
    if IsEmpty(urls[0]) {
      FirstAttempt(urls[1..], data, env, reformat);
      var a := Run(urls, data, env, reformat).attempts[0];
      var i :| 0 <= i < |urls[1..]| && !IsEmpty(urls[1..][i]) && (forall j :: 0 <= j < i ==> IsEmpty(urls[1..][j]))
        && a.url == env.fill(ToString(urls[1..][i]), data) && a.body == env.format(data);
      assert urls[1..][i] == urls[i + 1];
      forall j | 0 <= j < i + 1
        ensures IsEmpty(urls[j])
      {
        if j > 0 {
          assert urls[1..][j - 1] == urls[j];
        }
      }
    }
  }

  /** The hook URLs that are not PHP-empty, in order: the ones the loop
      gets to, unless it stops early. */
  function NonEmptyUrls(urls: seq<Value>): (r: seq<Value>)
    ensures |r| == UsableCount(urls)
    ensures forall u :: u in r <==> u in urls && !IsEmpty(u)
  {
    if |urls| == 0 then []
    else
      assert urls == [urls[0]] + urls[1..];
      (if IsEmpty(urls[0]) then [] else [urls[0]]) + NonEmptyUrls(urls[1..])
  }

  /** The first attempt goes to the first URL that is not PHP-empty,
      filled from and carrying the submitted data. */
  lemma {:induction false} AttemptZero(urls: seq<Value>, data: PhpArray<Value>, env: Env, reformat: bool)
    requires 0 < |Run(urls, data, env, reformat).attempts|
    ensures var a := Run(urls, data, env, reformat).attempts[0];
      && 0 < |NonEmptyUrls(urls)|
      && a.url == env.fill(ToString(NonEmptyUrls(urls)[0]), data)
      && a.body == env.format(data)
    decreases |urls|
  {
    if IsEmpty(urls[0]) {
      AttemptZero(urls[1..], data, env, reformat);
    }
  }

  /** With the data kept, the k-th attempt goes to the k-th URL that is not
      PHP-empty, filled from the submitted data. */
  lemma {:induction false} KeptAttemptAt(urls: seq<Value>, data: PhpArray<Value>, env: Env, k: nat)
    requires k < |Run(urls, data, env, false).attempts|
    ensures k < |NonEmptyUrls(urls)|
    ensures Run(urls, data, env, false).attempts[k].url == env.fill(ToString(NonEmptyUrls(urls)[k]), data)
    decreases |urls|
  {
    if IsEmpty(urls[0]) {
      KeptAttemptAt(urls[1..], data, env, k);
    } else if k > 0 {
      RunShift(urls, data, env, false, k);
      KeptAttemptAt(urls[1..], data, env, k - 1);
    }
  }

  /** As written, every attempt after the first goes to the next URL that is
      not PHP-empty, filled from the previous attempt's payload, and sends
      that payload formatted again. */
  lemma {:induction false} ReformattedAttemptAt(urls: seq<Value>, data: PhpArray<Value>, env: Env, k: nat)
    requires 0 < k < |Run(urls, data, env, true).attempts|
    ensures ReformattedAt(urls, data, env, k)
    decreases |urls|, 1
  {
    if IsEmpty(urls[0]) {
      assert Run(urls, data, env, true) == Run(urls[1..], data, env, true);
      assert NonEmptyUrls(urls) == NonEmptyUrls(urls[1..]);
      ReformattedAttemptAt(urls[1..], data, env, k);
    } else if k == 1 {
      RunShift(urls, data, env, true, k);
      AttemptZero(urls[1..], env.format(data), env, true);
    } else {
      ReformattedLater(urls, data, env, k);
    }
  }

  /** The step of ReformattedAttemptAt past a URL the loop sent to: the
      k-th attempt is the (k-1)-th of the loop over the remaining URLs,
      started from the formatted data. */
  lemma {:induction false} ReformattedLater(urls: seq<Value>, data: PhpArray<Value>, env: Env, k: nat)
    requires |urls| > 0 && !IsEmpty(urls[0])
    requires 1 < k < |Run(urls, data, env, true).attempts|
    ensures ReformattedAt(urls, data, env, k)
    decreases |urls|, 0
  {
    RunShift(urls, data, env, true, k);
    ReformattedAttemptAt(urls[1..], env.format(data), env, k - 1);
    ReformattedShift(urls, data, env, k);
  }

  /** The k-th attempt of the reformatting loop, k > 0, goes to the k-th URL
      that is not PHP-empty, filled from the previous attempt's payload, and
      sends that payload formatted again. */
  ghost predicate ReformattedAt(urls: seq<Value>, data: PhpArray<Value>, env: Env, k: nat)
    requires 0 < k < |Run(urls, data, env, true).attempts|
  {
    var o := Run(urls, data, env, true);
    && k < |NonEmptyUrls(urls)|
    && o.attempts[k].url == env.fill(ToString(NonEmptyUrls(urls)[k]), o.attempts[k - 1].body)
    && o.attempts[k].body == env.format(o.attempts[k - 1].body)
  }

  /** What holds of attempt k - 1 over the remaining URLs holds of attempt
      k over all of them. */
  lemma ReformattedShift(urls: seq<Value>, data: PhpArray<Value>, env: Env, k: nat)
    requires |urls| > 0 && !IsEmpty(urls[0])
    requires 1 < k < |Run(urls, data, env, true).attempts|
    requires k - 1 < |Run(urls[1..], env.format(data), env, true).attempts|
    requires ReformattedAt(urls[1..], env.format(data), env, k - 1)
    ensures ReformattedAt(urls, data, env, k)
  {
    RunShift(urls, data, env, true, k);
    RunShift(urls, data, env, true, k - 1);
  }

  /** At a URL that is not PHP-empty, the first attempt sends the formatted
      data and the later ones are the loop's over the remaining URLs. */
  lemma RunShift(urls: seq<Value>, data: PhpArray<Value>, env: Env, reformat: bool, k: nat)
    requires |urls| > 0 && !IsEmpty(urls[0])
    requires 0 < k < |Run(urls, data, env, reformat).attempts|
    ensures var next := if reformat then env.format(data) else data;
      && k - 1 < |Run(urls[1..], next, env, reformat).attempts|
      && Run(urls, data, env, reformat).attempts[k] == Run(urls[1..], next, env, reformat).attempts[k - 1]
      && Run(urls, data, env, reformat).attempts[0].body == env.format(data)
      && NonEmptyUrls(urls)[k] == NonEmptyUrls(urls[1..])[k - 1]
  {
    var url := env.fill(ToString(urls[0]), data);
    var body := env.format(data);
    var next := if reformat then body else data;
    var rest := Run(urls[1..], next, env, reformat);
    assert Run(urls, data, env, reformat).attempts == [Call(url, body, env.send(body, url))] + rest.attempts;
    assert NonEmptyUrls(urls) == [urls[0]] + NonEmptyUrls(urls[1..]);
  }

  /** A hook URL that trims to something usable is one the loop sends to,
      unless it is an array (`trim()` of an array is not a string). */
  lemma UsableNotEmpty(u: Value)
    requires UsableUrl(u) && !IsArray(u)
    ensures !IsEmpty(u)
  {
    if u.Str? && u.s == "0" {
      TrimWithFixed(u.s, IsPhpSpace);
    }
  }

  lemma {:induction false} UsableCountPositive(urls: seq<Value>, i: nat)
    requires i < |urls| && !IsEmpty(urls[i])
    ensures UsableCount(urls) >= 1
    decreases |urls|
  {
    if i > 0 {
      UsableCountPositive(urls[1..], i - 1);
    }
  }

  /** A loop over URLs one of which is not PHP-empty makes an attempt. */
  lemma SomeAttempt(urls: seq<Value>, data: PhpArray<Value>, env: Env, reformat: bool, i: nat)
    requires i < |urls| && !IsEmpty(urls[i])
    ensures |Run(urls, data, env, reformat).attempts| >= 1
  {
    UsableCountPositive(urls, i);
    if Run(urls, data, env, reformat).failure.Some? {
      RunFailure(urls, data, env, reformat);
    }
  }

  /** With the data kept, every URL gets the same formatted submission. */
  lemma {:induction false} KeptDataSentEverywhere(urls: seq<Value>, data: PhpArray<Value>, env: Env, i: nat)
    requires i < |Run(urls, data, env, false).attempts|
    ensures Run(urls, data, env, false).attempts[i].body
      == env.format(data)
    decreases |urls|
  {
    if IsEmpty(urls[0]) {
      KeptDataSentEverywhere(urls[1..], data, env, i);
    } else if i > 0 {
      KeptDataSentEverywhere(urls[1..], data, env, i - 1);
    }
  }

  /** As written, the second usable URL gets the first one's payload
      formatted again. */
  lemma SecondAttemptReformats(u1: Value, u2: Value, data: PhpArray<Value>, env: Env)
    requires !IsEmpty(u1) && !IsEmpty(u2)
    requires |Run([u1, u2], data, env, true).attempts| == 2
    ensures var o := Run([u1, u2], data, env, true);
      o.attempts[0].body == env.format(data)
      && o.attempts[1].body == env.format(o.attempts[0].body)
      && o.attempts[1].url == env.fill(ToString(u2), o.attempts[0].body)
  {
    assert [u1, u2][1..] == [u2];
    assert [u2][1..] == [];
  }

  /** The defect this causes: whatever the form sent, the second Action
      Network endpoint of a submission receives a person with no email, no
      phone and no name; the first person ends up as a custom field. This
      holds for any loop whose formatting step is the submission's (as
      `EnvFor` builds it, see `EnvForFormat`). */
  lemma SecondEndpointLosesContact(u1: Value, u2: Value, data: PhpArray<Value>, env: Env, props: PhpArray<Value>,
                                   source: Value, website: Value, detected: Option<string>, lib: Library)
    requires !IsEmpty(u1) && !IsEmpty(u2)
    requires forall d :: env.format(d) == AsFields(Format(d, props, source, website, detected, lib))
    requires |Run([u1, u2], data, env, true).attempts| == 2
    ensures var o := Run([u1, u2], data, env, true);
      var first := Format(data, props, source, website, detected, lib);
      var second := Format(AsFields(first), props, source, website, detected, lib);
      && o.attempts[0].body == AsFields(first)
      && o.attempts[1].body == AsFields(second)
      && second.person.email.None? && second.person.phones.None?
      && second.person.givenName == "" && second.person.familyName == ""
      && Get(second.person.customFields, "person") == Some(PersonValue(first.person))
  {
    SecondAttemptReformats(u1, u2, data, env);
    var first := Format(data, props, source, website, detected, lib);
    ReformatLosesContact(first, props, source, website, detected, lib);
    ReformatBuriesPerson(first, props, source, website, detected, lib);
  }

  /** And its placeholders: after the first URL, a placeholder naming a
      form field is filled with the empty string, since the data now holds
      only the payload's own keys. */
  lemma LaterPlaceholdersEmpty(p: Payload, key: string)
    requires !EnvelopeKey(key)
    ensures FillValue(AsFields(p), key) == ""
  {
    var r := AsFields(p);
    assert forall i :: 0 <= i < |r| ==> Keys(r)[i] != key;
  }

  /** With the data kept, the second URL gets the submission formatted
      once, the same as the first, and its placeholders are filled from
      the submitted fields. */
  lemma CorrectedSecondAttempt(u1: Value, u2: Value, data: PhpArray<Value>, env: Env)
    requires !IsEmpty(u1) && !IsEmpty(u2)
    requires |Run([u1, u2], data, env, false).attempts| == 2
    ensures var o := Run([u1, u2], data, env, false);
      o.attempts[1].body == o.attempts[0].body
      && o.attempts[1].url == env.fill(ToString(u2), data)
  {
    assert [u1, u2][1..] == [u2];
    assert [u2][1..] == [];
  }

  /** `wpcf7_mail_sent()` as written: nothing when the form cannot submit;
      otherwise the loop over the form's hook URLs with the reformatting
      defect. The environment of a real submission is `EnvFor(...)`. */
  function MailSentAsWritten(props: PhpArray<Value>, data: PhpArray<Value>, env: Env): (o: Outcome)
    ensures !CanSubmit(props) ==> o == Outcome([], [], None)
    ensures CanSubmit(props) ==> o == Run(HookUrlsOf(props), data, env, true)
  {
    if !CanSubmit(props) then Outcome([], [], None)
    else Run(HookUrlsOf(props), data, env, true)
  }

  /** `wpcf7_mail_sent()` with the data kept: every hook URL gets the
      submission formatted once. */
  function MailSent(props: PhpArray<Value>, data: PhpArray<Value>, env: Env): (o: Outcome)
    ensures !CanSubmit(props) ==> o == Outcome([], [], None)
    ensures CanSubmit(props) ==> o == Run(HookUrlsOf(props), data, env, false)
  {
    if !CanSubmit(props) then Outcome([], [], None)
    else Run(HookUrlsOf(props), data, env, false)
  }

  /** A form that can submit sends to at least one endpoint, as written
      and corrected alike, when its hook URLs are strings (what saving the
      panel stores). */
  lemma CanSubmitAttempts(props: PhpArray<Value>, data: PhpArray<Value>, env: Env)
    requires forall i :: 0 <= i < |HookUrlsOf(props)| ==> !IsArray(HookUrlsOf(props)[i])
    ensures CanSubmit(props) ==> |MailSent(props, data, env).attempts| >= 1
    ensures CanSubmit(props) ==> |MailSentAsWritten(props, data, env).attempts| >= 1
  {
    if CanSubmit(props) {
      var urls := HookUrlsOf(props);
      var i :| 0 <= i < |urls| && UsableUrl(urls[i]);
      UsableNotEmpty(urls[i]);
      SomeAttempt(urls, data, env, false, i);
      SomeAttempt(urls, data, env, true, i);
    }
  }

  /** The environment of one submission: the source and website it
      reports, country detection as configured, and the dispatcher. */
  function EnvFor(props: PhpArray<Value>, referrer: string, req: Country.Request, charset: string,
                  network: Network, errorMessage: string -> string, lib: Library): (env: Env)
    ensures env.errorMessage == errorMessage
  {
    var source := Source(props, referrer, lib);
    var website := Website(referrer);
    var detected := Country.DetectIfEnabled(props, req, lib);
    Env((u, d) => Substitute(u, d, lib),
        d => AsFields(Format(d, props, source, website, detected, lib)),
        (d, u) => PullTheTrigger(d, u, props, charset, network, lib),
        errorMessage)
  }

  /** The formatting step of a submission's environment. */
  lemma EnvForFormat(props: PhpArray<Value>, referrer: string, req: Country.Request, charset: string,
                     network: Network, errorMessage: string -> string, lib: Library, d: PhpArray<Value>)
    ensures EnvFor(props, referrer, req, charset, network, errorMessage, lib).format(d)
      == AsFields(Format(d, props, Source(props, referrer, lib), Website(referrer), Country.DetectIfEnabled(props, req, lib), lib))
  {
  }

  /** The sending step of a submission's environment. */
  lemma EnvForSend(props: PhpArray<Value>, referrer: string, req: Country.Request, charset: string,
                   network: Network, errorMessage: string -> string, lib: Library, d: PhpArray<Value>, u: string)
    ensures EnvFor(props, referrer, req, charset, network, errorMessage, lib).send(d, u)
      == PullTheTrigger(d, u, props, charset, network, lib)
  {
  }

  /** The placeholder step of a submission's environment. */
  lemma EnvForFill(props: PhpArray<Value>, referrer: string, req: Country.Request, charset: string,
                   network: Network, errorMessage: string -> string, lib: Library, u: string, d: PhpArray<Value>)
    ensures EnvFor(props, referrer, req, charset, network, errorMessage, lib).fill(u, d) == Substitute(u, d, lib)
  {
  }

  /** Every attempt of a submission carries the same formatted data. */
  lemma MailSentSamePayload(props: PhpArray<Value>, data: PhpArray<Value>, env: Env, i: nat, j: nat)
    requires i < |MailSent(props, data, env).attempts| && j < |MailSent(props, data, env).attempts|
    ensures MailSent(props, data, env).attempts[i].body == MailSent(props, data, env).attempts[j].body
  {
    KeptDataSentEverywhere(HookUrlsOf(props), data, env, i);
    KeptDataSentEverywhere(HookUrlsOf(props), data, env, j);
  }
}

=== FILE: synonyms.dfy ===
/** The fixed field-name table of `format_data_for_actionnetwork()`: which
    submitted form field fills which slot of the Action Network `person`.

    A field name is looked up exactly as submitted (no case folding). A name
    in the synonym table is replaced by its slot name; any other name stands
    for itself, and it fills a slot only when it is literally one of the ten
    slot names. */
module Synonyms {
  import opened Php

  /** The ten core slots of the person record. */
  datatype Slot =
    | FamilyName
    | GivenName
    | PostalCode
    | AddressLines
    | Locality
    | Region
    | Country
    | EmailAddress   // 'address': the email address
    | EmailStatus    // 'status': the email subscription status
    | PhoneNumber    // 'number'

  /** The key under which the source names each slot. */
  function SlotName(s: Slot): string
  {
    match s
    case FamilyName => "family_name"
    case GivenName => "given_name"
    case PostalCode => "postal_code"
    case AddressLines => "address_lines"
    case Locality => "locality"
    case Region => "region"
    case Country => "country"
    case EmailAddress => "address"
    case EmailStatus => "status"
    case PhoneNumber => "number"
  }

  /** The slot a key names, if it names one (`array_key_exists` on the core
      field list). */
  function SlotOf(name: string): (r: Option<Slot>)
    ensures r.Some? ==> SlotName(r.value) == name
    ensures forall s :: SlotName(s) == name ==> r == Some(s)
  {
    match name
    case "family_name" => Some(FamilyName)
    case "given_name" => Some(GivenName)
    case "postal_code" => Some(PostalCode)
    case "address_lines" => Some(AddressLines)
    case "locality" => Some(Locality)
    case "region" => Some(Region)
    case "country" => Some(Country)
    case "address" => Some(EmailAddress)
    case "status" => Some(EmailStatus)
    case "number" => Some(PhoneNumber)
    case _ => None
  }

  /** The synonym table: the slot name a listed field name stands for. */
  function Synonym(key: string): Option<string>
  {
    match key
    case "email" => Some("address")
    case "your-email" => Some("address")
    case "email-address" => Some("address")
    case "first-name" => Some("given_name")
    case "your-name" => Some("given_name")
    case "first_name" => Some("given_name")
    case "firstname" => Some("given_name")
    case "given-name" => Some("given_name")
    case "given_name" => Some("given_name")
    case "last-name" => Some("family_name")
    case "your-last-name" => Some("family_name")
    case "last_name" => Some("family_name")
    case "lastname" => Some("family_name")
    case "family-name" => Some("family_name")
    case "family_name" => Some("family_name")
    case "surname" => Some("family_name")
    case "phone" => Some("number")
    case "your-phone" => Some("number")
    case "phone-number" => Some("number")
    case "telephone" => Some("number")
    case "mobile" => Some("number")
    case "address" => Some("address_lines")
    case "your-address" => Some("address_lines")
    case "street-address" => Some("address_lines")
    case "street_address" => Some("address_lines")
    case "address1" => Some("address_lines")
    case "city" => Some("locality")
    case "your-city" => Some("locality")
    case "locality" => Some("locality")
    case "town" => Some("locality")
    case "state" => Some("region")
    case "your-state" => Some("region")
    case "province" => Some("region")
    case "region" => Some("region")
    case "zip" => Some("postal_code")
    case "your-zip" => Some("postal_code")
    case "zipcode" => Some("postal_code")
    case "zip-code" => Some("postal_code")
    case "zip_code" => Some("postal_code")
    case "postal-code" => Some("postal_code")
    case "postal_code" => Some("postal_code")
    case "postcode" => Some("postal_code")
    case "country" => Some("country")
    case "your-country" => Some("country")
    case _ => None
  }

  /** The key a field name maps to: its synonym, or the name itself. */
  function MappedKey(key: string): string
  {
    match Synonym(key)
    case Some(slot) => slot
    case None => key
  }

  /** The slot a submitted field fills, or `None` when it is a custom field. */
  function Resolve(key: string): (r: Option<Slot>)
    ensures Synonym(key).Some? ==> r.Some? && SlotName(r.value) == Synonym(key).value
    ensures Synonym(key).None? ==> (r.Some? <==> exists s :: SlotName(s) == key)
    ensures r.Some? && Synonym(key).None? ==> SlotName(r.value) == key
  {
    SlotOf(MappedKey(key))
  }

  /** Every synonym names a slot, so a listed field is never a custom field,
      and the email address is reached only through its three synonyms. */
  lemma MappingTargetsSlots(key: string)
    requires Synonym(key).Some?
    ensures SlotOf(Synonym(key).value).Some?
    ensures Synonym(key) == Some("address") <==> key == "email" || key == "your-email" || key == "email-address"
  {
  }

  /** The names the settings panel documents for the first name all fill
      the given-name slot. */
  lemma GivenNameSynonyms()
    ensures Resolve("your-name") == Some(GivenName) && Resolve("first-name") == Some(GivenName)
    ensures Resolve("firstname") == Some(GivenName) && Resolve("given-name") == Some(GivenName)
    ensures Resolve("given_name") == Some(GivenName)
  {
  }

  /** The names the settings panel documents for the email address fill the
      email slot. */
  lemma EmailSynonyms()
    ensures Resolve("your-email") == Some(EmailAddress) && Resolve("email") == Some(EmailAddress)
    ensures Resolve("email-address") == Some(EmailAddress)
  {
  }

  /** Lookup is exact: a differently cased name is not a synonym. */
  lemma ResolveCaseSensitive()
    ensures Resolve("Email").None? && Resolve("First-Name").None?
  {
  }

  /** An unlisted name that is literally a slot name fills that slot. */
  lemma ResolvePassThrough()
    ensures Resolve("status") == Some(EmailStatus) && Resolve("number") == Some(PhoneNumber)
  {
  }

  /** The street address has no synonym of its own name, yet the name fills it. */
  lemma ResolveAddressLines()
    ensures Synonym("address_lines").None? && Resolve("address_lines") == Some(AddressLines)
  {
  }

  /** 'address' is a synonym of the street address, although the email
      address slot carries that name. */
  lemma AddressIsStreet()
    ensures Resolve("address") == Some(AddressLines)
  {
  }

  /** The keys of a formatted payload are not slots, so they become custom
      fields when fed back into the formatter. */
  lemma EnvelopeKeysAreCustom()
    ensures Resolve("person").None? && Resolve("triggers").None?
  {
  }

  /** Nor is the referrer key. */
  lemma ReferrerKeyIsCustom()
    ensures Resolve("action_network:referrer_data").None?
  {
  }

  /** Nor are the tag keys of a formatted payload. */
  lemma TagKeysAreCustom()
    ensures Resolve("add_tags").None? && Resolve("remove_tags").None?
  {
  }
}
